=== FILE: README.md ===
# Billing reconciliation of the SaaS template, in Dafny

This project models the billing core of a Rails SaaS starter application. It covers:

- the payment provider's webhook events: checkout completed, subscription created, updated and deleted, invoice paid, payment succeeded and payment failed;
- the service objects and the four controllers that turn those events into updates of the `accounts` table;
- the checkout, checkout-success and plan-change flows that open provider sessions;
- the plan catalog and the price-formatting helpers;
- the account-invitation and membership models with their two controllers;
- three small models: `Subscriber`, `ContactMessage` and `Task`.

The model has two kinds of member:

- **Pure functions.** A handler's effect on the table is a pure function of the rows (`Reconcile`, `HandleEvent`, ...). Its contract says which row the event correlates with. It also states, column by column, what that row becomes, that every other row is untouched, and that a miss writes nothing. The `accounts` invariant (unique ids, unique non-null customer ids) is preserved.
- **Methods over tables.** Where the Ruby code updates records in place, a method on a table class (`AccountTable`, `InvitationTable`, `MembershipTable`, `SubscriberTable`, `PlanCatalog`, `Task`) performs the update. Its `ensures` ties the new state to the pure function.

Webhook re-delivery is a central concern, so most handlers carry an idempotence lemma: applying the same event twice leaves the table as one application did.

Other conventions:

- `update!` writes only changed columns. So the unique index on `stripe_customer_id` can raise `RecordNotUnique` only when that column changes to a value another row holds (`AccountStore.Write`).
- Lookups with `find_by` return the first matching row; a nil key matches NULL columns.
- Ruby methods the application calls but never defines become function-valued parameters. Examples are `Plan#id`, `Plan#stripe_monthly_price_id`, `Account#sync_subscription` and `can_change_plan?`.
- Calls to the payment provider, signature verification, the clock and the random token generator are parameters too.

## Model

| member | source | states |
|---|---|---|
| Search.FirstIndex | app/models/plan.rb:29 | `find` returns the first index whose element satisfies the block, or none exactly when no element does |
| Search.FirstIndexFrom | app/models/plan.rb:29 | the same search from a start index: the hit satisfies the block and no earlier element from the start does |
| Search.FirstIndexRespectsPredicate | app/models/plan.rb:29 | two sequences that agree on the block at every index give the same first match |
| Text.Blank | app/controllers/stripe_controller.rb:7 | the definition of `blank?` on a value that may be nil: nil, or a string that is empty or whitespace only |
| Text.Present | app/controllers/stripe_checkout_controller.rb:34 | the definition of `present?`: not blank |
| Text.BlankString | app/controllers/stripe_controller.rb:7 | a string starting with a visible character is not blank |
| Text.PresentHasVisibleChar | app/controllers/stripe_controller.rb:7 | a present value is non-nil and holds a non-whitespace character |
| Text.Downcase | app/models/subscriber.rb:10-12 | same length; each character is lower-cased in place |
| Text.DowncaseIdempotent | app/models/subscriber.rb:10-12 | lower-casing twice equals lower-casing once |
| Text.NatToDecimal | app/models/plan.rb:44 | the printed form is a non-empty digit string without a leading zero |
| Text.DecimalRoundTrip | app/models/plan.rb:44 | reading the printed digits back gives the number |
| Text.DecimalInjective | app/models/plan.rb:44 | distinct numbers print differently |
| Text.IntToDecimal | app/models/plan.rb:44 | negative numbers print as "-" and the magnitude; others print as digits |
| Text.ToSentence | app/controllers/account_invitations_controller.rb:12 | empty gives "", one word gives itself, two are joined with " and ", three or more are all but the last joined by commas, then ", and " and the last; the length is every word plus the connectors |
| Text.JoinComma | app/controllers/account_invitations_controller.rb:12 | the words separated by ", ": starts with the first word and is every word plus two characters per separator |
| Text.JoinCommaCons | app/controllers/account_invitations_controller.rb:12 | read from the front, the list is the first word, ", " and the rest joined |
| Accounts.SubscriptionActive | app/models/account.rb:7-9 | the definition: the status is "active" |
| Accounts.SubscriptionPastDue | app/models/account.rb:11-13 | the definition: the status is "past_due" |
| Accounts.SubscriptionCanceled | app/models/account.rb:15-17 | the definition: the status is "canceled" |
| Accounts.SubscriptionIncomplete | app/models/account.rb:19-21 | the definition: the status is "incomplete" |
| Accounts.Subscribed | app/models/account.rb:23-25 | the definition: active or past due |
| Accounts.StatusPredicatesExclusive | app/models/account.rb:7-21 | at most one of active?, past_due?, canceled?, incomplete? holds |
| Accounts.SubscribedExactly | app/models/account.rb:23-25 | subscribed? holds iff the status is "active" or "past_due" |
| Accounts.NotSubscribedStatuses | app/models/account.rb:23-25 | nil, "trialing", "canceling" and "cancelled" are neither subscribed nor canceled |
| AccountStore.FindById | db/schema.rb:24-25 | the first row with the id; none iff no row has it |
| AccountStore.FindByCustomer | db/schema.rb:24 | the first row with the customer id (nil matches NULL); none iff no row has it |
| AccountStore.FindBySubscription | db/schema.rb:25 | the first row with the subscription id; none iff no row has it |
| AccountStore.Write | db/schema.rb:24 | the update raises RecordNotUnique iff the customer id changes to one another row holds; otherwise only row i changes, and the table invariant is kept |
| AccountStore.Assign | db/schema.rb:24 | a write that keeps the customer id always succeeds |
| AccountStore.FindByIdAfterWrite | db/schema.rb:24-25 | rewriting a row without touching its id leaves every id lookup unchanged |
| AccountStore.FindByCustomerAfterWrite | db/schema.rb:24 | rewriting a row without touching its customer id leaves every customer lookup unchanged |
| AccountStore.FindBySubscriptionAfterWrite | db/schema.rb:25 | rewriting a row without touching its subscription id leaves every subscription lookup unchanged |
| AccountStore.AccountTable.constructor | db/schema.rb:24-25 | the table starts with the given rows |
| AccountStore.AccountTable.Update | db/schema.rb:24 | `update!` in place: the rows become the successful write, or stay unchanged with RecordNotUnique |
| StripeObjects.FirstPriceIdStrict | app/controllers/stripe_controller.rb:29 | `items.data.first.price.id` without safe navigation is defined iff the first item exists and has a price |
| StripeMapping.MapStatus | app/services/stripe/subscription_created_handler.rb:39-47 | active, trialing and past_due map to themselves; canceled and unpaid map to "cancelled"; anything else maps to "none" |
| StripeMapping.MapStatusRange | app/services/stripe/subscription_created_handler.rb:39-47 | the mapped status is one of five values and never "canceled" |
| StripeMapping.PriceId | app/services/stripe/subscription_created_handler.rb:31-33 | nil without items, else the first item's price id |
| StripeMapping.PlanSlug | app/services/stripe/subscription_created_handler.rb:35-37 | the id of the first plan listing the price as monthly or annual id; "free" when none does |
| StripeMapping.PlanSlugWithoutItems | app/services/stripe/subscription_created_handler.rb:31-37 | a nil price id matches the first plan missing a price id |
| CheckoutCompletedHandler.FindAccount | app/services/stripe/checkout_completed_handler.rb:23-28 | no lookup for a nil reference; otherwise the row whose id is the client reference |
| CheckoutCompletedHandler.Reconcile | app/services/stripe/checkout_completed_handler.rb:8-19 | a miss returns nil and writes nothing; a hit sets customer and subscription ids on that row only; fails iff the new customer id is taken; keeps the invariant |
| CheckoutCompletedHandler.ReconcileIdempotent | app/services/stripe/checkout_completed_handler.rb:8-19 | delivering the event twice leaves the table as once |
| CheckoutCompletedHandler.CorrelatesByLocalId | app/services/stripe/checkout_completed_handler.rb:23-28 | a row not referenced by client_reference_id is never changed, whatever its customer id |
| CheckoutCompletedHandler.Call | app/services/stripe/checkout_completed_handler.rb:8-19 | the table is updated in place as Reconcile says, and the updated account (or nil) is returned |
| SubscriptionCreatedHandler.FindAccount | app/services/stripe/subscription_created_handler.rb:27-29 | the first row with the subscription's customer id; none iff no row has it |
| SubscriptionCreatedHandler.Reconcile | app/services/stripe/subscription_created_handler.rb:8-23 | a hit writes subscription id, mapped status, period start and end, price id and plan slug on that row only; no customer id changes; keeps the invariant |
| SubscriptionCreatedHandler.ReconcileIdempotent | app/services/stripe/subscription_created_handler.rb:8-23 | re-delivery leaves the table as the first delivery did |
| SubscriptionCreatedHandler.Call | app/services/stripe/subscription_created_handler.rb:8-23 | the table is updated in place as Reconcile says, returning the account |
| SubscriptionUpdatedHandler.FindAccount | app/services/stripe/subscription_updated_handler.rb:25-27 | the first row with the subscription id; none iff no row has it |
| SubscriptionUpdatedHandler.Reconcile | app/services/stripe/subscription_updated_handler.rb:8-21 | a hit writes mapped status, period end, price id and plan slug on that row only; keeps the invariant |
| SubscriptionUpdatedHandler.UnknownPriceResetsToFree | app/services/stripe/subscription_updated_handler.rb:33-35 | a price no catalog plan offers sets the plan to "free" |
| SubscriptionUpdatedHandler.PastDueStays | app/services/stripe/subscription_updated_handler.rb:37-45 | a past_due subscription leaves the account past_due and subscribed |
| SubscriptionUpdatedHandler.ReconcileIdempotent | app/services/stripe/subscription_updated_handler.rb:8-21 | re-delivery leaves the table as the first delivery did |
| SubscriptionUpdatedHandler.Call | app/services/stripe/subscription_updated_handler.rb:8-21 | the table is updated in place as Reconcile says |
| SubscriptionDeletedHandler.FindAccount | app/services/stripe/subscription_deleted_handler.rb:23-25 | the first row with the subscription id; none iff no row has it |
| SubscriptionDeletedHandler.Reconcile | app/services/stripe/subscription_deleted_handler.rb:8-19 | a hit writes status "cancelled" and the end date on that row only; keeps the invariant |
| SubscriptionDeletedHandler.CancelledIsNotCanceled | app/services/stripe/subscription_deleted_handler.rb:12-15 | the written "cancelled" satisfies neither canceled? nor subscribed? |
| SubscriptionDeletedHandler.ReconcileIdempotent | app/services/stripe/subscription_deleted_handler.rb:8-19 | re-delivery leaves the table as the first delivery did |
| SubscriptionDeletedHandler.Call | app/services/stripe/subscription_deleted_handler.rb:8-19 | the table is updated in place as Reconcile says |
| InvoicePaidHandler.FindAccount | app/services/stripe/invoice_paid_handler.rb:26-28 | the first row with the invoice's customer id; none iff no row has it |
| InvoicePaidHandler.Reconcile | app/services/stripe/invoice_paid_handler.rb:8-22 | nothing is written on a miss or for an invoice without subscription; otherwise the row becomes active and keeps or gets its start date |
| InvoicePaidHandler.ReconcileIdempotent | app/services/stripe/invoice_paid_handler.rb:8-22 | a second delivery, even later, changes nothing: the start date is kept |
| InvoicePaidHandler.Call | app/services/stripe/invoice_paid_handler.rb:8-22 | the table is updated in place as Reconcile says |
| InvoicePaymentFailedHandler.FindAccount | app/services/stripe/invoice_payment_failed_handler.rb:23-25 | the first row with the invoice's customer id; none iff no row has it |
| InvoicePaymentFailedHandler.Reconcile | app/services/stripe/invoice_payment_failed_handler.rb:8-19 | only the status of the matching row changes, to past_due, leaving the account subscribed |
| InvoicePaymentFailedHandler.ReconcileIdempotent | app/services/stripe/invoice_payment_failed_handler.rb:8-19 | applying the failure twice equals applying it once |
| InvoicePaymentFailedHandler.Call | app/services/stripe/invoice_payment_failed_handler.rb:8-19 | the table is updated in place as Reconcile says |
| WebhookHandler.HandlersTable | app/services/stripe/webhook_handler.rb:3-10 | six tags, no two mapped to the same class, every class mapped |
| WebhookHandler.RoutingFacts | app/services/stripe/webhook_handler.rb:3-10 | created and updated go to different handlers; invoice.paid is mapped, invoice.payment_succeeded is not |
| WebhookHandler.Run | app/services/stripe/webhook_handler.rb:21 | a handler fails only with NoMethodError (payload of the wrong kind) or RecordNotUnique, and keeps the invariant |
| WebhookHandler.Call | app/services/stripe/webhook_handler.rb:16-23 | an unmapped tag answers false and changes nothing; a mapped tag runs its handler and answers true |
| WebhookHandler.CallAnswersMapped | app/services/stripe/webhook_handler.rb:16-23 | the answer is true exactly for mapped tags, and the invariant is kept |
| WebhookHandler.MissStillTrue | app/services/stripe/webhook_handler.rb:16-23 | a paid invoice for an unknown customer changes nothing yet answers true |
| WebhookProcessor.Target | app/services/stripe/webhook_processor.rb:11-23 | exactly payment_failed, subscription.updated and subscription.deleted are dispatched, each to its own class |
| WebhookProcessor.Call | app/services/stripe/webhook_processor.rb:11-23 | the delegate's result for a dispatched tag, true for every other tag |
| WebhookProcessor.ClassCall | app/services/stripe/webhook_processor.rb:3-5 | `.call(event)` behaves as `new(event).call` |
| WebhookProcessor.NotDispatchedHere | app/services/stripe/webhook_processor.rb:11-23 | checkout completion, invoice.paid and subscription.created are only acknowledged here although the handler table maps them |
| WebhookProcessor.AgreesWithHandlerTable | app/services/stripe/webhook_processor.rb:11-23 | every tag dispatched here goes to the class the handler table names |
| WebhooksStripeController.SigningSecret | app/controllers/webhooks/stripe_controller.rb:29-30 | the credentials secret when set, else the environment variable |
| WebhooksStripeController.ConstructEvent | app/controllers/webhooks/stripe_controller.rb:26-36 | the event is what verification yields under the chosen secret |
| WebhooksStripeController.HandleCheckoutSessionCompleted | app/controllers/webhooks/stripe_controller.rb:38-48 | correlates by the session's customer id; syncs that account; rows of other customers are untouched |
| WebhooksStripeController.HandleSubscriptionUpdated | app/controllers/webhooks/stripe_controller.rb:50-58 | the customer's account is synced; a miss changes nothing |
| WebhooksStripeController.HandleSubscriptionDeleted | app/controllers/webhooks/stripe_controller.rb:60-68 | the customer's account is cancelled; a miss changes nothing |
| WebhooksStripeController.HandleInvoicePaymentSucceeded | app/controllers/webhooks/stripe_controller.rb:70-82 | no subscription or no account: nothing; otherwise the billing period is updated |
| WebhooksStripeController.HandleInvoicePaymentFailed | app/controllers/webhooks/stripe_controller.rb:84-92 | the customer's account becomes past_due; invariant kept |
| WebhooksStripeController.PaymentFailedIdempotent | app/controllers/webhooks/stripe_controller.rb:84-92 | a repeated failure changes nothing more |
| WebhooksStripeController.HandleEvent | app/controllers/webhooks/stripe_controller.rb:15-24 | each of the five tags goes to its handler; any other tag changes nothing |
| WebhooksStripeController.CreatedIsIgnored | app/controllers/webhooks/stripe_controller.rb:15-24 | subscription.created and invoice.paid change nothing here |
| WebhooksStripeController.Create | app/controllers/webhooks/stripe_controller.rb:5-11 | no event: 400 and nothing written; otherwise the table becomes HandleEvent's result and the answer is 200 |
| ApiStripeController.ConstructEvent | app/controllers/api/stripe_controller.rb:13-21 | verification with the credentials secret only |
| ApiStripeController.FindByReference | app/controllers/api/stripe_controller.rb:37 | the row whose id is the client reference; nil reference finds nothing |
| ApiStripeController.HandleCheckoutCompleted | app/controllers/api/stripe_controller.rb:36-47 | the referenced account gets customer and subscription ids, plan pro, status active, start now; fails only on a taken customer id |
| ApiStripeController.HandleSubscriptionUpdated | app/controllers/api/stripe_controller.rb:49-57 | by subscription id: the raw status and the period end are written |
| ApiStripeController.HandleSubscriptionDeleted | app/controllers/api/stripe_controller.rb:59-69 | by subscription id: plan free, subscription id and status cleared, ends now |
| ApiStripeController.DeleteRedeliveryIsNoOp | app/controllers/api/stripe_controller.rb:59-69 | when one account held the subscription, a second delete, even later, changes nothing |
| ApiStripeController.HandlePaymentFailed | app/controllers/api/stripe_controller.rb:71-76 | the customer's account becomes past_due |
| ApiStripeController.HandleEvent | app/controllers/api/stripe_controller.rb:23-34 | four tags dispatched; others change nothing; invariant kept |
| ApiStripeController.Webhook | app/controllers/api/stripe_controller.rb:3-9 | no event: 400 and nothing written; otherwise HandleEvent's table and 200 |
| StripeWebhooksController.UpdatedStatus | app/controllers/stripe_webhooks_controller.rb:40-50 | "canceling" when cancelling at period end, else the raw status |
| StripeWebhooksController.HandleSubscriptionUpdated | app/controllers/stripe_webhooks_controller.rb:36-51 | by subscription id: only status and period end change |
| StripeWebhooksController.CancelAtPeriodEndWins | app/controllers/stripe_webhooks_controller.rb:40-45 | a subscription set to cancel reads "canceling" and is not subscribed |
| StripeWebhooksController.HandleSubscriptionDeleted | app/controllers/stripe_webhooks_controller.rb:53-63 | by subscription id: canceled, plan free, subscription id and period end cleared |
| StripeWebhooksController.DeleteRedeliveryIsNoOp | app/controllers/stripe_webhooks_controller.rb:53-63 | when one account held the subscription, a second delete changes nothing |
| StripeWebhooksController.HandleEvent | app/controllers/stripe_webhooks_controller.rb:27-34 | only the two subscription tags act; invariant kept |
| StripeWebhooksController.Create | app/controllers/stripe_webhooks_controller.rb:5-23 | a failed verification answers 400 and writes nothing; otherwise HandleEvent's table and 200 |
| StripeController.PlanFromPriceId | app/controllers/stripe_controller.rb:102-111 | "pro" iff the pro price id, "business" iff the business one (and not pro), else "free" |
| StripeController.CheckoutSessionParams | app/controllers/stripe_controller.rb:11-18 | exactly six keys: customer, subscription mode, one line item, success URL with the session placeholder, the cancel URL, account metadata |
| StripeController.Checkout | app/controllers/stripe_controller.rb:2-21 | signed out: sign-in redirect; a blank price redirects with "Invalid price" and opens no session; no current account raises NoMethodError; a failed customer creation propagates; otherwise the session opens with the new customer and the account id |
| StripeController.Cancel | app/controllers/stripe_controller.rb:39-41 | signed out: sign-in redirect; otherwise back to the plan page with "Checkout was canceled." |
| StripeController.SuccessUpdate | app/controllers/stripe_controller.rb:23-37 | the current account takes the subscription's ids, status, price and plan; no current account or price item raises NoMethodError |
| StripeController.Success | app/controllers/stripe_controller.rb:2-37 | signed out: sign-in redirect, nothing retrieved or written; both retrievals happen first and each one's own error propagates with the table unchanged; otherwise the table becomes SuccessUpdate's result |
| StripeController.UpdatedStatus | app/controllers/stripe_controller.rb:78 | "active" stays active; every other status becomes past_due |
| StripeController.HandleSubscriptionUpdated | app/controllers/stripe_controller.rb:71-83 | by customer id: status, price and plan of that row change; invariant kept |
| StripeController.TrialingBecomesPastDue | app/controllers/stripe_controller.rb:78 | a trialing subscription is recorded as past_due |
| StripeController.HandleSubscriptionDeleted | app/controllers/stripe_controller.rb:85-93 | by customer id: canceled and free |
| StripeController.HandlePaymentFailed | app/controllers/stripe_controller.rb:95-100 | the customer's account becomes past_due |
| StripeController.HandleEvent | app/controllers/stripe_controller.rb:60-69 | created and updated share a handler; deleted and payment_failed dispatched; other tags change nothing |
| StripeController.CreatedAndUpdatedShareHandler | app/controllers/stripe_controller.rb:62 | the created and updated tags have the same effect on the same payload |
| StripeController.Webhook | app/controllers/stripe_controller.rb:43-56 | verification with STRIPE_WEBHOOK_SECRET; no event answers 400 and writes nothing |
| CheckoutsController.AlreadyProcessed | app/controllers/checkouts_controller.rb:38-40 | the definition: the account's subscription id equals the session's, nil when the session has none |
| CheckoutsController.ExtractCustomerId | app/controllers/checkouts_controller.rb:58-60 | a string customer is itself, an object gives its id, nil raises NoMethodError |
| CheckoutsController.NoSubscriptionCountsAsProcessed | app/controllers/checkouts_controller.rb:38-40 | without a subscription the session counts as processed iff the account has no subscription id |
| CheckoutsController.DeterminePlan | app/controllers/checkouts_controller.rb:62-64 | the first plan offering the price, else "free" |
| CheckoutsController.WithSubscription | app/controllers/checkouts_controller.rb:47-56 | fails with NoMethodError iff the customer, the subscription or its price is missing; otherwise the attributes are written |
| CheckoutsController.SuccessOutcome | app/controllers/checkouts_controller.rb:6-17 | the before actions in order (sign-in, session id, current account), then retrieval, status, already processed, update; only the rendered page writes |
| CheckoutsController.NoRetrievalWithoutSessionId | app/controllers/checkouts_controller.rb:21-23 | without a session id the answer does not depend on retrieval |
| CheckoutsController.SecondVisitIsAlreadyActive | app/controllers/checkouts_controller.rb:38-45 | a second visit after a successful one writes nothing more |
| CheckoutsController.Success | app/controllers/checkouts_controller.rb:6-17 | the table and answer in place are SuccessOutcome's |
| StripeCheckoutController.ValidInterval | app/controllers/stripe_checkout_controller.rb:8 | the definition: the interval is "monthly" or "annual" |
| StripeCheckoutController.SelectedPrice | app/controllers/stripe_checkout_controller.rb:12 | the monthly price id for "monthly", else the annual one |
| StripeCheckoutController.SessionParams | app/controllers/stripe_checkout_controller.rb:24-45 | exactly eight keys: one line item, subscription mode, success and cancel URLs, promotion codes, automatic tax, the trial days, and the customer id when present or else the user's email |
| StripeCheckoutController.CheckoutParams | app/controllers/stripe_checkout_controller.rb:25-42 | the definition of the checkout session hash: its exact keys and each value |
| StripeCheckoutController.CustomerOrEmail | app/controllers/stripe_checkout_controller.rb:34-38 | the session names the customer iff the account has one, the email otherwise, never both |
| StripeCheckoutController.Decide | app/controllers/stripe_checkout_controller.rb:4-20 | the plan lookup raises first; then the interval; then a blank price redirects; otherwise plan and price |
| StripeCheckoutController.Create | app/controllers/stripe_checkout_controller.rb:2-20 | signed out: sign-in redirect and no session; Decide's errors and redirects pass through; no current account raises NoMethodError; otherwise a session with exactly the checkout params and a redirect to it |
| StripeCheckoutController.PlanLookedUpFirst | app/controllers/stripe_checkout_controller.rb:5 | an unknown plan raises PlanNotFound whatever the interval |
| PlanChangesController.Filters | app/controllers/plan_changes_controller.rb:5-9 | sign-in, active subscription, target plan, then a target differing from the current plan, each with its redirect |
| PlanChangesController.New | app/controllers/plan_changes_controller.rb:11-15 | behind the filters; the account's current plan, the target, the interval defaulting to monthly, and an upgrade iff `upgrading_to?` |
| PlanChangesController.SessionParams | app/controllers/plan_changes_controller.rb:56-74 | exactly the customer (or nil), one line item, subscription mode, success URL, the cancel URL back to the target plan and interval, promotion codes, automatic tax, and proration data iff upgrading |
| PlanChangesController.PlanChangeParams | app/controllers/plan_changes_controller.rb:57-71 | the definition of the plan-change session hash: its exact keys and each value |
| PlanChangesController.PlanChangeReusesCustomer | app/controllers/plan_changes_controller.rb:57-71 | a plan change names the customer and never an email; subscription_data iff upgrading |
| PlanChangesController.CreateDecision | app/controllers/plan_changes_controller.rb:17-30 | an invalid interval, then a blank price, each redirect back with an alert |
| PlanChangesController.Create | app/controllers/plan_changes_controller.rb:17-30 | a session is opened only when filters and decision pass, with exactly the plan-change params (the account's customer, the cancel URL for the target plan) |
| Plans.New | app/models/plan.rb:8-22 | key, name, description, both prices, both price ids and badge copied; the other attributes kept or defaulted to [], false, 0, {} and "Get Started" |
| Plans.Find | app/models/plan.rb:28-32 | the first plan whose key equals `key.to_s`; PlanNotFound with the message iff none |
| Plans.FindSymbolOrString | app/models/plan.rb:29 | a symbol and the same string find the same plan |
| Plans.Recommended | app/models/plan.rb:34-36 | the first recommended plan; none iff no plan is |
| Plans.PriceDisplay | app/models/plan.rb:42-50 | "Free" for zero, "$" and the number otherwise |
| Plans.PriceDisplayInjective | app/models/plan.rb:42-50 | equal displays come from equal prices |
| Plans.MonthlyPriceDisplay | app/models/plan.rb:42-45 | the definition: PriceDisplay of the monthly price |
| Plans.AnnualPriceDisplay | app/models/plan.rb:47-50 | the definition: PriceDisplay of the annual price |
| Plans.IsFree | app/models/plan.rb:67-69 | the definition: both prices are zero |
| Plans.FreeIffBothDisplayFree | app/models/plan.rb:67-69 | a plan is free iff both its price displays read "Free" |
| Plans.DisplayStartsWithF | app/models/plan.rb:42-50 | the display starts with 'F' iff the price is zero |
| Plans.RoundQuotient | app/models/plan.rb:60 | the nearest integer to n/d, halves away from zero |
| Plans.AnnualDiscountPercent | app/models/plan.rb:57-61 | 0 when either price is zero, else the saving percentage rounded to the nearest integer, a half away from zero, for either sign of the monthly price |
| Plans.RoundQuotientUnique | app/models/plan.rb:60 | the nearest-integer bounds and tie rules admit exactly one result |
| Plans.RationalHalfRoundsUp | app/models/plan.rb:57-61 | monthly 50 and annual 513 give 15 on exact rationals, where floating point gives 14 |
| Plans.HalfPercentRoundsUp | app/models/plan.rb:57-61 | a saving of exactly 12.5% gives 13 |
| Plans.ProDiscountIsSeventeen | app/models/plan.rb:57-61 | $29 monthly against $290 annually is a 17% discount |
| Plans.NoDiscountAtTwelveMonths | app/models/plan.rb:57-61 | an annual price of twelve months has no discount |
| Plans.RoundQuotientOfZero | app/models/plan.rb:60 | rounding zero gives zero |
| Plans.PlanCatalog.constructor | app/models/plan.rb:24-26 | the memo starts empty |
| Plans.PlanCatalog.All | app/models/plan.rb:24-26 | a set memo is returned unchanged; an empty one is filled with the loaded plans |
| Plans.PlanCatalog.Reload | app/models/plan.rb:38-40 | the memo is cleared |
| Plans.AllIsCached | app/models/plan.rb:24-26 | two calls without reload agree, whatever the YAML reads the second time |
| PlansHelper.TwoDigits | app/helpers/plans_helper.rb:5 | two digits denoting the remainder |
| PlansHelper.FormatPlanPrice | app/helpers/plans_helper.rb:2-6 | "Free" for zero; whole dollars without cents; otherwise dollars and two-digit cents |
| PlansHelper.FormatPlanPriceExamples | app/helpers/plans_helper.rb:2-6 | 2900 reads "$29", 29000 reads "$290", 2950 reads "$29.50" |
| PlansHelper.FormatPlanPriceDenotesCents | app/helpers/plans_helper.rb:2-6 | the printed dollars and cents denote the input |
| PlansHelper.AnnualMonthlyPrice | app/helpers/plans_helper.rb:8-10 | floor division of the annual price by 12 |
| PlansHelper.ProAnnualMonthlyPrice | app/helpers/plans_helper.rb:8-10 | the Pro plan's 290 a year gives 24 a month |
| BillingHelper.TrialStatusText | app/helpers/billing_helper.rb:14-17 | the definition: "Trialing" without a period end, else "Trial ends" and the date |
| BillingHelper.CanceledStatusText | app/helpers/billing_helper.rb:19-22 | the definition: "Cancels" and the date while the period end is in the future, else "Canceled" |
| BillingHelper.SubscriptionStatusText | app/helpers/billing_helper.rb:2-23 | "No Subscription" for blank; trial and cancel texts by period end; titleized otherwise |
| BillingHelper.CancelsOnlyForCanceled | app/helpers/billing_helper.rb:5-9 | the "cancelled" status written by the deletion handler is only titleized |
| Memberships.RoleValue | app/models/membership.rb:2 | each role is stored as one of the three strings |
| Memberships.ParseRole | app/models/membership.rb:2 | exactly the three strings name a role, and parse back |
| Memberships.RoleRoundTrip | app/models/membership.rb:2 | every role survives a round trip through its string |
| Memberships.Errors | app/models/membership.rb:4-7 | valid iff user and account exist and the pair is not taken |
| Memberships.MembershipTable.constructor | app/models/membership.rb:7 | the table starts empty |
| Memberships.MembershipTable.Create | app/models/membership.rb:4-7 | `create!`: a valid draft is appended with its role (member by default); otherwise RecordInvalid; uniqueness kept |
| Memberships.SecondMembershipRefused | app/models/membership.rb:7 | a second membership for the same pair fails with "User has already been taken" |
| Invitations.Accepted | app/models/account_invitation.rb:21-23 | the definition: accepted_at is set |
| Invitations.Expired | app/models/account_invitation.rb:25-27 | the definition: now is strictly after expires_at |
| Invitations.Pending | app/models/account_invitation.rb:17-19 | the definition: not accepted and not expired |
| Invitations.LifecycleStates | app/models/account_invitation.rb:17-27 | pending iff not accepted and not expired |
| Invitations.PendingIsMonotone | app/models/account_invitation.rb:17-19 | pending now implies pending at every earlier time |
| Invitations.GenerateToken | app/models/account_invitation.rb:40-42 | an existing token is kept, else the random one is set |
| Invitations.SetExpiration | app/models/account_invitation.rb:44-46 | an existing expiry is kept, else seven days from now |
| Invitations.BeforeValidation | app/models/account_invitation.rb:14-15 | both callbacks fill token and expiry; other fields untouched |
| Invitations.FreshExpiresInSevenDays | app/models/account_invitation.rb:2 | a new invitation expires 604800 seconds after creation |
| Invitations.Errors | app/models/account_invitation.rb:10-12 | valid iff the email is present and well formed, the token unique and the email not yet invited to the account |
| Invitations.FindByToken | app/controllers/invitation_acceptances_controller.rb:33 | the first invitation with the token: no earlier row has it; none iff no row has it |
| Invitations.FindByTokenFrom | app/controllers/invitation_acceptances_controller.rb:33 | the first row from a start index with the token: no row between them has it; none iff no row from there has it |
| Invitations.InvitationTable.constructor | app/models/account_invitation.rb:10-12 | the table starts empty |
| Invitations.InvitationTable.Save | app/models/account_invitation.rb:10-15 | callbacks then validations; a valid draft is appended, otherwise the full messages; uniqueness kept |
| Invitations.InvitedOncePerAccount | app/models/account_invitation.rb:12 | an already invited email cannot be invited again to that account |
| Invitations.Accept | app/models/account_invitation.rb:29-36 | raises if accepted, then if expired; a taken (user, account) pair fails with "User has already been taken" and writes nothing; otherwise appends a member membership and stamps accepted_at on that row only; both uniqueness invariants kept |
| InvitationAcceptancesController.WrongRecipient | app/controllers/invitation_acceptances_controller.rb:36-41 | the definition: a signed-in user, a pending invitation, and emails that differ once lower-cased |
| InvitationAcceptancesController.Lookup | app/controllers/invitation_acceptances_controller.rb:32-34 | the invitation found by token, if any |
| InvitationAcceptancesController.Show | app/controllers/invitation_acceptances_controller.rb:5-15 | wrong recipient, nil, expired, accepted redirects in order; a pending one stores its token and renders |
| InvitationAcceptancesController.CaseInsensitiveRecipient | app/controllers/invitation_acceptances_controller.rb:36-41 | emails differing only in case pass the recipient check |
| InvitationAcceptancesController.Accept | app/controllers/invitation_acceptances_controller.rb:17-50 | wrong recipient, then nil or non-pending, redirect; anonymous goes to registration; the recipient joins: one membership appended, only the found row gets accepted_at = now, the token is cleared; a taken pair fails with "User has already been taken" and writes nothing; invariants kept |
| InvitationAcceptancesController.TokenStillFound | app/controllers/invitation_acceptances_controller.rb:43-50 | stamping accepted_at keeps the token lookup on the same row |
| InvitationAcceptancesController.FindByTokenUnchanged | app/controllers/invitation_acceptances_controller.rb:32-34 | tables with the same tokens answer every lookup alike |
| AccountInvitationsController.Create | app/controllers/account_invitations_controller.rb:2-14 | sign-in required; no current account raises; the saved invitation (next id, account, inviter, email, generated token and expiry, not accepted) is appended and mailed with a notice; otherwise the full messages as one sentence and nothing written |
| AccountInvitationsController.Accept | app/controllers/account_invitations_controller.rb:16-30 | nil, expired, accepted, already member, join, anonymous sign-up, in that order |
| Subscribers.Subscriber.constructor | app/models/subscriber.rb:1 | the new subscriber holds the given email |
| Subscribers.Subscriber.DowncaseEmail | app/models/subscriber.rb:10-12 | the email field is replaced by its lower-case form |
| Subscribers.Errors | app/models/subscriber.rb:2-4 | valid iff present, not subscribed in any letter case, and well formed |
| Subscribers.SubscriberTable.constructor | app/models/subscriber.rb:1 | the table starts empty |
| Subscribers.SubscriberTable.Save | app/models/subscriber.rb:2-6 | validation, then downcase in place, then insert; stored emails stay lower-case and unique |
| Subscribers.CaseVariantRefused | app/models/subscriber.rb:3 | an email differing from a stored one only in case is already subscribed |
| ContactMessages.Errors | app/models/contact_message.rb:2-5 | valid iff name, email, title and message are present and the email well formed; each message iff its fault |
| ContactMessages.OneMissingFieldOneError | app/models/contact_message.rb:2-5 | a single missing field yields exactly its own message |
| ContactMessages.MalformedEmail | app/models/contact_message.rb:3 | a present but malformed email is invalid, not blank |
| Tasks.Errors | app/models/task.rb:4-7 | valid iff the project exists, the name is present and the status is listed |
| Tasks.Task.constructor | app/models/task.rb:1 | the task holds the given attributes |
| Tasks.Task.Restart | app/models/task.rb:9-11 | status becomes pending in place; succeeds iff project and name are present, else RecordInvalid without a status error |
| Tasks.RestartIdempotent | app/models/task.rb:9-11 | restarting twice gives the same result and state |

## Left out

- Webhook signature verification and JSON parsing are the `Verifier` parameter: an event, or none on a parse or signature failure.
- Calls to the payment provider's API (session and subscription retrieval, session creation) are parameters; their network failures are not modelled.
- Methods the application calls but does not define are parameters: `Plan#id`, `Plan#stripe_monthly_price_id`, `Account#sync_subscription`, `cancel_subscription`, `update_billing_period`, `can_change_plan?`, `upgrading_to?`, `current_plan`, `Plan.find_by` and the handlers' class-level `.call`.
- `current_account.invitations` is not declared on `Account`; the model assumes it builds an invitation for the current account.
- `annual_monthly_equivalent` works in floating point and is not modelled.
- Catalog prices are assumed present and integral: a YAML entry without a price (nil in `Plan#initialize`, on which `monthly_price_display` would raise) is not represented.
- A checkout session's `client_reference_id` is taken already cast to an integer id; the string cast `find_by(id:)` performs ("" finds nothing, "12abc" finds 12) is not modelled.
- Plans.AnnualDiscountPercent: computes the saving on exact rationals rather than in floating point, so a float quotient that lands just below a half rounds differently (monthly 50, annual 513: the source gets 14.499999999999998 and 14, the model 15).
- `blank?` and `downcase` cover ASCII only; Unicode whitespace and case folding are not modelled.
- The `enum :plan` on `Account` would reject unknown plan strings; the plan is a plain string here.
- Logging, mailers (`deliver_later`) and notifications are not modelled; an email that would be sent is only returned.
- Concurrency, transactions and rate limiting are not modelled.
- Time zone conversion of timestamps is not modelled; times are integer seconds, and `strftime` and `titleize` are parameters.
- URL helpers are strings or `Path` constructors; the HTTP 303 status of `see_other` redirects is not modelled.
- A payload of another kind than its tag promises is modelled as NoMethodError.
- Devise's sign-in redirect is modelled without its flash text.
- After a successful checkout visit, the view's plan lookup and interval are not modelled.
- The "Unable to accept invitation" branch is unreachable: `accept!` returns a membership or raises.
- Invitations.Accept: the re-validation of the invitation by `update!` is not modelled, since only `accepted_at` changes.
- Where the specs disagree with the code (the deletion handler's status, the payment-failed handler's return, the updated handler's fields, and `annual_monthly_price`, whose spec expects 2416 for the Pro plan while its annual price of 290 gives 24), the model follows the code.
- `create_stripe_customer` is not defined on `Account` in the files modelled; StripeController.Checkout takes it as a parameter that yields a customer id or an error.

=== FILE: account.dfy ===
/** app/models/account.rb: the Account record (its billing columns from the
    schema and migrations) and its subscription-status predicates. */
module Accounts {
  import opened Wrappers

  /** One row of the accounts table. Timestamps are integers (seconds). */
  datatype Account = Account(
    id: int,
    name: string,
    plan: string,
    subscriptionStatus: Option<string>,
    stripeCustomerId: Option<string>,
    stripeSubscriptionId: Option<string>,
    stripePriceId: Option<string>,
    subscriptionStartedAt: Option<int>,
    subscriptionEndsAt: Option<int>,
    currentPeriodEndsAt: Option<int>)

  predicate SubscriptionActive(a: Account) {
    a.subscriptionStatus == Some("active")
  }

  predicate SubscriptionPastDue(a: Account) {
    a.subscriptionStatus == Some("past_due")
  }

  predicate SubscriptionCanceled(a: Account) {
    a.subscriptionStatus == Some("canceled")
  }

  predicate SubscriptionIncomplete(a: Account) {
    a.subscriptionStatus == Some("incomplete")
  }

  /** `subscribed?`: the account pays or is being dunned. */
  predicate Subscribed(a: Account) {
    SubscriptionActive(a) || SubscriptionPastDue(a)
  }

  /** The four status predicates are mutually exclusive. */
  lemma StatusPredicatesExclusive(a: Account)
    ensures (if SubscriptionActive(a) then 1 else 0) + (if SubscriptionPastDue(a) then 1 else 0)
          + (if SubscriptionCanceled(a) then 1 else 0) + (if SubscriptionIncomplete(a) then 1 else 0) <= 1
  {
  }

  /** `subscribed?` holds exactly for the two literals "active" and "past_due". */
  lemma SubscribedExactly(a: Account)
    ensures Subscribed(a) <==> a.subscriptionStatus.Some? && a.subscriptionStatus.value in {"active", "past_due"}
  {
  }

  /** Statuses written elsewhere that do not count as subscribed: nil,
      "trialing", "canceling" and the British "cancelled". */
  lemma NotSubscribedStatuses(a: Account)
    requires a.subscriptionStatus in {None, Some("trialing"), Some("canceling"), Some("cancelled")}
    ensures !Subscribed(a) && !SubscriptionCanceled(a)
  {
  }
}

=== FILE: account_invitation.dfy ===
/** app/models/account_invitation.rb: an emailed invitation to join an
    account, its lifecycle predicates, the callbacks and validations that
    run when it is created, and `accept!`. Times are integer seconds. */
module Invitations {
  import opened Wrappers
  import opened Text
  import opened Web
  import Memberships

  /** `EXPIRATION_DAYS` and the span it gives, in seconds. */
  const ExpirationDays: int := 7
  const ExpirationSeconds: int := ExpirationDays * 24 * 60 * 60

  /** A saved invitation. */
  datatype Invitation = Invitation(
    id: int,
    accountId: int,
    inviterId: int,
    email: string,
    token: string,
    acceptedAt: Option<int>,
    expiresAt: int)

  /** `accepted?`: `accepted_at` is set. */
  predicate Accepted(inv: Invitation) {
    inv.acceptedAt.Some?
  }

  /** `expired?`: now is strictly after `expires_at`. */
  predicate Expired(inv: Invitation, now: int) {
    now > inv.expiresAt
  }

  /** `pending?`: not accepted and not expired. */
  predicate Pending(inv: Invitation, now: int) {
    inv.acceptedAt.None? && !Expired(inv, now)
  }

  /** Every invitation is in exactly one of three states at a given time:
      pending, accepted, or unaccepted and expired. */
  lemma LifecycleStates(inv: Invitation, now: int)
    ensures Pending(inv, now) <==> !Accepted(inv) && !Expired(inv, now)
    ensures Pending(inv, now) ==> !Accepted(inv)
    ensures !Pending(inv, now) ==> Accepted(inv) || Expired(inv, now)
  {
  }

  /** An invitation that is pending now was pending at every earlier time. */
  lemma PendingIsMonotone(inv: Invitation, earlier: int, now: int)
    requires earlier <= now && Pending(inv, now)
    ensures Pending(inv, earlier)
  {
  }

  /** An unsaved invitation as the controller builds it. */
  datatype Draft = Draft(
    accountId: int,
    inviterId: int,
    email: Option<string>,
    token: Option<string>,
    expiresAt: Option<int>)

  /** `generate_token`: `token ||= ...`; an existing token is kept and
      `randomToken` is used only when there is none. */
  function GenerateToken(d: Draft, randomToken: string): (r: Draft)
    ensures d.token.Some? ==> r == d
    ensures d.token.None? ==> r == d.(token := Some(randomToken))
    ensures r.token.Some?
  {
    if d.token.Some? then d else d.(token := Some(randomToken))
  }

  /** `set_expiration`: `expires_at ||= 7.days.from_now`. */
  function SetExpiration(d: Draft, now: int): (r: Draft)
    ensures d.expiresAt.Some? ==> r == d
    ensures d.expiresAt.None? ==> r == d.(expiresAt := Some(now + ExpirationSeconds))
    ensures r.expiresAt.Some?
  {
    if d.expiresAt.Some? then d else d.(expiresAt := Some(now + ExpirationSeconds))
  }

  /** Both callbacks, in declaration order, before validation on create. */
  function BeforeValidation(d: Draft, randomToken: string, now: int): (r: Draft)
    ensures r.token == Some(d.token.GetOr(randomToken)) && r.expiresAt == Some(d.expiresAt.GetOr(now + ExpirationSeconds))
    ensures r.email == d.email && r.accountId == d.accountId && r.inviterId == d.inviterId
  {
    SetExpiration(GenerateToken(d, randomToken), now)
  }

  /** A randomToken invitation expires seven days after it is created. */
  lemma FreshExpiresInSevenDays(accountId: int, inviterId: int, email: Option<string>, randomToken: string, now: int)
    ensures BeforeValidation(Draft(accountId, inviterId, email, None, None), randomToken, now).expiresAt == Some(now + 604800)
  {
  }

  /** Another invitation of the same account has this email. */
  predicate EmailInvited(rows: seq<Invitation>, accountId: int, email: string) {
    exists j :: 0 <= j < |rows| && rows[j].accountId == accountId && rows[j].email == email
  }

  /** Another invitation has this token. */
  predicate TokenTaken(rows: seq<Invitation>, token: string) {
    exists j :: 0 <= j < |rows| && rows[j].token == token
  }

  /** The full error messages, in the order the validators are declared:
      email presence and format (a nil email is checked as the empty
      string), token presence and uniqueness, email uniqueness within the
      account. `isEmail` is `URI::MailTo::EMAIL_REGEXP`. */
  function Errors(rows: seq<Invitation>, d: Draft, isEmail: string -> bool): (r: seq<string>)
    ensures Blank(d.email) ==> "Email can't be blank" in r
    ensures !isEmail(d.email.GetOr("")) ==> "Email is invalid" in r
    ensures d.email.Some? && EmailInvited(rows, d.accountId, d.email.value) ==>
              "Email has already been invited to this account" in r
    ensures r == [] <==>
      && !Blank(d.email) && isEmail(d.email.value)
      && !Blank(d.token) && !TokenTaken(rows, d.token.value)
      && !EmailInvited(rows, d.accountId, d.email.value)
  {
    (if Blank(d.email) then ["Email can't be blank"] else [])
    + (if !isEmail(d.email.GetOr("")) then ["Email is invalid"] else [])
    + (if Blank(d.token) then ["Token can't be blank"] else [])
    + (if d.token.Some? && TokenTaken(rows, d.token.value) then ["Token has already been taken"] else [])
    + (if d.email.Some? && EmailInvited(rows, d.accountId, d.email.value)
       then ["Email has already been invited to this account"] else [])
  }

  /** Tokens are unique, and so is each email within an account. */
  predicate Valid(rows: seq<Invitation>) {
    && (forall i, j :: 0 <= i < j < |rows| ==> rows[i].token != rows[j].token)
    && (forall i, j :: 0 <= i < j < |rows| && rows[i].accountId == rows[j].accountId ==> rows[i].email != rows[j].email)
  }

  /** `AccountInvitation.find_by(token: ...)`; a nil token finds nothing
      because the column is never NULL. */
  function FindByToken(rows: seq<Invitation>, token: Option<string>): (r: Option<nat>)
    ensures r.Some? ==> r.value < |rows| && Some(rows[r.value].token) == token
    ensures r.Some? ==> forall j :: 0 <= j < r.value ==> Some(rows[j].token) != token
    ensures r.None? <==> forall j :: 0 <= j < |rows| ==> Some(rows[j].token) != token
  {
    FindByTokenFrom(rows, token, 0)
  }

  function FindByTokenFrom(rows: seq<Invitation>, token: Option<string>, k: nat): (r: Option<nat>)
    requires k <= |rows|
    ensures r.Some? ==> k <= r.value < |rows| && Some(rows[r.value].token) == token
    ensures r.Some? ==> forall j :: k <= j < r.value ==> Some(rows[j].token) != token
    ensures r.None? <==> forall j :: k <= j < |rows| ==> Some(rows[j].token) != token
    decreases |rows| - k
  {
    if k == |rows| then None
    else if Some(rows[k].token) == token then Some(k)
    else FindByTokenFrom(rows, token, k + 1)
  }

  /** The account_invitations table. */
  class InvitationTable {
    var rows: seq<Invitation>

    constructor ()
      ensures rows == []
    {
      rows := [];
    }

    /** `save` of a new invitation: the callbacks fill token and expiry,
        the validations run, and a valid record is inserted with the next
        id and no acceptance time. When `save` returns false the result is
        Err with the full messages, and nothing is written. */
    method Save(d: Draft, randomToken: string, now: int, isEmail: string -> bool, nextId: int)
      returns (r: Result<Invitation, seq<string>>)
      modifies this
      ensures
        var c := BeforeValidation(d, randomToken, now);
        && (Errors(old(rows), c, isEmail) != [] ==> r == Err(Errors(old(rows), c, isEmail)) && rows == old(rows))
        && (Errors(old(rows), c, isEmail) == [] ==>
              && r == Ok(Invitation(nextId, c.accountId, c.inviterId, c.email.value, c.token.value, None, c.expiresAt.value))
              && rows == old(rows) + [r.value])
      ensures Valid(old(rows)) ==> Valid(rows)
    {
      var c := BeforeValidation(d, randomToken, now);
      var errors := Errors(rows, c, isEmail);
      if errors != [] {
        return Err(errors);
      }
      var inv := Invitation(nextId, c.accountId, c.inviterId, c.email.value, c.token.value, None, c.expiresAt.value);
      rows := rows + [inv];
      r := Ok(inv);
    }
  }

  /** An email already invited to the account cannot be invited again. */
  lemma InvitedOncePerAccount(rows: seq<Invitation>, d: Draft, isEmail: string -> bool)
    requires d.email.Some? && EmailInvited(rows, d.accountId, d.email.value)
    ensures Errors(rows, d, isEmail) != []
  {
  }

  /** `accept!(user)` on row k: raises if already accepted, then if
      expired (so an accepted and expired invitation reports acceptance),
      then creates a member-role membership for the user in the account and
      records the acceptance time. A membership that cannot be created
      raises before the invitation is touched. */
  method Accept(invitations: InvitationTable, memberships: Memberships.MembershipTable, k: nat, userId: int, now: int)
    returns (r: Result<Memberships.Membership, Error>)
    requires k < |invitations.rows|
    modifies invitations, memberships
    ensures
      var inv := old(invitations.rows)[k];
      && (Accepted(inv) ==>
            r == Err(RuntimeError("Invitation has already been accepted"))
            && invitations.rows == old(invitations.rows) && memberships.rows == old(memberships.rows))
      && (!Accepted(inv) && Expired(inv, now) ==>
            r == Err(RuntimeError("Invitation has expired"))
            && invitations.rows == old(invitations.rows) && memberships.rows == old(memberships.rows))
      && (Pending(inv, now) && Memberships.Taken(old(memberships.rows), userId, inv.accountId) ==>
            && r == Err(RecordInvalid(["User has already been taken"]))
            && invitations.rows == old(invitations.rows) && memberships.rows == old(memberships.rows))
      && (Pending(inv, now) && !Memberships.Taken(old(memberships.rows), userId, inv.accountId) ==>
            && r == Ok(Memberships.Membership(userId, inv.accountId, Memberships.Member))
            && memberships.rows == old(memberships.rows) + [Memberships.Membership(userId, inv.accountId, Memberships.Member)]
            && invitations.rows == old(invitations.rows)[k := inv.(acceptedAt := Some(now))]
            && Accepted(invitations.rows[k]) && !Pending(invitations.rows[k], now))
    ensures Valid(old(invitations.rows)) ==> Valid(invitations.rows)
    ensures Memberships.Unique(old(memberships.rows)) ==> Memberships.Unique(memberships.rows)
  {
    var inv := invitations.rows[k];
    if Accepted(inv) {
      return Err(RuntimeError("Invitation has already been accepted"));
    }
    if Expired(inv, now) {
      return Err(RuntimeError("Invitation has expired"));
    }
    if Memberships.Taken(memberships.rows, userId, inv.accountId) {
      Memberships.SecondMembershipRefused(memberships.rows, userId, inv.accountId, Some(Memberships.Member));
    }
    var m := memberships.Create(Memberships.Draft(Some(userId), Some(inv.accountId), Some(Memberships.Member)));
    if m.Err? {
      return Err(m.error);
    }
    invitations.rows := invitations.rows[k := inv.(acceptedAt := Some(now))];
    r := m;
  }
}

=== FILE: account_invitations_controller.dfy ===
/** app/controllers/account_invitations_controller.rb: sending an
    invitation from the team page, and the older acceptance endpoint. */
module AccountInvitationsController {
  import opened Wrappers
  import opened Text
  import opened Web
  import opened Invitations
  import Memberships

  /** `create`: builds an invitation for the current account with the
      submitted email and the current user as inviter, and saves it. A
      saved invitation is mailed (`mailed` holds it) and announced; a
      refused one is reported with its messages joined by `to_sentence`.
      Without a current account the association call raises. */
  method Create(invitations: InvitationTable, signedIn: bool, currentAccount: Option<int>, user: User,
                email: Option<string>, randomToken: string, now: int, isEmail: string -> bool, nextId: int)
    returns (r: Result<Response, Error>, mailed: Option<Invitation>)
    modifies invitations
    ensures Valid(old(invitations.rows)) ==> Valid(invitations.rows)
    ensures !signedIn ==> r == Ok(Redirect(NewUserSessionPath, NoFlash)) && mailed.None? && invitations.rows == old(invitations.rows)
    ensures signedIn && currentAccount.None? ==> r == Err(NoMethodError) && mailed.None? && invitations.rows == old(invitations.rows)
    ensures signedIn && currentAccount.Some? ==>
      var c := BeforeValidation(Draft(currentAccount.value, user.id, email, None, None), randomToken, now);
      var errors := Errors(old(invitations.rows), c, isEmail);
      && (errors == [] ==>
            && mailed == Some(Invitation(nextId, currentAccount.value, user.id, email.value, c.token.value, None,
                                         c.expiresAt.value))
            && invitations.rows == old(invitations.rows) + [mailed.value]
            && r == Ok(Redirect(TeamPath, Notice("Invitation sent to " + email.value))))
      && (errors != [] ==>
            && mailed.None? && invitations.rows == old(invitations.rows)
            && r == Ok(Redirect(TeamPath, Alert(ToSentence(errors)))))
  {
    if !signedIn {
      return Ok(Redirect(NewUserSessionPath, NoFlash)), None;
    }
    if currentAccount.None? {
      return Err(NoMethodError), None;
    }
    var saved := invitations.Save(Draft(currentAccount.value, user.id, email, None, None), randomToken, now, isEmail, nextId);
    if saved.Err? {
      return Ok(Redirect(TeamPath, Alert(ToSentence(saved.error)))), None;
    }
    mailed := Some(saved.value);
    r := Ok(Redirect(TeamPath, Notice("Invitation sent to " + saved.value.email)));
  }

  /** `accept`, branching in order: nil, expired, accepted, signed in,
      anonymous. A signed-in member is told so and nothing is accepted; a
      signed-in non-member accepts once; an anonymous visitor has the
      token stored and is sent to sign up. `accountName` is
      `invitation.account.name`. */
  method Accept(invitations: InvitationTable, memberships: Memberships.MembershipTable, token: Option<string>,
                user: Option<User>, session: Session, now: int, accountName: int -> string)
    returns (r: Result<Response, Error>, session': Session)
    modifies invitations, memberships
    ensures var k := FindByToken(old(invitations.rows), token);
      && (k.None? ==>
            r == Ok(Redirect(RootPath, Alert("Invalid invitation link"))) && session' == session
            && unchanged(invitations, memberships))
      && (k.Some? ==>
            var inv := old(invitations.rows)[k.value];
            && (Expired(inv, now) ==>
                  r == Ok(Redirect(RootPath, Alert("This invitation has expired"))) && session' == session
                  && unchanged(invitations, memberships))
            && (!Expired(inv, now) && Accepted(inv) ==>
                  r == Ok(Redirect(RootPath, Alert("This invitation has already been accepted"))) && session' == session
                  && unchanged(invitations, memberships))
            && (Pending(inv, now) && user.Some? && Memberships.Taken(old(memberships.rows), user.value.id, inv.accountId) ==>
                  r == Ok(Redirect(RootPath, Notice("You're already a member of this team"))) && session' == session
                  && unchanged(invitations, memberships))
            && (Pending(inv, now) && user.Some? && !Memberships.Taken(old(memberships.rows), user.value.id, inv.accountId) ==>
                  && r == Ok(Redirect(RootPath, Notice("You've joined " + accountName(inv.accountId) + "!")))
                  && session' == session
                  && memberships.rows == old(memberships.rows)
                       + [Memberships.Membership(user.value.id, inv.accountId, Memberships.Member)]
                  && invitations.rows == old(invitations.rows)[k.value := inv.(acceptedAt := Some(now))])
            && (Pending(inv, now) && user.None? ==>
                  r == Ok(Redirect(NewUserRegistrationPath, NoFlash))
                  && session' == session[InvitationTokenKey := inv.token]
                  && unchanged(invitations, memberships)))
  {
    session' := session;
    var k := FindByToken(invitations.rows, token);
    if k.None? {
      return Ok(Redirect(RootPath, Alert("Invalid invitation link"))), session;
    }
    var inv := invitations.rows[k.value];
    if Expired(inv, now) {
      return Ok(Redirect(RootPath, Alert("This invitation has expired"))), session;
    }
    if Accepted(inv) {
      return Ok(Redirect(RootPath, Alert("This invitation has already been accepted"))), session;
    }
    if user.Some? {
      if Memberships.Taken(memberships.rows, user.value.id, inv.accountId) {
        return Ok(Redirect(RootPath, Notice("You're already a member of this team"))), session;
      }
      var m := Invitations.Accept(invitations, memberships, k.value, user.value.id, now);
      r := Ok(Redirect(RootPath, Notice("You've joined " + accountName(inv.accountId) + "!")));
      return;
    }
    session' := session[InvitationTokenKey := inv.token];
    r := Ok(Redirect(NewUserRegistrationPath, NoFlash));
  }
}

=== FILE: account_store.dfy ===
/** The accounts table: `find_by` lookups over its rows, the write that
    `update!` performs (with the unique index on stripe_customer_id from
    db/schema.rb), and the table object the handlers mutate. */
module AccountStore {
  import opened Wrappers
  import opened Search
  import opened Accounts
  import opened Web

  /** `Account.find_by(id: id)` */
  function FindById(rows: seq<Account>, id: int): (r: Option<nat>)
    ensures r.Some? ==> r.value < |rows| && rows[r.value].id == id
    ensures r.Some? ==> forall j :: 0 <= j < r.value ==> rows[j].id != id
    ensures r.None? <==> forall j :: 0 <= j < |rows| ==> rows[j].id != id
  {
    FirstIndex(rows, (a: Account) => a.id == id)
  }

  /** `Account.find_by(stripe_customer_id: c)`; a nil key matches rows whose
      column is NULL, as the SQL `IS NULL` query does. */
  function FindByCustomer(rows: seq<Account>, c: Option<string>): (r: Option<nat>)
    ensures r.Some? ==> r.value < |rows| && rows[r.value].stripeCustomerId == c
    ensures r.Some? ==> forall j :: 0 <= j < r.value ==> rows[j].stripeCustomerId != c
    ensures r.None? <==> forall j :: 0 <= j < |rows| ==> rows[j].stripeCustomerId != c
  {
    FirstIndex(rows, (a: Account) => a.stripeCustomerId == c)
  }

  /** `Account.find_by(stripe_subscription_id: s)` */
  function FindBySubscription(rows: seq<Account>, s: Option<string>): (r: Option<nat>)
    ensures r.Some? ==> r.value < |rows| && rows[r.value].stripeSubscriptionId == s
    ensures r.Some? ==> forall j :: 0 <= j < r.value ==> rows[j].stripeSubscriptionId != s
    ensures r.None? <==> forall j :: 0 <= j < |rows| ==> rows[j].stripeSubscriptionId != s
  {
    FirstIndex(rows, (a: Account) => a.stripeSubscriptionId == s)
  }

  /** The primary key and the unique index on stripe_customer_id (NULLs are
      not constrained). stripe_subscription_id has a plain index only. */
  predicate Valid(rows: seq<Account>) {
    && (forall i, j :: 0 <= i < j < |rows| ==> rows[i].id != rows[j].id)
    && (forall i, j :: 0 <= i < j < |rows| && rows[i].stripeCustomerId.Some? ==>
          rows[i].stripeCustomerId != rows[j].stripeCustomerId)
  }

  /** Another row already holds customer id `c`. */
  predicate CustomerTaken(rows: seq<Account>, i: nat, c: Option<string>) {
    c.Some? && exists j :: 0 <= j < |rows| && j != i && rows[j].stripeCustomerId == c
  }

  /** The UPDATE issued by `update!`. Only changed columns are written, so
      the unique index is consulted only when the customer id changes; a
      collision raises ActiveRecord::RecordNotUnique and writes nothing. */
  function Write(rows: seq<Account>, i: nat, a: Account): (r: Result<seq<Account>, Error>)
    requires i < |rows|
    ensures r.Err? <==> a.stripeCustomerId != rows[i].stripeCustomerId && CustomerTaken(rows, i, a.stripeCustomerId)
    ensures r.Err? ==> r.error == RecordNotUnique
    ensures r.Ok? ==> |r.value| == |rows| && r.value[i] == a
    ensures r.Ok? ==> forall j :: 0 <= j < |rows| && j != i ==> r.value[j] == rows[j]
    ensures r.Ok? && Valid(rows) && a.id == rows[i].id ==> Valid(r.value)
  {
    if a.stripeCustomerId != rows[i].stripeCustomerId && CustomerTaken(rows, i, a.stripeCustomerId)
    then Err(RecordNotUnique)
    else Ok(rows[i := a])
  }

  /** A write that keeps the customer id can never collide. */
  function Assign(rows: seq<Account>, i: nat, a: Account): (r: seq<Account>)
    requires i < |rows| && a.stripeCustomerId == rows[i].stripeCustomerId
    ensures Write(rows, i, a) == Ok(r)
  {
    rows[i := a]
  }

  /** `after` differs from `before` at most in row i. */
  predicate OnlyRowChanged(before: seq<Account>, after: seq<Account>, i: nat) {
    i < |before| && |after| == |before| &&
    forall j :: 0 <= j < |before| && j != i ==> after[j] == before[j]
  }

  /** Rewriting a row without touching its id leaves every id lookup as it was. */
  lemma FindByIdAfterWrite(rows: seq<Account>, i: nat, a: Account, id: int)
    requires i < |rows| && a.id == rows[i].id
    ensures FindById(rows[i := a], id) == FindById(rows, id)
  {
    FirstIndexRespectsPredicate(rows[i := a], rows, (b: Account) => b.id == id);
  }

  /** Rewriting a row without touching its customer id leaves every
      customer lookup as it was. */
  lemma FindByCustomerAfterWrite(rows: seq<Account>, i: nat, a: Account, c: Option<string>)
    requires i < |rows| && a.stripeCustomerId == rows[i].stripeCustomerId
    ensures FindByCustomer(rows[i := a], c) == FindByCustomer(rows, c)
  {
    FirstIndexRespectsPredicate(rows[i := a], rows, (b: Account) => b.stripeCustomerId == c);
  }

  /** Rewriting a row without touching its subscription id leaves every
      subscription lookup as it was. */
  lemma FindBySubscriptionAfterWrite(rows: seq<Account>, i: nat, a: Account, s: Option<string>)
    requires i < |rows| && a.stripeSubscriptionId == rows[i].stripeSubscriptionId
    ensures FindBySubscription(rows[i := a], s) == FindBySubscription(rows, s)
  {
    FirstIndexRespectsPredicate(rows[i := a], rows, (b: Account) => b.stripeSubscriptionId == s);
  }

  /** What a handler leaves behind: the table and the value `call` returns. */
  datatype Effect = Effect(rows: seq<Account>, returned: Option<Account>)

  /** The accounts table, updated in place by the handlers. */
  class AccountTable {
    var rows: seq<Account>

    constructor (initial: seq<Account>)
      ensures rows == initial
    {
      rows := initial;
    }

    /** `account.update!(...)` on row i. */
    method Update(i: nat, a: Account) returns (r: Result<(), Error>)
      requires i < |rows|
      modifies this
      ensures r.Ok? <==> Write(old(rows), i, a).Ok?
      ensures r.Err? ==> r.error == RecordNotUnique && rows == old(rows)
      ensures r.Ok? ==> rows == Write(old(rows), i, a).value
    {
      var w := Write(rows, i, a);
      if w.Err? {
        return Err(w.error);
      }
      rows := w.value;
      r := Ok(());
    }
  }
}

=== FILE: api_stripe_controller.dfy ===
/** app/controllers/api/stripe_controller.rb: a webhook endpoint that
    writes the account columns itself, with its own correlation keys and
    values. */
module ApiStripeController {
  import opened Wrappers
  import opened Accounts
  import opened AccountStore
  import opened Web
  import opened StripeObjects

  /** `construct_event`: the secret is the credentials value only. */
  function ConstructEvent(req: WebhookRequest, verify: Verifier, credentials: Option<string>): (r: Option<Event>)
    ensures r == verify(req.payload, req.signature, credentials)
  {
    verify(req.payload, req.signature, credentials)
  }

  /** `Account.find_by(id: session.client_reference_id)`; a nil reference
      matches no row. */
  function FindByReference(rows: seq<Account>, s: CheckoutSession): (r: Option<nat>)
    ensures s.clientReferenceId.None? ==> r.None?
    ensures r.Some? ==> r.value < |rows| && Some(rows[r.value].id) == s.clientReferenceId
    ensures s.clientReferenceId.Some? ==> r == FindById(rows, s.clientReferenceId.value)
  {
    if s.clientReferenceId.None? then None else FindById(rows, s.clientReferenceId.value)
  }

  /** `handle_checkout_completed`: the referenced account gets the session's
      customer and subscription, plan "pro", status "active" and a start
      date of now. A customer id held by another account raises. */
  function HandleCheckoutCompleted(rows: seq<Account>, s: CheckoutSession, now: int): (r: Result<seq<Account>, Error>)
    ensures FindByReference(rows, s).None? ==> r == Ok(rows)
    ensures FindByReference(rows, s).Some? ==>
      var i := FindByReference(rows, s).value;
      && (r.Err? <==> s.customer != rows[i].stripeCustomerId && CustomerTaken(rows, i, s.customer))
      && (r.Ok? ==> OnlyRowChanged(rows, r.value, i)
                    && r.value[i] == rows[i].(stripeCustomerId := s.customer, stripeSubscriptionId := s.subscription,
                                             plan := "pro", subscriptionStatus := Some("active"),
                                             subscriptionStartedAt := Some(now))
                    && Subscribed(r.value[i]))
    ensures r.Err? ==> r.error == RecordNotUnique
    ensures r.Ok? && Valid(rows) ==> Valid(r.value)
  {
    match FindByReference(rows, s)
    case None => Ok(rows)
    case Some(i) =>
      Write(rows, i, rows[i].(stripeCustomerId := s.customer, stripeSubscriptionId := s.subscription,
                              plan := "pro", subscriptionStatus := Some("active"),
                              subscriptionStartedAt := Some(now)))
  }

  /** `handle_subscription_updated`: by subscription id; the provider's raw
      status is copied unmapped and the period end goes to
      `current_period_ends_at`. */
  function HandleSubscriptionUpdated(rows: seq<Account>, s: Subscription): (r: seq<Account>)
    ensures FindBySubscription(rows, Some(s.id)).None? ==> r == rows
    ensures FindBySubscription(rows, Some(s.id)).Some? ==>
      var i := FindBySubscription(rows, Some(s.id)).value;
      && OnlyRowChanged(rows, r, i)
      && r[i] == rows[i].(subscriptionStatus := Some(s.status), currentPeriodEndsAt := Some(s.currentPeriodEnd))
      && r[i].subscriptionEndsAt == rows[i].subscriptionEndsAt
    ensures Valid(rows) ==> Valid(r)
  {
    match FindBySubscription(rows, Some(s.id))
    case None => rows
    case Some(i) =>
      Assign(rows, i, rows[i].(subscriptionStatus := Some(s.status), currentPeriodEndsAt := Some(s.currentPeriodEnd)))
  }

  /** `handle_subscription_deleted`: plan "free", subscription id and
      status cleared, and the subscription ends now. */
  function HandleSubscriptionDeleted(rows: seq<Account>, s: Subscription, now: int): (r: seq<Account>)
    ensures FindBySubscription(rows, Some(s.id)).None? ==> r == rows
    ensures FindBySubscription(rows, Some(s.id)).Some? ==>
      var i := FindBySubscription(rows, Some(s.id)).value;
      && OnlyRowChanged(rows, r, i)
      && r[i] == rows[i].(plan := "free", stripeSubscriptionId := None, subscriptionStatus := None,
                          subscriptionEndsAt := Some(now))
      && !Subscribed(r[i])
    ensures Valid(rows) ==> Valid(r)
  {
    match FindBySubscription(rows, Some(s.id))
    case None => rows
    case Some(i) =>
      Assign(rows, i, rows[i].(plan := "free", stripeSubscriptionId := None, subscriptionStatus := None,
                               subscriptionEndsAt := Some(now)))
  }

  /** Once deleted, the account no longer holds the subscription id; when
      no other account held it, a redelivery (at any time) is a no-op. */
  lemma {:induction false} DeleteRedeliveryIsNoOp(rows: seq<Account>, s: Subscription, now: int, later: int)
    requires forall j, k :: 0 <= j < k < |rows| && rows[j].stripeSubscriptionId == Some(s.id) ==>
               rows[k].stripeSubscriptionId != Some(s.id)
    ensures HandleSubscriptionDeleted(HandleSubscriptionDeleted(rows, s, now), s, later) == HandleSubscriptionDeleted(rows, s, now)
  {
    var once := HandleSubscriptionDeleted(rows, s, now);
    match FindBySubscription(rows, Some(s.id))
    case None =>
    case Some(i) =>
      forall j | 0 <= j < |once| && j != i
        ensures once[j].stripeSubscriptionId != Some(s.id)
      {
        assert once[j] == rows[j];
        assert rows[i].stripeSubscriptionId == Some(s.id);
      }
      assert FindBySubscription(once, Some(s.id)).None?;
  }

  /** `handle_payment_failed`: the customer's account becomes "past_due". */
  function HandlePaymentFailed(rows: seq<Account>, inv: Invoice): (r: seq<Account>)
    ensures FindByCustomer(rows, inv.customer).None? ==> r == rows
    ensures FindByCustomer(rows, inv.customer).Some? ==>
      var i := FindByCustomer(rows, inv.customer).value;
      OnlyRowChanged(rows, r, i) && r[i] == rows[i].(subscriptionStatus := Some("past_due"))
    ensures Valid(rows) ==> Valid(r)
  {
    match FindByCustomer(rows, inv.customer)
    case None => rows
    case Some(i) => Assign(rows, i, rows[i].(subscriptionStatus := Some("past_due")))
  }

  /** The four tags `handle_event` acts on. */
  const HandledTags: set<string> := {"checkout.session.completed", "customer.subscription.updated",
    "customer.subscription.deleted", "invoice.payment_failed"}

  /** `handle_event`: other tags fall through the `case` untouched; a
      payload of the wrong kind raises NoMethodError. */
  function HandleEvent(rows: seq<Account>, e: Event, now: int): (r: Result<seq<Account>, Error>)
    ensures e.eventType !in HandledTags ==> r == Ok(rows)
    ensures e.eventType == "checkout.session.completed" && e.data.SessionObject? ==>
              r == HandleCheckoutCompleted(rows, e.data.session, now)
    ensures e.eventType == "customer.subscription.updated" && e.data.SubscriptionObject? ==>
              r == Ok(HandleSubscriptionUpdated(rows, e.data.subscription))
    ensures e.eventType == "customer.subscription.deleted" && e.data.SubscriptionObject? ==>
              r == Ok(HandleSubscriptionDeleted(rows, e.data.subscription, now))
    ensures e.eventType == "invoice.payment_failed" && e.data.InvoiceObject? ==>
              r == Ok(HandlePaymentFailed(rows, e.data.invoice))
    ensures r.Ok? && Valid(rows) ==> Valid(r.value)
  {
    match (e.eventType, e.data)
    case ("checkout.session.completed", SessionObject(s)) => HandleCheckoutCompleted(rows, s, now)
    case ("customer.subscription.updated", SubscriptionObject(s)) => Ok(HandleSubscriptionUpdated(rows, s))
    case ("customer.subscription.deleted", SubscriptionObject(s)) => Ok(HandleSubscriptionDeleted(rows, s, now))
    case ("invoice.payment_failed", InvoiceObject(inv)) => Ok(HandlePaymentFailed(rows, inv))
    case _ => if e.eventType in HandledTags then Err(NoMethodError) else Ok(rows)
  }

  /** `webhook`: 400 with no handling when no event is constructed, else
      handle and answer 200. */
  method Webhook(db: AccountTable, req: WebhookRequest, verify: Verifier, credentials: Option<string>, now: int)
    returns (r: Result<Response, Error>)
    modifies db
    ensures ConstructEvent(req, verify, credentials).None? ==> r == Ok(Head(400)) && db.rows == old(db.rows)
    ensures ConstructEvent(req, verify, credentials).Some? ==>
      var h := HandleEvent(old(db.rows), ConstructEvent(req, verify, credentials).value, now);
      && (h.Ok? ==> r == Ok(Head(200)) && db.rows == h.value)
      && (h.Err? ==> r == Err(h.error) && db.rows == old(db.rows))
  {
    var event := ConstructEvent(req, verify, credentials);
    if event.None? {
      return Ok(Head(400));
    }
    var h := HandleEvent(db.rows, event.value, now);
    if h.Err? {
      return Err(h.error);
    }
    db.rows := h.value;
    r := Ok(Head(200));
  }
}

=== FILE: billing_helper.dfy ===
/** app/helpers/billing_helper.rb: the human-readable subscription status.
    `titleize` and `strftime('%b %d, %Y')` are kept abstract as function
    parameters; "now" is a parameter. */
module BillingHelper {
  import opened Wrappers
  import opened Text
  import opened Accounts

  /** `trial_status_text` */
  function TrialStatusText(a: Account, formatDate: int -> string): string {
    if a.currentPeriodEndsAt.None? then "Trialing"
    else "Trial ends " + formatDate(a.currentPeriodEndsAt.value)
  }

  /** `canceled_status_text`: `current_period_ends_at&.> Time.current` */
  function CanceledStatusText(a: Account, now: int, formatDate: int -> string): string {
    if a.currentPeriodEndsAt.Some? && a.currentPeriodEndsAt.value > now
    then "Cancels " + formatDate(a.currentPeriodEndsAt.value)
    else "Canceled"
  }

  /** `subscription_status_text(account)` */
  function SubscriptionStatusText(a: Account, now: int, titleize: string -> string, formatDate: int -> string): (r: string)
    ensures Blank(a.subscriptionStatus) ==> r == "No Subscription"
    ensures a.subscriptionStatus == Some("trialing") && a.currentPeriodEndsAt.None? ==> r == "Trialing"
    ensures a.subscriptionStatus == Some("trialing") && a.currentPeriodEndsAt.Some? ==>
              r == "Trial ends " + formatDate(a.currentPeriodEndsAt.value)
    ensures a.subscriptionStatus == Some("canceled") && a.currentPeriodEndsAt.Some? && a.currentPeriodEndsAt.value > now ==>
              r == "Cancels " + formatDate(a.currentPeriodEndsAt.value)
    ensures a.subscriptionStatus == Some("canceled") && (a.currentPeriodEndsAt.None? || a.currentPeriodEndsAt.value <= now) ==>
              r == "Canceled"
    ensures Present(a.subscriptionStatus) && a.subscriptionStatus.value !in {"trialing", "canceled"} ==>
              r == titleize(a.subscriptionStatus.value)
  {
    if Blank(a.subscriptionStatus) then "No Subscription"
    else match a.subscriptionStatus.value
      case "trialing" => TrialStatusText(a, formatDate)
      case "canceled" => CanceledStatusText(a, now, formatDate)
      case _ => titleize(a.subscriptionStatus.value)
  }

  /** Only a "canceled" status whose period end is still ahead ever
      announces a future cancellation date; the British "cancelled" that
      the service handlers write is merely titleized. */
  lemma CancelsOnlyForCanceled(a: Account, now: int, titleize: string -> string, formatDate: int -> string)
    requires a.subscriptionStatus == Some("cancelled")
    ensures SubscriptionStatusText(a, now, titleize, formatDate) == titleize("cancelled")
  {
  }
}

=== FILE: checkout_completed_handler.dfy ===
/** app/services/stripe/checkout_completed_handler.rb: links the account
    named by the session's `client_reference_id` to the customer and
    subscription the checkout created. */
module CheckoutCompletedHandler {
  import opened Wrappers
  import opened Accounts
  import opened AccountStore
  import opened StripeObjects
  import opened Web

  /** `find_account`: no lookup at all for a nil reference; otherwise the
      account whose local id is the reference (not the customer id). */
  function FindAccount(rows: seq<Account>, s: CheckoutSession): (r: Option<nat>)
    ensures s.clientReferenceId.None? ==> r.None?
    ensures r.Some? ==> r.value < |rows| && s.clientReferenceId == Some(rows[r.value].id)
    ensures s.clientReferenceId.Some? && r.None? ==>
              forall j :: 0 <= j < |rows| ==> rows[j].id != s.clientReferenceId.value
  {
    if s.clientReferenceId.None? then None else FindById(rows, s.clientReferenceId.value)
  }

  /** The two columns the handler writes. */
  function Linked(a: Account, s: CheckoutSession): Account {
    a.(stripeCustomerId := s.customer, stripeSubscriptionId := s.subscription)
  }

  /** `call` on the table: a miss returns nil and writes nothing; a hit
      writes the session's customer and subscription ids into that row
      only and returns it; a customer id already held by another row makes
      `update!` raise and nothing is written. */
  function Reconcile(rows: seq<Account>, s: CheckoutSession): (r: Result<Effect, Error>)
    ensures FindAccount(rows, s).None? ==> r == Ok(Effect(rows, None))
    ensures FindAccount(rows, s).Some? ==>
      var i := FindAccount(rows, s).value;
      && (r.Err? <==> s.customer != rows[i].stripeCustomerId && CustomerTaken(rows, i, s.customer))
      && (r.Ok? ==> OnlyRowChanged(rows, r.value.rows, i)
                    && r.value.rows[i] == rows[i].(stripeCustomerId := s.customer, stripeSubscriptionId := s.subscription)
                    && r.value.returned == Some(r.value.rows[i]))
    ensures r.Err? ==> r.error == RecordNotUnique
    ensures r.Ok? && Valid(rows) ==> Valid(r.value.rows)
  {
    match FindAccount(rows, s)
    case None => Ok(Effect(rows, None))
    case Some(i) =>
      match Write(rows, i, Linked(rows[i], s))
      case Ok(t) => Ok(Effect(t, Some(Linked(rows[i], s))))
      case Err(e) => Err(e)
  }

  /** Delivering the same event a second time leaves the table as the
      first delivery left it. */
  lemma {:induction false} ReconcileIdempotent(rows: seq<Account>, s: CheckoutSession)
    requires Reconcile(rows, s).Ok?
    ensures Reconcile(Reconcile(rows, s).value.rows, s).Ok?
    ensures Reconcile(Reconcile(rows, s).value.rows, s).value.rows == Reconcile(rows, s).value.rows
  {
    var once := Reconcile(rows, s).value;
    match FindAccount(rows, s)
    case None =>
    case Some(i) =>
      FindByIdAfterWrite(rows, i, Linked(rows[i], s), s.clientReferenceId.value);
      assert once.rows == rows[i := Linked(rows[i], s)];
      assert FindAccount(once.rows, s) == Some(i);
      assert Linked(once.rows[i], s) == once.rows[i];
      assert once.rows[i := once.rows[i]] == once.rows;
  }

  /** An account that merely has the session's customer id, but not its
      reference id, is never touched. */
  lemma CorrelatesByLocalId(rows: seq<Account>, s: CheckoutSession, j: nat)
    requires j < |rows| && s.clientReferenceId != Some(rows[j].id)
    requires Reconcile(rows, s).Ok?
    ensures Reconcile(rows, s).value.rows[j] == rows[j]
  {
  }

  /** `call` performed on the table in place. */
  method Call(db: AccountTable, s: CheckoutSession) returns (r: Result<Option<Account>, Error>)
    modifies db
    ensures Reconcile(old(db.rows), s).Ok? ==>
              r == Ok(Reconcile(old(db.rows), s).value.returned) && db.rows == Reconcile(old(db.rows), s).value.rows
    ensures Reconcile(old(db.rows), s).Err? ==>
              r == Err(Reconcile(old(db.rows), s).error) && db.rows == old(db.rows)
  {
    var found := FindAccount(db.rows, s);
    if found.None? {
      return Ok(None);
    }
    var i := found.value;
    var updated := Linked(db.rows[i], s);
    var w := db.Update(i, updated);
    if w.Err? {
      return Err(w.error);
    }
    r := Ok(Some(updated));
  }
}

=== FILE: checkouts_controller.dfy ===
/** app/controllers/checkouts_controller.rb: the page the payment
    provider sends the browser back to after checkout, which records the
    subscription on the current account once. */
module CheckoutsController {
  import opened Wrappers
  import opened Text
  import opened Accounts
  import opened AccountStore
  import opened Plans
  import opened Web
  import opened StripeObjects
  import opened StripeMapping

  /** `session.customer` once expanded: an id string, a customer object
      (with its id), or nil. */
  datatype CustomerRef = CustomerString(id: string) | CustomerObject(objectId: string) | NoCustomer

  /** A checkout session retrieved with `subscription` and `customer`
      expanded. */
  datatype ExpandedSession = ExpandedSession(status: string, customer: CustomerRef, subscription: Option<Subscription>)

  /** What an action leaves behind: the table and the answer. */
  datatype Outcome = Outcome(rows: seq<Account>, response: Response)

  /** `extract_customer_id`: the string itself, else the object's `id`;
      nil has no `id` and raises NoMethodError. */
  function ExtractCustomerId(c: CustomerRef): (r: Result<string, Error>)
    ensures c.CustomerString? ==> r == Ok(c.id)
    ensures c.CustomerObject? ==> r == Ok(c.objectId)
    ensures c.NoCustomer? ==> r == Err(NoMethodError)
  {
    match c
    case CustomerString(id) => Ok(id)
    case CustomerObject(id) => Ok(id)
    case NoCustomer => Err(NoMethodError)
  }

  /** `already_processed?`: the account's subscription id equals
      `session.subscription&.id`. */
  predicate AlreadyProcessed(a: Account, s: ExpandedSession) {
    a.stripeSubscriptionId == (if s.subscription.Some? then Some(s.subscription.value.id) else None)
  }

  /** A session without a subscription counts as processed for an account
      without one. */
  lemma NoSubscriptionCountsAsProcessed(a: Account, s: ExpandedSession)
    requires s.subscription.None?
    ensures AlreadyProcessed(a, s) <==> a.stripeSubscriptionId.None?
  {
  }

  /** `determine_plan_from_price_id`: the same catalog search as the
      subscription handlers' `plan_slug`. */
  function DeterminePlan(plans: seq<Plan>, priceId: string, m: PlanMethods): (r: string)
    ensures (forall i :: 0 <= i < |plans| ==> !OffersPrice(m, plans[i], Some(priceId))) ==> r == "free"
    ensures forall i :: 0 <= i < |plans| && OffersPrice(m, plans[i], Some(priceId)) &&
                        (forall j :: 0 <= j < i ==> !OffersPrice(m, plans[j], Some(priceId))) ==>
                        r == m.id(plans[i])
  {
    PlanSlug(plans, Some(priceId), m)
  }

  /** `subscription_attributes` applied to the account: customer id,
      subscription id, raw status, resolved plan, start date from
      `created` and `current_period_ends_at` from the period end. A nil
      customer, a nil subscription or a subscription without a priced item
      raises NoMethodError. */
  function WithSubscription(a: Account, s: ExpandedSession, plans: seq<Plan>, m: PlanMethods): (r: Result<Account, Error>)
    ensures r.Err? <==> s.customer.NoCustomer? || s.subscription.None? || FirstPriceIdStrict(s.subscription.value).None?
    ensures r.Err? ==> r.error == NoMethodError
    ensures r.Ok? ==>
      var sub := s.subscription.value;
      r.value == a.(stripeCustomerId := Some(ExtractCustomerId(s.customer).value),
                    stripeSubscriptionId := Some(sub.id),
                    subscriptionStatus := Some(sub.status),
                    plan := DeterminePlan(plans, FirstPriceIdStrict(sub).value, m),
                    subscriptionStartedAt := Some(sub.created),
                    currentPeriodEndsAt := Some(sub.currentPeriodEnd))
  {
    match ExtractCustomerId(s.customer)
    case Err(e) => Err(e)
    case Ok(customer) =>
      match s.subscription
      case None => Err(NoMethodError)
      case Some(sub) =>
        match FirstPriceIdStrict(sub)
        case None => Err(NoMethodError)
        case Some(p) =>
          Ok(a.(stripeCustomerId := Some(customer), stripeSubscriptionId := Some(sub.id),
                subscriptionStatus := Some(sub.status), plan := DeterminePlan(plans, p, m),
                subscriptionStartedAt := Some(sub.created), currentPeriodEndsAt := Some(sub.currentPeriodEnd)))
  }

  /** `success` with its before actions, in order: sign-in, session id
      present, current account, session found, payment complete, not yet
      processed; only then is the account written. Retrieval errors are
      rescued to nil, so `retrieve` yields none for them. */
  function SuccessOutcome(rows: seq<Account>, signedIn: bool, sessionId: Option<string>, current: Option<nat>,
                          retrieve: string -> Option<ExpandedSession>, plans: seq<Plan>, m: PlanMethods)
    : (r: Result<Outcome, Error>)
    requires current.Some? ==> current.value < |rows|
    ensures !signedIn ==> r == Ok(Outcome(rows, Redirect(NewUserSessionPath, NoFlash)))
    ensures signedIn && !Present(sessionId) ==>
              r == Ok(Outcome(rows, Redirect(PricingPath, Alert("Invalid checkout session"))))
    ensures signedIn && Present(sessionId) && current.None? ==>
              r == Ok(Outcome(rows, Redirect(RootPath, Alert("Account not found"))))
    ensures signedIn && Present(sessionId) && current.Some? && retrieve(sessionId.value).None? ==>
              r == Ok(Outcome(rows, Redirect(PricingPath, Alert("Checkout session not found"))))
    ensures signedIn && Present(sessionId) && current.Some? && retrieve(sessionId.value).Some? ==>
      var s := retrieve(sessionId.value).value;
      var i := current.value;
      && (s.status != "complete" ==>
            r == Ok(Outcome(rows, Redirect(PricingPath, Alert("Payment incomplete. Please try again.")))))
      && (s.status == "complete" && AlreadyProcessed(rows[i], s) ==>
            r == Ok(Outcome(rows, Redirect(RootPath, Notice("Subscription already active")))))
      && (s.status == "complete" && !AlreadyProcessed(rows[i], s) ==>
            var u := WithSubscription(rows[i], s, plans, m);
            && (u.Err? ==> r == Err(u.error))
            && (u.Ok? && Write(rows, i, u.value).Err? ==> r == Err(RecordNotUnique))
            && (u.Ok? && Write(rows, i, u.value).Ok? ==>
                  r == Ok(Outcome(Write(rows, i, u.value).value, Render("checkout_success/show")))))
    ensures r.Ok? && r.value.response != Render("checkout_success/show") ==> r.value.rows == rows
    ensures r.Ok? && r.value.response == Render("checkout_success/show") ==>
              current.Some? && OnlyRowChanged(rows, r.value.rows, current.value)
  {
    if !signedIn then Ok(Outcome(rows, Redirect(NewUserSessionPath, NoFlash)))
    else if !Present(sessionId) then Ok(Outcome(rows, Redirect(PricingPath, Alert("Invalid checkout session"))))
    else if current.None? then Ok(Outcome(rows, Redirect(RootPath, Alert("Account not found"))))
    else
      match retrieve(sessionId.value)
      case None => Ok(Outcome(rows, Redirect(PricingPath, Alert("Checkout session not found"))))
      case Some(s) =>
        var i := current.value;
        if s.status != "complete" then
          Ok(Outcome(rows, Redirect(PricingPath, Alert("Payment incomplete. Please try again."))))
        else if AlreadyProcessed(rows[i], s) then
          Ok(Outcome(rows, Redirect(RootPath, Notice("Subscription already active"))))
        else
          match WithSubscription(rows[i], s, plans, m)
          case Err(e) => Err(e)
          case Ok(b) =>
            match Write(rows, i, b)
            case Err(e) => Err(e)
            case Ok(t) => Ok(Outcome(t, Render("checkout_success/show")))
  }

  /** Without a session id the answer does not depend on what a retrieval
      would return: none is attempted. */
  lemma NoRetrievalWithoutSessionId(rows: seq<Account>, signedIn: bool, sessionId: Option<string>, current: Option<nat>,
                                    r1: string -> Option<ExpandedSession>, r2: string -> Option<ExpandedSession>,
                                    plans: seq<Plan>, m: PlanMethods)
    requires current.Some? ==> current.value < |rows|
    requires !Present(sessionId)
    ensures SuccessOutcome(rows, signedIn, sessionId, current, r1, plans, m)
         == SuccessOutcome(rows, signedIn, sessionId, current, r2, plans, m)
  {
  }

  /** Returning to the page after a successful visit does not write again:
      the account now holds the session's subscription id. */
  lemma {:induction false} SecondVisitIsAlreadyActive(rows: seq<Account>, sessionId: Option<string>, i: nat,
                                                      retrieve: string -> Option<ExpandedSession>,
                                                      plans: seq<Plan>, m: PlanMethods)
    requires i < |rows|
    requires SuccessOutcome(rows, true, sessionId, Some(i), retrieve, plans, m).Ok?
    requires SuccessOutcome(rows, true, sessionId, Some(i), retrieve, plans, m).value.response == Render("checkout_success/show")
    ensures
      var once := SuccessOutcome(rows, true, sessionId, Some(i), retrieve, plans, m).value.rows;
      SuccessOutcome(once, true, sessionId, Some(i), retrieve, plans, m)
        == Ok(Outcome(once, Redirect(RootPath, Notice("Subscription already active"))))
  {
    var s := retrieve(sessionId.value).value;
    var u := WithSubscription(rows[i], s, plans, m);
    assert u.Ok?;
    var once := SuccessOutcome(rows, true, sessionId, Some(i), retrieve, plans, m).value.rows;
    assert once[i] == u.value;
    assert AlreadyProcessed(once[i], s);
  }

  /** `success` performed on the table in place. */
  method Success(db: AccountTable, signedIn: bool, sessionId: Option<string>, current: Option<nat>,
                 retrieve: string -> Option<ExpandedSession>, plans: seq<Plan>, m: PlanMethods)
    returns (r: Result<Response, Error>)
    requires current.Some? ==> current.value < |db.rows|
    modifies db
    ensures
      var o := SuccessOutcome(old(db.rows), signedIn, sessionId, current, retrieve, plans, m);
      && (o.Ok? ==> r == Ok(o.value.response) && db.rows == o.value.rows)
      && (o.Err? ==> r == Err(o.error) && db.rows == old(db.rows))
  {
    if !signedIn {
      return Ok(Redirect(NewUserSessionPath, NoFlash));
    }
    if !Present(sessionId) {
      return Ok(Redirect(PricingPath, Alert("Invalid checkout session")));
    }
    if current.None? {
      return Ok(Redirect(RootPath, Alert("Account not found")));
    }
    var session := retrieve(sessionId.value);
    if session.None? {
      return Ok(Redirect(PricingPath, Alert("Checkout session not found")));
    }
    var s := session.value;
    var i := current.value;
    if s.status != "complete" {
      return Ok(Redirect(PricingPath, Alert("Payment incomplete. Please try again.")));
    }
    if AlreadyProcessed(db.rows[i], s) {
      return Ok(Redirect(RootPath, Notice("Subscription already active")));
    }
    var u := WithSubscription(db.rows[i], s, plans, m);
    if u.Err? {
      return Err(u.error);
    }
    var w := db.Update(i, u.value);
    if w.Err? {
      return Err(w.error);
    }
    r := Ok(Render("checkout_success/show"));
  }
}

=== FILE: contact_message.dfy ===
/** app/models/contact_message.rb: a message sent through the contact
    form. */
module ContactMessages {
  import opened Wrappers
  import opened Text

  datatype ContactMessage = ContactMessage(
    name: Option<string>,
    email: Option<string>,
    title: Option<string>,
    message: Option<string>)

  /** The full error messages in declaration order: name presence, email
      presence and format (nil checked as ""), title presence, message
      presence. `isEmail` is `URI::MailTo::EMAIL_REGEXP`. */
  function Errors(m: ContactMessage, isEmail: string -> bool): (r: seq<string>)
    ensures r == [] <==> Present(m.name) && Present(m.email) && isEmail(m.email.value) && Present(m.title) && Present(m.message)
    ensures ("Name can't be blank" in r) <==> Blank(m.name)
    ensures ("Email can't be blank" in r) <==> Blank(m.email)
    ensures ("Email is invalid" in r) <==> !isEmail(m.email.GetOr(""))
    ensures ("Title can't be blank" in r) <==> Blank(m.title)
    ensures ("Message can't be blank" in r) <==> Blank(m.message)
  {
    (if Blank(m.name) then ["Name can't be blank"] else [])
    + (if Blank(m.email) then ["Email can't be blank"] else [])
    + (if !isEmail(m.email.GetOr("")) then ["Email is invalid"] else [])
    + (if Blank(m.title) then ["Title can't be blank"] else [])
    + (if Blank(m.message) then ["Message can't be blank"] else [])
  }

  predicate Valid(m: ContactMessage, isEmail: string -> bool) {
    Errors(m, isEmail) == []
  }

  /** A message whose only fault is a missing name, title or message body
      gets exactly one error, on that field. */
  lemma OneMissingFieldOneError(m: ContactMessage, isEmail: string -> bool)
    requires Present(m.email) && isEmail(m.email.value)
    requires (if Blank(m.name) then 1 else 0) + (if Blank(m.title) then 1 else 0) + (if Blank(m.message) then 1 else 0) == 1
    ensures |Errors(m, isEmail)| == 1
    ensures Blank(m.name) ==> Errors(m, isEmail) == ["Name can't be blank"]
    ensures Blank(m.title) ==> Errors(m, isEmail) == ["Title can't be blank"]
    ensures Blank(m.message) ==> Errors(m, isEmail) == ["Message can't be blank"]
  {
  }

  /** A present email that does not match the format is reported as
      invalid only, not as blank. */
  lemma MalformedEmail(m: ContactMessage, isEmail: string -> bool)
    requires Present(m.email) && !isEmail(m.email.value)
    ensures "Email is invalid" in Errors(m, isEmail) && "Email can't be blank" !in Errors(m, isEmail)
  {
  }
}

=== FILE: invitation_acceptances_controller.dfy ===
/** app/controllers/invitation_acceptances_controller.rb: the invitation
    link's landing page and its accept button. */
module InvitationAcceptancesController {
  import opened Wrappers
  import opened Text
  import opened Web
  import opened Invitations
  import Memberships

  /** `redirect_if_signed_in_with_different_email`: fires only for a
      signed-in user, a pending invitation, and emails that differ once
      lower-cased. */
  predicate WrongRecipient(inv: Option<Invitation>, user: Option<User>, now: int) {
    user.Some? && inv.Some? && Pending(inv.value, now) && Downcase(user.value.email) != Downcase(inv.value.email)
  }

  const WrongRecipientRedirect: Response := Redirect(RootPath, Alert("This invitation was sent to a different email address"))

  /** The invitation `set_invitation` finds. */
  function Lookup(rows: seq<Invitation>, token: Option<string>): (r: Option<Invitation>)
    ensures r.Some? <==> FindByToken(rows, token).Some?
    ensures r.Some? ==> Some(r.value.token) == token && r.value in rows
  {
    match FindByToken(rows, token)
    case Some(k) => Some(rows[k])
    case None => None
  }

  /** `show` behind its before actions: wrong recipient, then nil,
      expired, accepted (so an accepted and expired invitation is reported
      as expired), and only a pending invitation stores its token in the
      session and renders the page. */
  function Show(rows: seq<Invitation>, token: Option<string>, user: Option<User>, session: Session, now: int)
    : (r: (Response, Session))
    ensures var inv := Lookup(rows, token);
      && (WrongRecipient(inv, user, now) ==> r == (WrongRecipientRedirect, session))
      && (!WrongRecipient(inv, user, now) ==>
            && (inv.None? ==> r == (Redirect(RootPath, Alert("Invalid invitation link")), session))
            && (inv.Some? && Expired(inv.value, now) ==>
                  r == (Redirect(RootPath, Alert("This invitation has expired")), session))
            && (inv.Some? && !Expired(inv.value, now) && Accepted(inv.value) ==>
                  r == (Redirect(RootPath, Notice("This invitation has already been accepted")), session))
            && (inv.Some? && Pending(inv.value, now) ==>
                  r == (Render("invitation_acceptances/show"), session[InvitationTokenKey := inv.value.token])))
    ensures r.1 != session ==> Lookup(rows, token).Some? && Pending(Lookup(rows, token).value, now)
  {
    var inv := Lookup(rows, token);
    if WrongRecipient(inv, user, now) then (WrongRecipientRedirect, session)
    else if inv.None? then (Redirect(RootPath, Alert("Invalid invitation link")), session)
    else if Expired(inv.value, now) then (Redirect(RootPath, Alert("This invitation has expired")), session)
    else if Accepted(inv.value) then (Redirect(RootPath, Notice("This invitation has already been accepted")), session)
    else (Render("invitation_acceptances/show"), session[InvitationTokenKey := inv.value.token])
  }

  /** The recipient may differ from the signed-in user only in letter case. */
  lemma CaseInsensitiveRecipient(rows: seq<Invitation>, token: Option<string>, u: User, session: Session, now: int)
    requires Lookup(rows, token).Some? && Pending(Lookup(rows, token).value, now)
    requires Downcase(u.email) == Downcase(Lookup(rows, token).value.email)
    ensures Show(rows, token, Some(u), session, now).0 == Render("invitation_acceptances/show")
  {
  }

  /** `accept` behind its before actions: a nil or non-pending invitation
      is refused; a signed-out visitor is sent to registration with the
      invitation untouched; a signed-in user accepts, and on success the
      session token is cleared and the account named. `accountName` is
      `invitation.account.name`. */
  method Accept(invitations: InvitationTable, memberships: Memberships.MembershipTable, token: Option<string>,
                user: Option<User>, session: Session, now: int, accountName: int -> string)
    returns (r: Result<Response, Error>, session': Session)
    modifies invitations, memberships
    ensures var inv := Lookup(old(invitations.rows), token);
      && (WrongRecipient(inv, user, now) ==>
            r == Ok(WrongRecipientRedirect) && session' == session && unchanged(invitations, memberships))
      && (!WrongRecipient(inv, user, now) && (inv.None? || !Pending(inv.value, now)) ==>
            && r == Ok(Redirect(RootPath, Alert("Invalid or expired invitation")))
            && session' == session && unchanged(invitations, memberships))
      && (inv.Some? && Pending(inv.value, now) && user.None? ==>
            r == Ok(Redirect(NewUserRegistrationPath, NoFlash)) && session' == session && unchanged(invitations, memberships))
      && (!WrongRecipient(inv, user, now) && inv.Some? && Pending(inv.value, now) && user.Some? ==>
            var k := FindByToken(old(invitations.rows), token).value;
            && (!Memberships.Taken(old(memberships.rows), user.value.id, inv.value.accountId) ==>
                  && r == Ok(Redirect(RootPath, Notice("You have joined " + accountName(inv.value.accountId))))
                  && session' == session - {InvitationTokenKey}
                  && memberships.rows == old(memberships.rows)
                       + [Memberships.Membership(user.value.id, inv.value.accountId, Memberships.Member)]
                  && invitations.rows == old(invitations.rows)[k := inv.value.(acceptedAt := Some(now))]
                  && FindByToken(invitations.rows, token) == Some(k)
                  && Accepted(invitations.rows[k]))
            && (Memberships.Taken(old(memberships.rows), user.value.id, inv.value.accountId) ==>
                  && r == Err(RecordInvalid(["User has already been taken"]))
                  && session' == session
                  && invitations.rows == old(invitations.rows) && memberships.rows == old(memberships.rows)))
    ensures Valid(old(invitations.rows)) ==> Valid(invitations.rows)
    ensures Memberships.Unique(old(memberships.rows)) ==> Memberships.Unique(memberships.rows)
  {
    session' := session;
    var found := FindByToken(invitations.rows, token);
    var inv := Lookup(invitations.rows, token);
    if WrongRecipient(inv, user, now) {
      return Ok(WrongRecipientRedirect), session;
    }
    if inv.None? || !Pending(inv.value, now) {
      return Ok(Redirect(RootPath, Alert("Invalid or expired invitation"))), session;
    }
    if user.None? {
      return Ok(Redirect(NewUserRegistrationPath, NoFlash)), session;
    }
    var k := found.value;
    var m := Invitations.Accept(invitations, memberships, k, user.value.id, now);
    if m.Err? {
      return Err(m.error), session;
    }
    TokenStillFound(old(invitations.rows), invitations.rows, k, token, Some(now));
    session' := session - {InvitationTokenKey};
    r := Ok(Redirect(RootPath, Notice("You have joined " + accountName(inv.value.accountId))));
  }

  /** Recording the acceptance time keeps the token lookup pointing at the
      same row. */
  lemma TokenStillFound(before: seq<Invitation>, after: seq<Invitation>, k: nat, token: Option<string>, t: Option<int>)
    requires k < |before| && FindByToken(before, token) == Some(k)
    requires after == before[k := before[k].(acceptedAt := t)]
    ensures FindByToken(after, token) == Some(k)
  {
    assert forall j :: 0 <= j < |after| ==> after[j].token == before[j].token;
    FindByTokenUnchanged(before, after, token, 0);
  }

  /** Two tables with the same tokens in the same order answer every token
      lookup alike. */
  lemma {:induction false} FindByTokenUnchanged(before: seq<Invitation>, after: seq<Invitation>, token: Option<string>, k: nat)
    requires |before| == |after| && k <= |before|
    requires forall j :: 0 <= j < |after| ==> after[j].token == before[j].token
    ensures FindByTokenFrom(after, token, k) == FindByTokenFrom(before, token, k)
    decreases |before| - k
  {
    if k < |before| {
      FindByTokenUnchanged(before, after, token, k + 1);
    }
  }
}

=== FILE: invoice_paid_handler.dfy ===
/** app/services/stripe/invoice_paid_handler.rb: a paid subscription
    invoice makes the customer's account active. */
module InvoicePaidHandler {
  import opened Wrappers
  import opened Accounts
  import opened AccountStore
  import opened StripeObjects

  /** `find_account`: by `stripe_customer_id` (a nil customer matches rows
      without one). */
  function FindAccount(rows: seq<Account>, inv: Invoice): (r: Option<nat>)
    ensures r.Some? ==> r.value < |rows| && rows[r.value].stripeCustomerId == inv.customer
    ensures r.None? <==> forall j :: 0 <= j < |rows| ==> rows[j].stripeCustomerId != inv.customer
  {
    FindByCustomer(rows, inv.customer)
  }

  /** The `update!`: active, and the start date kept or set to now. */
  function Activated(a: Account, now: int): Account {
    a.(subscriptionStatus := Some("active"),
       subscriptionStartedAt := Some(a.subscriptionStartedAt.GetOr(now)))
  }

  /** `call` on the table: nothing is written on a miss or for an invoice
      without a subscription; otherwise the row becomes active and keeps
      an existing start date. */
  function Reconcile(rows: seq<Account>, inv: Invoice, now: int): (r: Effect)
    ensures FindAccount(rows, inv).None? || inv.subscription.None? ==> r == Effect(rows, None)
    ensures FindAccount(rows, inv).Some? && inv.subscription.Some? ==>
      var i := FindAccount(rows, inv).value;
      && OnlyRowChanged(rows, r.rows, i)
      && r.rows[i].subscriptionStatus == Some("active")
      && (rows[i].subscriptionStartedAt.Some? ==> r.rows[i].subscriptionStartedAt == rows[i].subscriptionStartedAt)
      && (rows[i].subscriptionStartedAt.None? ==> r.rows[i].subscriptionStartedAt == Some(now))
      && r.rows[i].(subscriptionStatus := rows[i].subscriptionStatus,
                    subscriptionStartedAt := rows[i].subscriptionStartedAt) == rows[i]
      && r.returned == Some(r.rows[i])
    ensures Valid(rows) ==> Valid(r.rows)
  {
    if inv.subscription.None? then Effect(rows, None)
    else match FindAccount(rows, inv)
      case None => Effect(rows, None)
      case Some(i) =>
        var b := Activated(rows[i], now);
        Effect(Assign(rows, i, b), Some(b))
  }

  /** A second delivery, even at a later time, changes nothing: the start
      date is already set. */
  lemma {:induction false} ReconcileIdempotent(rows: seq<Account>, inv: Invoice, now: int, later: int)
    ensures Reconcile(Reconcile(rows, inv, now).rows, inv, later).rows == Reconcile(rows, inv, now).rows
  {
    if inv.subscription.Some? {
      match FindAccount(rows, inv)
      case None =>
      case Some(i) =>
        var b := Activated(rows[i], now);
        FindByCustomerAfterWrite(rows, i, b, inv.customer);
        assert FindAccount(rows[i := b], inv) == Some(i);
        assert Activated(b, later) == b;
        assert rows[i := b][i := b] == rows[i := b];
    }
  }

  /** `call` performed on the table in place. */
  method Call(db: AccountTable, inv: Invoice, now: int) returns (r: Option<Account>)
    modifies db
    ensures db.rows == Reconcile(old(db.rows), inv, now).rows
    ensures r == Reconcile(old(db.rows), inv, now).returned
  {
    var found := FindAccount(db.rows, inv);
    if found.None? {
      return None;
    }
    if inv.subscription.None? {
      return None;
    }
    var updated := Activated(db.rows[found.value], now);
    var w := db.Update(found.value, updated);
    r := Some(updated);
  }
}

=== FILE: invoice_payment_failed_handler.dfy ===
/** app/services/stripe/invoice_payment_failed_handler.rb: a failed
    subscription invoice puts the customer's account into dunning. */
module InvoicePaymentFailedHandler {
  import opened Wrappers
  import opened Accounts
  import opened AccountStore
  import opened StripeObjects

  /** `find_account`: by `stripe_customer_id`. */
  function FindAccount(rows: seq<Account>, inv: Invoice): (r: Option<nat>)
    ensures r.Some? ==> r.value < |rows| && rows[r.value].stripeCustomerId == inv.customer
    ensures r.None? <==> forall j :: 0 <= j < |rows| ==> rows[j].stripeCustomerId != inv.customer
  {
    FindByCustomer(rows, inv.customer)
  }

  /** `call` on the table: only the status of the matching row changes, to
      "past_due"; a miss or an invoice without a subscription writes
      nothing. */
  function Reconcile(rows: seq<Account>, inv: Invoice): (r: Effect)
    ensures FindAccount(rows, inv).None? || inv.subscription.None? ==> r == Effect(rows, None)
    ensures FindAccount(rows, inv).Some? && inv.subscription.Some? ==>
      var i := FindAccount(rows, inv).value;
      && OnlyRowChanged(rows, r.rows, i)
      && r.rows[i] == rows[i].(subscriptionStatus := Some("past_due"))
      && SubscriptionPastDue(r.rows[i]) && Subscribed(r.rows[i])
      && r.returned == Some(r.rows[i])
    ensures Valid(rows) ==> Valid(r.rows)
  {
    if inv.subscription.None? then Effect(rows, None)
    else match FindAccount(rows, inv)
      case None => Effect(rows, None)
      case Some(i) =>
        var b := rows[i].(subscriptionStatus := Some("past_due"));
        Effect(Assign(rows, i, b), Some(b))
  }

  /** Applying the event twice leaves the table as applying it once. */
  lemma {:induction false} ReconcileIdempotent(rows: seq<Account>, inv: Invoice)
    ensures Reconcile(Reconcile(rows, inv).rows, inv).rows == Reconcile(rows, inv).rows
  {
    if inv.subscription.Some? {
      match FindAccount(rows, inv)
      case None =>
      case Some(i) =>
        var b := rows[i].(subscriptionStatus := Some("past_due"));
        FindByCustomerAfterWrite(rows, i, b, inv.customer);
        assert FindAccount(rows[i := b], inv) == Some(i);
        assert rows[i := b][i := b.(subscriptionStatus := Some("past_due"))] == rows[i := b];
    }
  }

  /** `call` performed on the table in place. */
  method Call(db: AccountTable, inv: Invoice) returns (r: Option<Account>)
    modifies db
    ensures db.rows == Reconcile(old(db.rows), inv).rows
    ensures r == Reconcile(old(db.rows), inv).returned
  {
    var found := FindAccount(db.rows, inv);
    if found.None? {
      return None;
    }
    if inv.subscription.None? {
      return None;
    }
    var updated := db.rows[found.value].(subscriptionStatus := Some("past_due"));
    var w := db.Update(found.value, updated);
    r := Some(updated);
  }
}

=== FILE: membership.dfy ===
/** app/models/membership.rb: a user's role in an account, at most one
    membership per (user, account) pair. */
module Memberships {
  import opened Wrappers
  import opened Web

  /** `enum :role, { member: "member", admin: "admin", owner: "owner" }` */
  datatype Role = Member | Admin | Owner

  /** The string each role is stored as. */
  function RoleValue(r: Role): (s: string)
    ensures s in {"member", "admin", "owner"}
  {
    match r
    case Member => "member"
    case Admin => "admin"
    case Owner => "owner"
  }

  /** Reading a stored role back: only the three enum strings name a role. */
  function ParseRole(s: string): (r: Option<Role>)
    ensures r.Some? <==> s in {"member", "admin", "owner"}
    ensures r.Some? ==> RoleValue(r.value) == s
  {
    match s
    case "member" => Some(Member)
    case "admin" => Some(Admin)
    case "owner" => Some(Owner)
    case _ => None
  }

  /** Every role survives a round trip through its stored string. */
  lemma RoleRoundTrip(r: Role)
    ensures ParseRole(RoleValue(r)) == Some(r)
  {
  }

  /** The column default of the role (db/migrate/..._create_memberships.rb). */
  const DefaultRole: Role := Member

  datatype Membership = Membership(userId: int, accountId: int, role: Role)

  /** Attributes given to `create!`; a missing user or account is None, a
      missing role takes the column default. */
  datatype Draft = Draft(userId: Option<int>, accountId: Option<int>, role: Option<Role>)

  /** The (user, account) pair is taken by an existing membership. */
  predicate Taken(rows: seq<Membership>, userId: int, accountId: int) {
    exists j :: 0 <= j < |rows| && rows[j].userId == userId && rows[j].accountId == accountId
  }

  /** The validations in declaration order: the two required `belongs_to`
      associations, then the uniqueness of the user within the account
      (which only runs with both ids present). */
  function Errors(rows: seq<Membership>, d: Draft): (r: seq<string>)
    ensures r == [] <==> d.userId.Some? && d.accountId.Some? && !Taken(rows, d.userId.value, d.accountId.value)
    ensures d.userId.None? ==> "User must exist" in r
    ensures d.accountId.None? ==> "Account must exist" in r
  {
    (if d.userId.None? then ["User must exist"] else [])
    + (if d.accountId.None? then ["Account must exist"] else [])
    + (if d.userId.Some? && d.accountId.Some? && Taken(rows, d.userId.value, d.accountId.value)
       then ["User has already been taken"] else [])
  }

  /** No two memberships share a (user, account) pair. */
  predicate Unique(rows: seq<Membership>) {
    forall i, j :: 0 <= i < j < |rows| ==> (rows[i].userId, rows[i].accountId) != (rows[j].userId, rows[j].accountId)
  }

  /** The memberships table. */
  class MembershipTable {
    var rows: seq<Membership>

    constructor ()
      ensures rows == []
    {
      rows := [];
    }

    /** `memberships.create!(...)`: a valid draft is appended with its role
        (default member); an invalid one raises RecordInvalid with the full
        messages and nothing is written. */
    method Create(d: Draft) returns (r: Result<Membership, Error>)
      modifies this
      ensures Errors(old(rows), d) != [] ==> r == Err(RecordInvalid(Errors(old(rows), d))) && rows == old(rows)
      ensures Errors(old(rows), d) == [] ==>
        && r == Ok(Membership(d.userId.value, d.accountId.value, d.role.GetOr(DefaultRole)))
        && rows == old(rows) + [r.value]
      ensures Unique(old(rows)) ==> Unique(rows)
    {
      var errors := Errors(rows, d);
      if errors != [] {
        return Err(RecordInvalid(errors));
      }
      var m := Membership(d.userId.value, d.accountId.value, d.role.GetOr(DefaultRole));
      rows := rows + [m];
      r := Ok(m);
    }
  }

  /** A second creation for the same pair is refused. */
  lemma SecondMembershipRefused(rows: seq<Membership>, userId: int, accountId: int, role: Option<Role>)
    requires Taken(rows, userId, accountId)
    ensures Errors(rows, Draft(Some(userId), Some(accountId), role)) == ["User has already been taken"]
  {
  }
}

=== FILE: plan.dfy ===
/** app/models/plan.rb: the plan catalog entry, its defaults, lookups,
    prices and display strings, and the class-level memo of `Plan.all`. */
module Plans {
  import opened Wrappers
  import opened Search
  import opened Text
  import opened Web

  /** A catalog entry as `Plan#initialize` builds it (prices are integers). */
  datatype Plan = Plan(
    key: string,
    name: Option<string>,
    description: Option<string>,
    monthlyPrice: int,
    annualPrice: int,
    bulletPoints: seq<string>,
    recommended: bool,
    stripePriceId: Option<string>,
    stripeAnnualPriceId: Option<string>,
    trialDays: int,
    limits: map<string, int>,
    ctaText: string,
    badge: Option<string>)

  /** `Plan#id` and `Plan#stripe_monthly_price_id` are called by the
      handlers and controllers but plan.rb does not define them; the model
      keeps them uninterpreted. */
  datatype PlanMethods = PlanMethods(id: Plan -> string, stripeMonthlyPriceId: Plan -> Option<string>)

  /** One YAML entry; a missing key is None. */
  datatype Attributes = Attributes(
    name: Option<string>,
    description: Option<string>,
    monthlyPrice: int,
    annualPrice: int,
    bulletPoints: Option<seq<string>>,
    recommended: Option<bool>,
    stripePriceId: Option<string>,
    stripeAnnualPriceId: Option<string>,
    trialDays: Option<int>,
    limits: Option<map<string, int>>,
    ctaText: Option<string>,
    badge: Option<string>)

  /** `Plan.new(key, attributes)`: given attributes are kept, missing ones
      take their defaults. */
  function New(key: string, attrs: Attributes): (p: Plan)
    ensures p.key == key && p.monthlyPrice == attrs.monthlyPrice && p.annualPrice == attrs.annualPrice
    ensures p.name == attrs.name && p.description == attrs.description && p.badge == attrs.badge
    ensures p.stripePriceId == attrs.stripePriceId && p.stripeAnnualPriceId == attrs.stripeAnnualPriceId
    ensures p.bulletPoints == attrs.bulletPoints.GetOr([])
    ensures p.recommended == attrs.recommended.GetOr(false)
    ensures p.trialDays == attrs.trialDays.GetOr(0)
    ensures p.limits == attrs.limits.GetOr(map[])
    ensures p.ctaText == attrs.ctaText.GetOr("Get Started")
    ensures attrs.ctaText.None? ==> p.ctaText == "Get Started"
    ensures attrs.trialDays.None? ==> p.trialDays == 0
  {
    Plan(key, attrs.name, attrs.description, attrs.monthlyPrice, attrs.annualPrice,
         attrs.bulletPoints.GetOr([]), attrs.recommended.GetOr(false),
         attrs.stripePriceId, attrs.stripeAnnualPriceId, attrs.trialDays.GetOr(0),
         attrs.limits.GetOr(map[]), attrs.ctaText.GetOr("Get Started"), attrs.badge)
  }

  /** The argument of `Plan.find`: a symbol, a string or nil. */
  datatype Key = Sym(symbol: string) | Str(text: string) | NilKey

  /** `key.to_s` */
  function KeyString(k: Key): string {
    match k
    case Sym(s) => s
    case Str(s) => s
    case NilKey => ""
  }

  /** `Plan.find(key)` over the loaded list: the first plan whose key is
      `key.to_s`, else PlanNotFound with "Plan '<key>' not found". */
  function Find(plans: seq<Plan>, k: Key): (r: Result<Plan, Error>)
    ensures r.Ok? ==> r.value.key == KeyString(k) && r.value in plans
    ensures r.Ok? ==> exists i :: (0 <= i < |plans| && plans[i] == r.value &&
                                   forall j :: 0 <= j < i ==> plans[j].key != KeyString(k))
    ensures r.Err? <==> forall i :: 0 <= i < |plans| ==> plans[i].key != KeyString(k)
    ensures r.Err? ==> r.error == PlanNotFound("Plan '" + KeyString(k) + "' not found")
  {
    match FirstIndex(plans, (p: Plan) => p.key == KeyString(k))
    case Some(i) => Ok(plans[i])
    case None => Err(PlanNotFound("Plan '" + KeyString(k) + "' not found"))
  }

  /** A symbol and the string with the same characters find the same plan. */
  lemma FindSymbolOrString(plans: seq<Plan>, s: string)
    ensures Find(plans, Sym(s)) == Find(plans, Str(s))
  {
  }

  /** `Plan.recommended`: the first plan whose flag is set. */
  function Recommended(plans: seq<Plan>): (r: Option<Plan>)
    ensures r.Some? ==> r.value.recommended && r.value in plans
    ensures r.Some? ==> exists i :: (0 <= i < |plans| && plans[i] == r.value &&
                                     forall j :: 0 <= j < i ==> !plans[j].recommended)
    ensures r.None? <==> forall i :: 0 <= i < |plans| ==> !plans[i].recommended
  {
    match FirstIndex(plans, (p: Plan) => p.recommended)
    case Some(i) => Some(plans[i])
    case None => None
  }

  predicate IsFree(p: Plan) {
    p.monthlyPrice == 0 && p.annualPrice == 0
  }

  /** A plan is free exactly when both of its prices display as "Free". */
  lemma FreeIffBothDisplayFree(p: Plan)
    ensures IsFree(p) <==> MonthlyPriceDisplay(p) == "Free" && AnnualPriceDisplay(p) == "Free"
  {
    DisplayStartsWithF(p.monthlyPrice);
    DisplayStartsWithF(p.annualPrice);
  }

  /** "Free" for a zero price, "$" and the price otherwise. */
  function PriceDisplay(price: int): (s: string)
    ensures price == 0 ==> s == "Free"
    ensures price != 0 ==> s == "$" + IntToDecimal(price)
  {
    if price == 0 then "Free" else "$" + IntToDecimal(price)
  }

  function MonthlyPriceDisplay(p: Plan): string {
    PriceDisplay(p.monthlyPrice)
  }

  function AnnualPriceDisplay(p: Plan): string {
    PriceDisplay(p.annualPrice)
  }

  /** A display string names the price it was made from: "Free" for zero
      only, and distinct prices display differently. */
  lemma {:induction false} PriceDisplayInjective(a: int, b: int)
    requires PriceDisplay(a) == PriceDisplay(b)
    ensures a == b
  {
    DisplayStartsWithF(a);
    DisplayStartsWithF(b);
    if a != 0 && b != 0 {
      var sa, sb := IntToDecimal(a), IntToDecimal(b);
      assert ("$" + sa)[1..] == sa && ("$" + sb)[1..] == sb;
      assert sa == sb;
      assert (a < 0) == (sa[0] == '-');
      assert (b < 0) == (sb[0] == '-');
      if a < 0 {
        assert sa[1..] == NatToDecimal(-a) && sb[1..] == NatToDecimal(-b);
        DecimalInjective(-a, -b);
      } else {
        DecimalInjective(a, b);
      }
    }
  }

  lemma DisplayStartsWithF(x: int)
    ensures |PriceDisplay(x)| > 0 && (PriceDisplay(x)[0] == 'F' <==> x == 0)
  {
  }

  /** `Float#round` of n/d: the nearest integer, halves away from zero. */
  function RoundQuotient(n: int, d: int): (r: int)
    requires d > 0
    ensures -d <= 2 * (r * d - n) <= d
    ensures 2 * (r * d - n) == d ==> n > 0
    ensures 2 * (r * d - n) == -d ==> n < 0
  {
    if n >= 0 then (2 * n + d) / (2 * d) else -((2 * -n + d) / (2 * d))
  }

  /** `annual_discount_percent`: 0 when either price is zero, else the
      percentage saved by paying yearly instead of 12 months, computed on
      exact rationals and rounded half away from zero like `Float#round`; a negative monthly price makes the
      divisor negative, which the fraction is normalised for. */
  function AnnualDiscountPercent(p: Plan): (r: int)
    ensures p.monthlyPrice == 0 || p.annualPrice == 0 ==> r == 0
    ensures p.monthlyPrice != 0 && p.annualPrice != 0 ==>
      var total := 12 * p.monthlyPrice;
      var n := if total > 0 then 100 * (total - p.annualPrice) else 100 * (p.annualPrice - total);
      var d := if total > 0 then total else -total;
      && -d <= 2 * (r * d - n) <= d
      && (2 * (r * d - n) == d ==> n > 0)
      && (2 * (r * d - n) == -d ==> n < 0)
  {
    if p.monthlyPrice == 0 || p.annualPrice == 0 then 0
    else
      var total := p.monthlyPrice * 12;
      if total > 0 then RoundQuotient((total - p.annualPrice) * 100, total)
      else RoundQuotient(-((total - p.annualPrice) * 100), -total)
  }

  /** The bounds and tie rules of RoundQuotient pin a single integer: no
      other rounding of n / d meets them. */
  lemma RoundQuotientUnique(n: int, d: int, r: int)
    requires d > 0
    requires -d <= 2 * (r * d - n) <= d
    requires 2 * (r * d - n) == d ==> n > 0
    requires 2 * (r * d - n) == -d ==> n < 0
    ensures r == RoundQuotient(n, d)
  {
    var q := RoundQuotient(n, d);
    if r != q {
      var lo, hi := if r < q then r else q, if r < q then q else r;
      StepAtLeastDivisor(lo, hi, d);
    }
  }

  lemma StepAtLeastDivisor(lo: int, hi: int, d: int)
    requires lo < hi && d > 0
    ensures hi * d - lo * d >= d
  {
    assert hi * d - lo * d == (hi - lo) * d;
    assert (hi - lo - 1) * d >= 0;
  }

  /** 87 / 600 of a hundred is exactly 14.5 and rounds to 15 here; the
      source's floating-point quotient falls just below and rounds to 14. */
  lemma RationalHalfRoundsUp(p: Plan)
    requires p.monthlyPrice == 50 && p.annualPrice == 513
    ensures AnnualDiscountPercent(p) == 15
  {
  }

  /** A saving of exactly 12.5% rounds up to 13, as Ruby's `round` does
      for a quotient that is exact in binary (12 / 96 * 100 is 12.5). */
  lemma HalfPercentRoundsUp(p: Plan)
    requires p.monthlyPrice == 8 && p.annualPrice == 84
    ensures AnnualDiscountPercent(p) == 13
  {
  }

  /** The catalog's Pro plan, $29 a month or $290 a year, saves 17%. */
  lemma ProDiscountIsSeventeen(p: Plan)
    requires p.monthlyPrice == 29 && p.annualPrice == 290
    ensures AnnualDiscountPercent(p) == 17
  {
  }

  /** A yearly price of exactly 12 months has no discount. */
  lemma NoDiscountAtTwelveMonths(p: Plan)
    requires p.monthlyPrice > 0 && p.annualPrice == 12 * p.monthlyPrice
    ensures AnnualDiscountPercent(p) == 0
  {
    var total := p.monthlyPrice * 12;
    assert (total - p.annualPrice) * 100 == 0;
    RoundQuotientOfZero(total);
  }

  lemma RoundQuotientOfZero(d: int)
    requires d > 0
    ensures RoundQuotient(0, d) == 0
  {
    assert d / (2 * d) == 0;
  }

  /** `Plan.all` memoised in the class-level `@all`; `reload!` clears it. */
  class PlanCatalog {
    var memo: Option<seq<Plan>>

    constructor ()
      ensures memo == None
    {
      memo := None;
    }

    /** `@all ||= load_plans`; `loaded` is what load_plans reads from YAML. */
    method All(loaded: seq<Plan>) returns (plans: seq<Plan>)
      modifies this
      ensures old(memo).Some? ==> plans == old(memo).value && memo == old(memo)
      ensures old(memo).None? ==> plans == loaded && memo == Some(loaded)
    {
      if memo.None? {
        memo := Some(loaded);
      }
      plans := memo.value;
    }

    method Reload()
      modifies this
      ensures memo == None
    {
      memo := None;
    }
  }

  /** Two calls of `all` with no `reload!` between them agree, whatever the
      YAML file holds at the second call. */
  method AllIsCached(c: PlanCatalog, first: seq<Plan>, second: seq<Plan>) returns (a: seq<Plan>, b: seq<Plan>)
    modifies c
    ensures a == b
    ensures old(c.memo).None? ==> a == first
  {
    a := c.All(first);
    b := c.All(second);
  }
}

=== FILE: plan_changes_controller.dfy ===
/** app/controllers/plan_changes_controller.rb: moving a subscribed
    account to another catalog plan through a hosted checkout. */
module PlanChangesController {
  import opened Wrappers
  import opened Text
  import opened Accounts
  import opened Plans
  import opened Web
  import opened StripeCheckoutController

  /** Account and Plan methods this controller calls that the model files
      do not define (`can_change_plan?`, `upgrading_to?`, `Plan.find_by`,
      `current_plan`), kept uninterpreted. */
  datatype Collaborators = Collaborators(
    canChangePlan: Account -> bool,
    currentPlan: Account -> Plan,
    upgradingTo: (Account, string) -> bool,
    findPlanById: Option<string> -> Option<Plan>)

  /** The before-action chain, in declaration order: sign-in, active
      subscription, target plan, not the current plan. Ok carries the
      account and target plan the action runs with; Err the redirect that
      halted the chain. */
  function Filters(signedIn: bool, account: Option<Account>, planParam: Option<string>, c: Collaborators, m: PlanMethods)
    : (r: Result<(Account, Plan), Response>)
    ensures !signedIn ==> r == Err(Redirect(NewUserSessionPath, NoFlash))
    ensures signedIn && (account.None? || !c.canChangePlan(account.value)) ==>
              r == Err(Redirect(PricingPath, Alert("You need an active subscription to change plans")))
    ensures signedIn && account.Some? && c.canChangePlan(account.value) && c.findPlanById(planParam).None? ==>
              r == Err(Redirect(PlanPath, Alert("Plan not found")))
    ensures signedIn && account.Some? && c.canChangePlan(account.value) && c.findPlanById(planParam).Some? ==>
      var target := c.findPlanById(planParam).value;
      && (m.id(target) == account.value.plan ==> r == Err(Redirect(PlanPath, Alert("You're already on this plan"))))
      && (m.id(target) != account.value.plan ==> r == Ok((account.value, target)))
    ensures r.Ok? ==> c.canChangePlan(r.value.0) && m.id(r.value.1) != r.value.0.plan
  {
    if !signedIn then Err(Redirect(NewUserSessionPath, NoFlash))
    else if account.None? || !c.canChangePlan(account.value) then
      Err(Redirect(PricingPath, Alert("You need an active subscription to change plans")))
    else
      match c.findPlanById(planParam)
      case None => Err(Redirect(PlanPath, Alert("Plan not found")))
      case Some(target) =>
        if m.id(target) == account.value.plan then Err(Redirect(PlanPath, Alert("You're already on this plan")))
        else Ok((account.value, target))
  }

  datatype ChangeType = Upgrade | Downgrade

  /** What the `new` page shows: the account's current plan, the target,
      the interval (monthly by default) and whether the change is an
      upgrade. */
  datatype NewView = NewView(currentPlan: Plan, target: Plan, interval: string, changeType: ChangeType)

  /** `new`, after the same filters. */
  function New(signedIn: bool, account: Option<Account>, planParam: Option<string>, interval: Option<string>,
               c: Collaborators, m: PlanMethods): (r: Result<NewView, Response>)
    ensures Filters(signedIn, account, planParam, c, m).Err? ==> r == Err(Filters(signedIn, account, planParam, c, m).error)
    ensures r.Ok? ==> r.value.interval == interval.GetOr("monthly")
    ensures r.Ok? ==>
      var (a, target) := Filters(signedIn, account, planParam, c, m).value;
      && r.value.currentPlan == c.currentPlan(a) && r.value.target == target
      && (r.value.changeType == Upgrade <==> c.upgradingTo(a, m.id(target)))
  {
    match Filters(signedIn, account, planParam, c, m)
    case Err(resp) => Err(resp)
    case Ok((a, target)) =>
      Ok(NewView(c.currentPlan(a), target, interval.GetOr("monthly"),
                 if c.upgradingTo(a, m.id(target)) then Upgrade else Downgrade))
  }

  /** The hash `create_plan_change_session` hands to `Session.create`:
      the account's own customer id (nil stays nil), the line item, the
      success and cancel URLs, promotion codes and automatic tax, and
      proration data exactly when the change is an upgrade. */
  predicate PlanChangeParams(params: map<string, Param>, a: Account, target: Plan, priceId: string, interval: string,
                             c: Collaborators, m: PlanMethods, successUrl: string, cancelUrl: (string, string) -> string)
  {
    && params.Keys == {"customer", "line_items", "mode", "success_url", "cancel_url", "allow_promotion_codes",
                       "automatic_tax"} + (if c.upgradingTo(a, m.id(target)) then {"subscription_data"} else {})
    && params["customer"] == (if a.stripeCustomerId.Some? then PStr(a.stripeCustomerId.value) else PNil)
    && params["line_items"] == PList([LineItem(priceId)]) && params["mode"] == PStr("subscription")
    && params["success_url"] == PStr(successUrl)
    && params["cancel_url"] == PStr(cancelUrl(m.id(target), interval))
    && params["allow_promotion_codes"] == PBool(true)
    && params["automatic_tax"] == PHash(map["enabled" := PBool(true)])
    && (c.upgradingTo(a, m.id(target)) ==>
          params["subscription_data"] == PHash(map["proration_behavior" := PStr("create_prorations")]))
  }

  /** `create_plan_change_session`'s `session_params`, built by insertion. */
  method SessionParams(a: Account, target: Plan, priceId: string, interval: string, c: Collaborators, m: PlanMethods,
                       successUrl: string, cancelUrl: (string, string) -> string)
    returns (params: map<string, Param>)
    ensures PlanChangeParams(params, a, target, priceId, interval, c, m, successUrl, cancelUrl)
  {
    params := map["customer" := if a.stripeCustomerId.Some? then PStr(a.stripeCustomerId.value) else PNil,
                  "line_items" := PList([LineItem(priceId)]),
                  "mode" := PStr("subscription"),
                  "success_url" := PStr(successUrl),
                  "cancel_url" := PStr(cancelUrl(m.id(target), interval)),
                  "allow_promotion_codes" := PBool(true),
                  "automatic_tax" := PHash(map["enabled" := PBool(true)])];
    var changeType := if c.upgradingTo(a, m.id(target)) then Upgrade else Downgrade;
    if changeType == Upgrade {
      params := params["subscription_data" := PHash(map["proration_behavior" := PStr("create_prorations")])];
    }
  }

  /** A plan change always bills the account's existing customer and never
      falls back to an email; only an upgrade asks for prorations. */
  lemma PlanChangeReusesCustomer(params: map<string, Param>, a: Account, target: Plan, priceId: string, interval: string,
                                 c: Collaborators, m: PlanMethods, successUrl: string, cancelUrl: (string, string) -> string)
    requires PlanChangeParams(params, a, target, priceId, interval, c, m, successUrl, cancelUrl)
    ensures "customer" in params && "customer_email" !in params
    ensures ("subscription_data" in params) <==> c.upgradingTo(a, m.id(target))
  {
  }

  /** The checks `create` makes after the filters: the interval, then the
      price it selects. Ok carries the price to open a session for. */
  function CreateDecision(target: Plan, interval: Option<string>, m: PlanMethods): (r: Result<string, Response>)
    ensures !ValidInterval(interval) ==> r == Err(Redirect(NewPlanChangePath(m.id(target)), Alert("Invalid billing interval")))
    ensures ValidInterval(interval) && Blank(SelectedPrice(target, interval.value, m)) ==>
              r == Err(Redirect(NewPlanChangePath(m.id(target)), Alert("This plan is not available")))
    ensures ValidInterval(interval) && !Blank(SelectedPrice(target, interval.value, m)) ==>
              r == Ok(SelectedPrice(target, interval.value, m).value)
  {
    if !ValidInterval(interval) then Err(Redirect(NewPlanChangePath(m.id(target)), Alert("Invalid billing interval")))
    else
      var price := SelectedPrice(target, interval.value, m);
      if Blank(price) then Err(Redirect(NewPlanChangePath(m.id(target)), Alert("This plan is not available")))
      else Ok(price.value)
  }

  /** `create` behind its filters: a session is opened only when every
      filter and check passes (`Session.create` is `sessionUrl`). */
  method Create(signedIn: bool, account: Option<Account>, planParam: Option<string>, interval: Option<string>,
                c: Collaborators, m: PlanMethods, successUrl: string, cancelUrl: (string, string) -> string,
                sessionUrl: map<string, Param> -> string)
    returns (r: Response, session: Option<map<string, Param>>)
    ensures Filters(signedIn, account, planParam, c, m).Err? ==>
              r == Filters(signedIn, account, planParam, c, m).error && session.None?
    ensures Filters(signedIn, account, planParam, c, m).Ok? ==>
      var (a, target) := Filters(signedIn, account, planParam, c, m).value;
      var d := CreateDecision(target, interval, m);
      && (d.Err? ==> r == d.error && session.None?)
      && (d.Ok? ==> session.Some?
                    && PlanChangeParams(session.value, a, target, d.value, interval.value, c, m, successUrl, cancelUrl)
                    && r == Redirect(ExternalUrl(sessionUrl(session.value)), NoFlash))
  {
    var f := Filters(signedIn, account, planParam, c, m);
    if f.Err? {
      return f.error, None;
    }
    var (a, target) := f.value;
    var d := CreateDecision(target, interval, m);
    if d.Err? {
      return d.error, None;
    }
    var params := SessionParams(a, target, d.value, interval.value, c, m, successUrl, cancelUrl);
    return Redirect(ExternalUrl(sessionUrl(params)), NoFlash), Some(params);
  }
}

=== FILE: plans_helper.dfy ===
/** app/helpers/plans_helper.rb: integer-cents price formatting and the
    per-month share of a yearly price. */
module PlansHelper {
  import opened Text
  import opened Plans

  function Abs(c: int): nat {
    if c < 0 then -c else c
  }

  function SignPrefix(c: int): string {
    if c < 0 then "-" else ""
  }

  /** `'%02d'` of a cents remainder. */
  function TwoDigits(k: nat): (s: string)
    requires k < 100
    ensures |s| == 2 && AllDigits(s) && DecimalValue(s) == k
  {
    var s := [DigitChar(k / 10), DigitChar(k % 10)];
    var hi := [DigitChar(k / 10)];
    assert s[..1] == hi && hi[..0] == [];
    assert DecimalValue(hi) == k / 10;
    assert DecimalValue(s) == DecimalValue(hi) * 10 + k % 10;
    s
  }

  /** `format_plan_price(cents)`: "Free" for zero; whole dollars without
      decimals when the amount is a multiple of 100; otherwise dollars with
      exactly two decimals (`'%.2f'`), a minus sign after the "$" when
      negative. */
  function FormatPlanPrice(cents: int): (r: string)
    ensures cents == 0 ==> r == "Free"
    ensures cents != 0 ==> |r| > 0 && r[0] == '$'
    ensures cents != 0 && cents % 100 == 0 ==> r == "$" + IntToDecimal(cents / 100)
    ensures cents % 100 != 0 ==>
      r == "$" + SignPrefix(cents) + NatToDecimal(Abs(cents) / 100) + "." + TwoDigits(Abs(cents) % 100)
  {
    if cents == 0 then "Free"
    else if cents % 100 == 0 then "$" + IntToDecimal(cents / 100)
    else "$" + SignPrefix(cents) + NatToDecimal(Abs(cents) / 100) + "." + TwoDigits(Abs(cents) % 100)
  }

  /** 2900 cents read "$29", 29000 read "$290", 2950 read "$29.50". */
  lemma FormatPlanPriceExamples()
    ensures FormatPlanPrice(2900) == "$29"
    ensures FormatPlanPrice(29000) == "$290"
    ensures FormatPlanPrice(2950) == "$29.50"
  {
    assert NatToDecimal(2) == "2";
    assert NatToDecimal(29) == NatToDecimal(2) + ['9'];
    assert NatToDecimal(290) == NatToDecimal(29) + ['0'];
    assert FormatPlanPrice(2900) == "$" + NatToDecimal(29);
    assert FormatPlanPrice(29000) == "$" + NatToDecimal(290);
    assert TwoDigits(50) == "50";
  }

  /** The printed amount denotes the cents it came from: the digits before
      the point times 100 plus the two digits after it give |cents|, and a
      whole-dollar string times 100 gives |cents| too. */
  lemma {:induction false} FormatPlanPriceDenotesCents(cents: int)
    requires cents != 0
    ensures cents % 100 == 0 ==>
      FormatPlanPrice(cents) == "$" + SignPrefix(cents) + NatToDecimal(Abs(cents) / 100) &&
      DecimalValue(NatToDecimal(Abs(cents) / 100)) * 100 == Abs(cents)
    ensures cents % 100 != 0 ==>
      DecimalValue(NatToDecimal(Abs(cents) / 100)) * 100 + DecimalValue(TwoDigits(Abs(cents) % 100)) == Abs(cents)
  {
    DecimalRoundTrip(Abs(cents) / 100);
    if cents % 100 == 0 && cents < 0 {
      assert cents / 100 < 0 && -(cents / 100) == Abs(cents) / 100;
    }
  }

  /** `annual_monthly_price(plan)`: Ruby's integer division by 12, which
      floors. */
  function AnnualMonthlyPrice(p: Plan): (r: int)
    ensures 12 * r <= p.annualPrice < 12 * r + 12
  {
    p.annualPrice / 12
  }

  /** The Pro plan's $290 a year comes to $24 a month, the remainder dropped. */
  lemma ProAnnualMonthlyPrice(p: Plan)
    requires p.annualPrice == 290
    ensures AnnualMonthlyPrice(p) == 24
  {
  }
}

=== FILE: stripe_checkout_controller.dfy ===
/** app/controllers/stripe_checkout_controller.rb: starts a hosted
    checkout for a catalog plan and billing interval. */
module StripeCheckoutController {
  import opened Wrappers
  import opened Text
  import opened Accounts
  import opened Plans
  import opened Web

  /** The two intervals `create` accepts. */
  predicate ValidInterval(interval: Option<string>) {
    interval == Some("monthly") || interval == Some("annual")
  }

  /** The price id the interval selects: the monthly one for "monthly",
      the annual one otherwise. */
  function SelectedPrice(p: Plan, interval: string, m: PlanMethods): (r: Option<string>)
    ensures interval == "monthly" ==> r == m.stripeMonthlyPriceId(p)
    ensures interval != "monthly" ==> r == p.stripeAnnualPriceId
  {
    if interval == "monthly" then m.stripeMonthlyPriceId(p) else p.stripeAnnualPriceId
  }

  /** The hash `create_checkout_session` hands to `Session.create`: the
      fixed keys, then `customer` when the account has a present customer
      id or else `customer_email`, then the trial (an integer is always
      present, so the key is always there). */
  predicate CheckoutParams(params: map<string, Param>, p: Plan, priceId: string, account: Account, user: User,
                           successUrl: string, cancelUrl: string)
  {
    && params.Keys == {"line_items", "mode", "success_url", "cancel_url", "allow_promotion_codes",
                       "automatic_tax", "subscription_data",
                       if Present(account.stripeCustomerId) then "customer" else "customer_email"}
    && params["line_items"] == PList([LineItem(priceId)])
    && params["mode"] == PStr("subscription")
    && params["success_url"] == PStr(successUrl) && params["cancel_url"] == PStr(cancelUrl)
    && params["allow_promotion_codes"] == PBool(true)
    && params["automatic_tax"] == PHash(map["enabled" := PBool(true)])
    && (Present(account.stripeCustomerId) ==>
          params["customer"] == PStr(account.stripeCustomerId.value) && "customer_email" !in params)
    && (!Present(account.stripeCustomerId) ==>
          params["customer_email"] == PStr(user.email) && "customer" !in params)
    && params["subscription_data"] == PHash(map["trial_period_days" := PInt(p.trialDays)])
  }

  /** `create_checkout_session`'s `session_params`, built by successive
      insertions. */
  method SessionParams(p: Plan, priceId: string, account: Account, user: User, successUrl: string, cancelUrl: string)
    returns (params: map<string, Param>)
    ensures CheckoutParams(params, p, priceId, account, user, successUrl, cancelUrl)
  {
    params := map["line_items" := PList([LineItem(priceId)]),
                  "mode" := PStr("subscription"),
                  "success_url" := PStr(successUrl),
                  "cancel_url" := PStr(cancelUrl),
                  "allow_promotion_codes" := PBool(true),
                  "automatic_tax" := PHash(map["enabled" := PBool(true)])];
    if Present(account.stripeCustomerId) {
      params := params["customer" := PStr(account.stripeCustomerId.value)];
    } else {
      params := params["customer_email" := PStr(user.email)];
    }
    params := params["subscription_data" := PHash(map["trial_period_days" := PInt(p.trialDays)])];
  }

  /** A customer that already exists is reused and never asked for its
      email; a new one is identified by the user's email. */
  lemma CustomerOrEmail(params: map<string, Param>, p: Plan, priceId: string, account: Account, user: User,
                        successUrl: string, cancelUrl: string)
    requires CheckoutParams(params, p, priceId, account, user, successUrl, cancelUrl)
    ensures ("customer" in params) <==> Present(account.stripeCustomerId)
    ensures ("customer_email" in params) <==> !Present(account.stripeCustomerId)
    ensures |params.Keys| == 8
  {
    var k := if Present(account.stripeCustomerId) then "customer" else "customer_email";
    assert params.Keys == {"line_items", "mode", "success_url", "cancel_url", "allow_promotion_codes",
                           "automatic_tax", "subscription_data", k};
  }

  /** The decision `create` takes before talking to the provider: the plan
      is looked up first (an unknown key raises PlanNotFound), then the
      interval and the selected price are checked. A value Ok(Some(...)) is
      the plan and price to open a session for; Ok(None) carries the
      redirect. */
  function Decide(plans: seq<Plan>, planKey: Key, interval: Option<string>, m: PlanMethods)
    : (r: Result<Result<(Plan, string), Response>, Error>)
    ensures Find(plans, planKey).Err? ==> r == Err(Find(plans, planKey).error)
    ensures Find(plans, planKey).Ok? && !ValidInterval(interval) ==>
              r == Ok(Err(Redirect(PricingPath, Alert("Invalid billing interval"))))
    ensures Find(plans, planKey).Ok? && ValidInterval(interval) ==>
      var price := SelectedPrice(Find(plans, planKey).value, interval.value, m);
      && (Blank(price) ==> r == Ok(Err(Redirect(PricingPath, Alert("This plan is not available for purchase")))))
      && (!Blank(price) ==> r == Ok(Ok((Find(plans, planKey).value, price.value))))
  {
    match Find(plans, planKey)
    case Err(e) => Err(e)
    case Ok(p) =>
      if !ValidInterval(interval) then Ok(Err(Redirect(PricingPath, Alert("Invalid billing interval"))))
      else
        var price := SelectedPrice(p, interval.value, m);
        if Blank(price) then Ok(Err(Redirect(PricingPath, Alert("This plan is not available for purchase"))))
        else Ok(Ok((p, price.value)))
  }

  /** `create` behind `authenticate_user!`: the session is opened only
      when every check passes, with the plan's price for the interval, and
      the browser is sent to its URL (`Session.create` is the parameter
      `sessionUrl`). A nil `current_account` is only dereferenced once the
      session is built, so it raises NoMethodError after the checks. */
  method Create(signedIn: bool, plans: seq<Plan>, planKey: Key, interval: Option<string>, m: PlanMethods,
                account: Option<Account>, user: User,
                successUrl: string, cancelUrl: string, sessionUrl: map<string, Param> -> string)
    returns (r: Result<Response, Error>, session: Option<map<string, Param>>)
    ensures !signedIn ==> r == Ok(Redirect(NewUserSessionPath, NoFlash)) && session.None?
    ensures signedIn && Decide(plans, planKey, interval, m).Err? ==>
              r == Err(Decide(plans, planKey, interval, m).error) && session.None?
    ensures signedIn && Decide(plans, planKey, interval, m).Ok? && Decide(plans, planKey, interval, m).value.Err? ==>
              r == Ok(Decide(plans, planKey, interval, m).value.error) && session.None?
    ensures (signedIn && Decide(plans, planKey, interval, m).Ok? && Decide(plans, planKey, interval, m).value.Ok? &&
             account.None?) ==> r == Err(NoMethodError) && session.None?
    ensures (signedIn && Decide(plans, planKey, interval, m).Ok? && Decide(plans, planKey, interval, m).value.Ok? &&
             account.Some?) ==>
      var (p, price) := Decide(plans, planKey, interval, m).value.value;
      && session.Some?
      && CheckoutParams(session.value, p, price, account.value, user, successUrl, cancelUrl)
      && r == Ok(Redirect(ExternalUrl(sessionUrl(session.value)), NoFlash))
  {
    if !signedIn {
      return Ok(Redirect(NewUserSessionPath, NoFlash)), None;
    }
    var d := Decide(plans, planKey, interval, m);
    if d.Err? {
      return Err(d.error), None;
    }
    if d.value.Err? {
      return Ok(d.value.error), None;
    }
    if account.None? {
      return Err(NoMethodError), None;
    }
    var (p, price) := d.value.value;
    var params := SessionParams(p, price, account.value, user, successUrl, cancelUrl);
    return Ok(Redirect(ExternalUrl(sessionUrl(params)), NoFlash)), Some(params);
  }

  /** An unknown plan raises before the interval is looked at, even an
      invalid one. */
  lemma PlanLookedUpFirst(plans: seq<Plan>, planKey: Key, interval: Option<string>, m: PlanMethods)
    requires forall i :: 0 <= i < |plans| ==> plans[i].key != KeyString(planKey)
    ensures Decide(plans, planKey, interval, m) == Err(PlanNotFound("Plan '" + KeyString(planKey) + "' not found"))
  {
  }
}

=== FILE: stripe_controller.dfy ===
/** app/controllers/stripe_controller.rb: checkout start, checkout
    success, and a third webhook endpoint keyed by customer id. */
module StripeController {
  import opened Wrappers
  import opened Text
  import opened Accounts
  import opened AccountStore
  import opened Web
  import opened StripeObjects

  /** The environment variables the controller reads; nil when unset. */
  datatype Env = Env(webhookSecret: Option<string>, proPriceId: Option<string>, businessPriceId: Option<string>)

  /** `plan_from_price_id`: a `case` whose `when` values are the two
      environment price ids, so an unset variable (nil) matches a nil price
      id, and the Pro id is tried first. */
  function PlanFromPriceId(priceId: Option<string>, env: Env): (r: string)
    ensures r in {"pro", "business", "free"}
    ensures r == "pro" <==> priceId == env.proPriceId
    ensures r == "business" <==> priceId != env.proPriceId && priceId == env.businessPriceId
    ensures r == "free" <==> priceId != env.proPriceId && priceId != env.businessPriceId
  {
    if env.proPriceId == priceId then "pro"
    else if env.businessPriceId == priceId then "business"
    else "free"
  }

  /** What `checkout` does: the answer, and the session parameters when a
      session (and, before it, a customer) is created. */
  datatype CheckoutOutcome = CheckoutOutcome(response: Response, session: Option<map<string, Param>>)

  /** The hash given to `Stripe::Checkout::Session.create`. */
  function CheckoutSessionParams(customerId: string, priceId: string, successUrl: string, cancelUrl: string, accountId: int)
    : (r: map<string, Param>)
    ensures r.Keys == {"customer", "mode", "line_items", "success_url", "cancel_url", "metadata"}
    ensures r["customer"] == PStr(customerId) && r["mode"] == PStr("subscription")
    ensures r["line_items"] == PList([LineItem(priceId)])
    ensures r["success_url"] == PStr(successUrl + "?session_id={CHECKOUT_SESSION_ID}")
    ensures r["cancel_url"] == PStr(cancelUrl)
    ensures r["metadata"] == PHash(map["account_id" := PInt(accountId)])
  {
    map["customer" := PStr(customerId),
        "mode" := PStr("subscription"),
        "line_items" := PList([LineItem(priceId)]),
        "success_url" := PStr(successUrl + "?session_id={CHECKOUT_SESSION_ID}"),
        "cancel_url" := PStr(cancelUrl),
        "metadata" := PHash(map["account_id" := PInt(accountId)])]
  }

  /** `checkout`: a visitor who is not signed in is sent to the sign-in
      page; a blank price id redirects to the plan page with "Invalid
      price" and creates neither customer nor session; a missing current
      account raises NoMethodError on `create_stripe_customer`; otherwise a
      customer is created (a parameter, whose failure propagates) and a
      session for that price opened, the browser sent to its URL. */
  function Checkout(signedIn: bool, priceId: Option<string>, account: Option<Account>,
                    createCustomer: Account -> Result<string, Error>, successUrl: string, cancelUrl: string,
                    sessionUrl: map<string, Param> -> string): (r: Result<CheckoutOutcome, Error>)
    ensures !signedIn ==> r == Ok(CheckoutOutcome(Redirect(NewUserSessionPath, NoFlash), None))
    ensures signedIn && Blank(priceId) ==> r == Ok(CheckoutOutcome(Redirect(PlanPath, Alert("Invalid price")), None))
    ensures signedIn && !Blank(priceId) && account.None? ==> r == Err(NoMethodError)
    ensures (signedIn && !Blank(priceId) && account.Some? &&
             createCustomer(account.value).Err?) ==> r == Err(createCustomer(account.value).error)
    ensures (signedIn && !Blank(priceId) && account.Some? &&
             createCustomer(account.value).Ok?) ==>
      && r.Ok?
      && r.value.session == Some(CheckoutSessionParams(createCustomer(account.value).value, priceId.value,
                                                       successUrl, cancelUrl, account.value.id))
      && r.value.response == Redirect(ExternalUrl(sessionUrl(r.value.session.value)), NoFlash)
    ensures r.Ok? && r.value.session.Some? ==> signedIn && !Blank(priceId) && account.Some?
  {
    if !signedIn then Ok(CheckoutOutcome(Redirect(NewUserSessionPath, NoFlash), None))
    else if Blank(priceId) then Ok(CheckoutOutcome(Redirect(PlanPath, Alert("Invalid price")), None))
    else if account.None? then Err(NoMethodError)
    else match createCustomer(account.value)
      case Err(e) => Err(e)
      case Ok(customerId) =>
        var params := CheckoutSessionParams(customerId, priceId.value, successUrl, cancelUrl, account.value.id);
        Ok(CheckoutOutcome(Redirect(ExternalUrl(sessionUrl(params)), NoFlash), Some(params)))
  }

  /** `cancel`: back to the plan page with a notice, after sign-in. */
  function Cancel(signedIn: bool): (r: Response)
    ensures !signedIn ==> r == Redirect(NewUserSessionPath, NoFlash)
    ensures signedIn ==> r == Redirect(PlanPath, Notice("Checkout was canceled."))
  {
    if !signedIn then Redirect(NewUserSessionPath, NoFlash) else Redirect(PlanPath, Notice("Checkout was canceled."))
  }

  /** The columns `success` and `handle_subscription_updated` share, given
      the first item's price id. */
  function Synced(a: Account, s: Subscription, status: string, priceId: string, env: Env): Account {
    a.(stripeSubscriptionId := Some(s.id), stripePriceId := Some(priceId), subscriptionStatus := Some(status),
       subscriptionStartedAt := Some(s.currentPeriodStart), subscriptionEndsAt := Some(s.currentPeriodEnd),
       plan := PlanFromPriceId(Some(priceId), env))
  }

  /** `success` on the table: the current account takes the retrieved
      subscription, status "active" and the plan of its first price. A
      subscription without a priced item raises NoMethodError before any
      write. */
  function SuccessUpdate(rows: seq<Account>, current: Option<nat>, s: Subscription, env: Env): (r: Result<seq<Account>, Error>)
    requires current.Some? ==> current.value < |rows|
    ensures current.None? || FirstPriceIdStrict(s).None? ==> r == Err(NoMethodError)
    ensures current.Some? && FirstPriceIdStrict(s).Some? ==>
      var i := current.value;
      && r.Ok? && OnlyRowChanged(rows, r.value, i)
      && r.value[i] == Synced(rows[i], s, "active", FirstPriceIdStrict(s).value, env)
      && SubscriptionActive(r.value[i])
    ensures r.Ok? && Valid(rows) ==> Valid(r.value)
  {
    if current.None? then Err(NoMethodError)
    else match FirstPriceIdStrict(s)
      case None => Err(NoMethodError)
      case Some(p) => Ok(Assign(rows, current.value, Synced(rows[current.value], s, "active", p, env)))
  }

  /** `success`: after the sign-in filter, retrieves the session, then its
      subscription (both parameters), updates the current account in place
      and redirects to the plan page. */
  method Success(db: AccountTable, signedIn: bool, current: Option<nat>, sessionId: Option<string>,
                 retrieveSession: Option<string> -> Result<CheckoutSession, Error>,
                 retrieveSubscription: Option<string> -> Result<Subscription, Error>, env: Env)
    returns (r: Result<Response, Error>)
    requires current.Some? ==> current.value < |db.rows|
    modifies db
    ensures !signedIn ==> r == Ok(Redirect(NewUserSessionPath, NoFlash)) && db.rows == old(db.rows)
    ensures signedIn && retrieveSession(sessionId).Err? ==>
              r == Err(retrieveSession(sessionId).error) && db.rows == old(db.rows)
    ensures (signedIn && retrieveSession(sessionId).Ok? &&
             retrieveSubscription(retrieveSession(sessionId).value.subscription).Err?) ==>
              && r == Err(retrieveSubscription(retrieveSession(sessionId).value.subscription).error)
              && db.rows == old(db.rows)
    ensures (signedIn && retrieveSession(sessionId).Ok? &&
             retrieveSubscription(retrieveSession(sessionId).value.subscription).Ok?) ==>
      var u := SuccessUpdate(old(db.rows), current, retrieveSubscription(retrieveSession(sessionId).value.subscription).value, env);
      && (u.Ok? ==> r == Ok(Redirect(PlanPath, Notice("Subscription activated successfully!"))) && db.rows == u.value)
      && (u.Err? ==> r == Err(u.error) && db.rows == old(db.rows))
  {
    if !signedIn {
      return Ok(Redirect(NewUserSessionPath, NoFlash));
    }
    var session := retrieveSession(sessionId);
    if session.Err? {
      return Err(session.error);
    }
    var sub := retrieveSubscription(session.value.subscription);
    if sub.Err? {
      return Err(sub.error);
    }
    var u := SuccessUpdate(db.rows, current, sub.value, env);
    if u.Err? {
      return Err(u.error);
    }
    db.rows := u.value;
    r := Ok(Redirect(PlanPath, Notice("Subscription activated successfully!")));
  }

  /** The status `handle_subscription_updated` writes. */
  function UpdatedStatus(raw: string): (r: string)
    ensures raw == "active" ==> r == "active"
    ensures raw != "active" ==> r == "past_due"
  {
    if raw == "active" then "active" else "past_due"
  }

  /** `handle_subscription_updated`: by customer id; every status but
      "active" (including "trialing") is written as "past_due". */
  function HandleSubscriptionUpdated(rows: seq<Account>, s: Subscription, env: Env): (r: Result<seq<Account>, Error>)
    ensures FindByCustomer(rows, Some(s.customer)).None? ==> r == Ok(rows)
    ensures FindByCustomer(rows, Some(s.customer)).Some? && FirstPriceIdStrict(s).None? ==> r == Err(NoMethodError)
    ensures FindByCustomer(rows, Some(s.customer)).Some? && FirstPriceIdStrict(s).Some? ==>
      var i := FindByCustomer(rows, Some(s.customer)).value;
      && r.Ok? && OnlyRowChanged(rows, r.value, i)
      && r.value[i] == Synced(rows[i], s, UpdatedStatus(s.status), FirstPriceIdStrict(s).value, env)
      && Subscribed(r.value[i])
    ensures r.Ok? && Valid(rows) ==> Valid(r.value)
  {
    match FindByCustomer(rows, Some(s.customer))
    case None => Ok(rows)
    case Some(i) =>
      match FirstPriceIdStrict(s)
      case None => Err(NoMethodError)
      case Some(p) => Ok(Assign(rows, i, Synced(rows[i], s, UpdatedStatus(s.status), p, env)))
  }

  /** A trialing subscription is recorded as past due. */
  lemma TrialingBecomesPastDue(rows: seq<Account>, s: Subscription, env: Env)
    requires s.status == "trialing"
    requires FindByCustomer(rows, Some(s.customer)).Some? && FirstPriceIdStrict(s).Some?
    ensures HandleSubscriptionUpdated(rows, s, env).value[FindByCustomer(rows, Some(s.customer)).value].subscriptionStatus
            == Some("past_due")
  {
  }

  /** `handle_subscription_deleted`: by customer id; status "canceled" and
      plan "free", the subscription id kept. */
  function HandleSubscriptionDeleted(rows: seq<Account>, s: Subscription): (r: seq<Account>)
    ensures FindByCustomer(rows, Some(s.customer)).None? ==> r == rows
    ensures FindByCustomer(rows, Some(s.customer)).Some? ==>
      var i := FindByCustomer(rows, Some(s.customer)).value;
      && OnlyRowChanged(rows, r, i)
      && r[i] == rows[i].(subscriptionStatus := Some("canceled"), plan := "free")
      && r[i].stripeSubscriptionId == rows[i].stripeSubscriptionId
    ensures Valid(rows) ==> Valid(r)
  {
    match FindByCustomer(rows, Some(s.customer))
    case None => rows
    case Some(i) => Assign(rows, i, rows[i].(subscriptionStatus := Some("canceled"), plan := "free"))
  }

  /** `handle_payment_failed`: the customer's account becomes "past_due". */
  function HandlePaymentFailed(rows: seq<Account>, inv: Invoice): (r: seq<Account>)
    ensures FindByCustomer(rows, inv.customer).None? ==> r == rows
    ensures FindByCustomer(rows, inv.customer).Some? ==>
      var i := FindByCustomer(rows, inv.customer).value;
      OnlyRowChanged(rows, r, i) && r[i] == rows[i].(subscriptionStatus := Some("past_due"))
    ensures Valid(rows) ==> Valid(r)
  {
    match FindByCustomer(rows, inv.customer)
    case None => rows
    case Some(i) => Assign(rows, i, rows[i].(subscriptionStatus := Some("past_due")))
  }

  const HandledTags: set<string> := {"customer.subscription.created", "customer.subscription.updated",
    "customer.subscription.deleted", "invoice.payment_failed"}

  /** `handle_event`: created and updated share one handler. */
  function HandleEvent(rows: seq<Account>, e: Event, env: Env): (r: Result<seq<Account>, Error>)
    ensures e.eventType !in HandledTags ==> r == Ok(rows)
    ensures e.eventType in {"customer.subscription.created", "customer.subscription.updated"} && e.data.SubscriptionObject? ==>
              r == HandleSubscriptionUpdated(rows, e.data.subscription, env)
    ensures e.eventType == "customer.subscription.deleted" && e.data.SubscriptionObject? ==>
              r == Ok(HandleSubscriptionDeleted(rows, e.data.subscription))
    ensures e.eventType == "invoice.payment_failed" && e.data.InvoiceObject? ==>
              r == Ok(HandlePaymentFailed(rows, e.data.invoice))
    ensures r.Ok? && Valid(rows) ==> Valid(r.value)
  {
    match (e.eventType, e.data)
    case ("customer.subscription.created", SubscriptionObject(s)) => HandleSubscriptionUpdated(rows, s, env)
    case ("customer.subscription.updated", SubscriptionObject(s)) => HandleSubscriptionUpdated(rows, s, env)
    case ("customer.subscription.deleted", SubscriptionObject(s)) => Ok(HandleSubscriptionDeleted(rows, s))
    case ("invoice.payment_failed", InvoiceObject(inv)) => Ok(HandlePaymentFailed(rows, inv))
    case _ => if e.eventType in HandledTags then Err(NoMethodError) else Ok(rows)
  }

  /** The created and updated tags have the same effect on the same payload. */
  lemma CreatedAndUpdatedShareHandler(rows: seq<Account>, s: Subscription, id: string, env: Env)
    ensures HandleEvent(rows, Event(id, "customer.subscription.created", SubscriptionObject(s)), env)
         == HandleEvent(rows, Event(id, "customer.subscription.updated", SubscriptionObject(s)), env)
  {
  }

  /** `webhook`: the secret is STRIPE_WEBHOOK_SECRET only; no event means
      400 without handling, otherwise 200. */
  method Webhook(db: AccountTable, req: WebhookRequest, verify: Verifier, env: Env) returns (r: Result<Response, Error>)
    modifies db
    ensures verify(req.payload, req.signature, env.webhookSecret).None? ==> r == Ok(Head(400)) && db.rows == old(db.rows)
    ensures verify(req.payload, req.signature, env.webhookSecret).Some? ==>
      var h := HandleEvent(old(db.rows), verify(req.payload, req.signature, env.webhookSecret).value, env);
      && (h.Ok? ==> r == Ok(Head(200)) && db.rows == h.value)
      && (h.Err? ==> r == Err(h.error) && db.rows == old(db.rows))
  {
    var event := verify(req.payload, req.signature, env.webhookSecret);
    if event.None? {
      return Ok(Head(400));
    }
    var h := HandleEvent(db.rows, event.value, env);
    if h.Err? {
      return Err(h.error);
    }
    db.rows := h.value;
    r := Ok(Head(200));
  }
}

=== FILE: stripe_objects.dfy ===
/** The parts of the payment provider's webhook payloads the handlers read.
    `Stripe::Webhook.construct_event` (signature check and JSON parsing) is
    not modelled: a controller receives its outcome, an event or none. */
module StripeObjects {
  import opened Wrappers

  /** A `checkout.session` object. `client_reference_id` carries the local
      account id. */
  datatype CheckoutSession = CheckoutSession(
    customer: Option<string>,
    subscription: Option<string>,
    clientReferenceId: Option<int>)

  /** A `subscription` object; `itemPriceIds` holds `price&.id` of each
      entry of `items.data`, in order. Timestamps are Unix seconds. */
  datatype Subscription = Subscription(
    id: string,
    customer: string,
    status: string,
    currentPeriodStart: int,
    currentPeriodEnd: int,
    created: int,
    cancelAtPeriodEnd: bool,
    itemPriceIds: seq<Option<string>>)

  /** An `invoice` object. */
  datatype Invoice = Invoice(customer: Option<string>, subscription: Option<string>)

  /** `event.data.object` */
  datatype EventObject =
    | SessionObject(session: CheckoutSession)
    | SubscriptionObject(subscription: Subscription)
    | InvoiceObject(invoice: Invoice)

  /** A webhook event; `data` is `event.data.object`. */
  datatype Event = Event(id: string, eventType: string, data: EventObject)

  /** `Stripe::Webhook.construct_event(payload, sig_header, secret)`: the
      event when the body parses and the signature verifies under the
      secret, none when it raises JSON::ParserError or
      Stripe::SignatureVerificationError (the two errors every controller
      rescues). */
  type Verifier = (string, Option<string>, Option<string>) -> Option<Event>

  /** The request a webhook endpoint receives: the raw body and the
      Stripe-Signature header. */
  datatype WebhookRequest = WebhookRequest(payload: string, signature: Option<string>)

  /** `subscription.items.data.first.price.id` without safe navigation:
      no item, or an item without a price, raises NoMethodError (None). */
  function FirstPriceIdStrict(s: Subscription): (r: Option<string>)
    ensures r.Some? <==> |s.itemPriceIds| > 0 && s.itemPriceIds[0].Some?
    ensures r.Some? ==> r.value == s.itemPriceIds[0].value
  {
    if |s.itemPriceIds| > 0 then s.itemPriceIds[0] else None
  }
}

/** The private helpers that app/services/stripe/subscription_created_handler.rb
    and app/services/stripe/subscription_updated_handler.rb define
    identically (`price_id`, `plan_slug`, `map_status`); the catalog search
    in `plan_slug` is also the one `determine_plan_from_price_id` of
    app/controllers/checkouts_controller.rb performs. */
module StripeMapping {
  import opened Wrappers
  import opened Search
  import opened Plans
  import opened StripeObjects

  /** `map_status(stripe_status)` */
  function MapStatus(status: string): (r: string)
    ensures status in {"active", "trialing", "past_due"} ==> r == status
    ensures status in {"canceled", "unpaid"} ==> r == "cancelled"
    ensures status !in {"active", "trialing", "past_due", "canceled", "unpaid"} ==> r == "none"
  {
    match status
    case "active" => "active"
    case "trialing" => "trialing"
    case "past_due" => "past_due"
    case "canceled" => "cancelled"
    case "unpaid" => "cancelled"
    case _ => "none"
  }

  /** The mapped status is one of five values, and never the "canceled"
      spelling that `Account#subscription_canceled?` tests for. */
  lemma MapStatusRange(status: string)
    ensures MapStatus(status) in {"active", "trialing", "past_due", "cancelled", "none"}
    ensures MapStatus(status) != "canceled"
  {
  }

  /** `price_id`: `items.data.first&.price&.id`, nil when there is no item. */
  function PriceId(s: Subscription): (r: Option<string>)
    ensures |s.itemPriceIds| == 0 ==> r.None?
    ensures |s.itemPriceIds| > 0 ==> r == s.itemPriceIds[0]
  {
    if |s.itemPriceIds| == 0 then None else s.itemPriceIds[0]
  }

  /** The block of `Plan.all.find`: the plan lists the price id as its
      monthly or its annual price. */
  predicate OffersPrice(m: PlanMethods, p: Plan, priceId: Option<string>) {
    m.stripeMonthlyPriceId(p) == priceId || p.stripeAnnualPriceId == priceId
  }

  /** `plan_slug`: the id of the first catalog plan offering the price,
      else "free". */
  function PlanSlug(plans: seq<Plan>, priceId: Option<string>, m: PlanMethods): (r: string)
    ensures (forall i :: 0 <= i < |plans| ==> !OffersPrice(m, plans[i], priceId)) ==> r == "free"
    ensures forall i :: 0 <= i < |plans| && OffersPrice(m, plans[i], priceId) &&
                        (forall j :: 0 <= j < i ==> !OffersPrice(m, plans[j], priceId)) ==>
                        r == m.id(plans[i])
  {
    match FirstIndex(plans, (p: Plan) => OffersPrice(m, p, priceId))
    case Some(i) => m.id(plans[i])
    case None => "free"
  }

  /** A subscription without items has a nil price id, which matches the
      first plan missing a monthly or an annual price id. */
  lemma PlanSlugWithoutItems(plans: seq<Plan>, s: Subscription, m: PlanMethods, i: nat)
    requires |s.itemPriceIds| == 0
    requires i < |plans| && (m.stripeMonthlyPriceId(plans[i]).None? || plans[i].stripeAnnualPriceId.None?)
    requires forall j :: 0 <= j < i ==> m.stripeMonthlyPriceId(plans[j]).Some? && plans[j].stripeAnnualPriceId.Some?
    ensures PlanSlug(plans, PriceId(s), m) == m.id(plans[i])
  {
  }
}

=== FILE: stripe_webhooks_controller.dfy ===
/** app/controllers/stripe_webhooks_controller.rb: a webhook endpoint for
    subscription updates and deletions only. */
module StripeWebhooksController {
  import opened Wrappers
  import opened Accounts
  import opened AccountStore
  import opened Web
  import opened StripeObjects

  /** The status an update writes: "canceling" while the subscription is
      set to end with its period, else the provider's raw status. */
  function UpdatedStatus(s: Subscription): (r: string)
    ensures s.cancelAtPeriodEnd ==> r == "canceling"
    ensures !s.cancelAtPeriodEnd ==> r == s.status
  {
    if s.cancelAtPeriodEnd then "canceling" else s.status
  }

  /** `handle_subscription_updated`: by subscription id; only the status
      and `current_period_ends_at` change. */
  function HandleSubscriptionUpdated(rows: seq<Account>, s: Subscription): (r: seq<Account>)
    ensures FindBySubscription(rows, Some(s.id)).None? ==> r == rows
    ensures FindBySubscription(rows, Some(s.id)).Some? ==>
      var i := FindBySubscription(rows, Some(s.id)).value;
      && OnlyRowChanged(rows, r, i)
      && r[i] == rows[i].(subscriptionStatus := Some(UpdatedStatus(s)), currentPeriodEndsAt := Some(s.currentPeriodEnd))
    ensures Valid(rows) ==> Valid(r)
  {
    match FindBySubscription(rows, Some(s.id))
    case None => rows
    case Some(i) =>
      Assign(rows, i, rows[i].(subscriptionStatus := Some(UpdatedStatus(s)), currentPeriodEndsAt := Some(s.currentPeriodEnd)))
  }

  /** A subscription set to cancel at period end reads as "canceling"
      whatever its raw status, so the account is no longer subscribed. */
  lemma CancelAtPeriodEndWins(rows: seq<Account>, s: Subscription)
    requires s.cancelAtPeriodEnd && FindBySubscription(rows, Some(s.id)).Some?
    ensures HandleSubscriptionUpdated(rows, s)[FindBySubscription(rows, Some(s.id)).value].subscriptionStatus == Some("canceling")
    ensures !Subscribed(HandleSubscriptionUpdated(rows, s)[FindBySubscription(rows, Some(s.id)).value])
  {
  }

  /** `handle_subscription_deleted`: status "canceled", plan "free", and
      both the subscription id and `current_period_ends_at` cleared. */
  function HandleSubscriptionDeleted(rows: seq<Account>, s: Subscription): (r: seq<Account>)
    ensures FindBySubscription(rows, Some(s.id)).None? ==> r == rows
    ensures FindBySubscription(rows, Some(s.id)).Some? ==>
      var i := FindBySubscription(rows, Some(s.id)).value;
      && OnlyRowChanged(rows, r, i)
      && r[i] == rows[i].(subscriptionStatus := Some("canceled"), plan := "free",
                          stripeSubscriptionId := None, currentPeriodEndsAt := None)
      && SubscriptionCanceled(r[i])
    ensures Valid(rows) ==> Valid(r)
  {
    match FindBySubscription(rows, Some(s.id))
    case None => rows
    case Some(i) =>
      Assign(rows, i, rows[i].(subscriptionStatus := Some("canceled"), plan := "free",
                               stripeSubscriptionId := None, currentPeriodEndsAt := None))
  }

  /** When a single account held the subscription, a second identical
      delete finds nothing and changes nothing. */
  lemma {:induction false} DeleteRedeliveryIsNoOp(rows: seq<Account>, s: Subscription)
    requires forall j, k :: 0 <= j < k < |rows| && rows[j].stripeSubscriptionId == Some(s.id) ==>
               rows[k].stripeSubscriptionId != Some(s.id)
    ensures HandleSubscriptionDeleted(HandleSubscriptionDeleted(rows, s), s) == HandleSubscriptionDeleted(rows, s)
  {
    var once := HandleSubscriptionDeleted(rows, s);
    match FindBySubscription(rows, Some(s.id))
    case None =>
    case Some(i) =>
      forall j | 0 <= j < |once| && j != i
        ensures once[j].stripeSubscriptionId != Some(s.id)
      {
        assert once[j] == rows[j];
        assert rows[i].stripeSubscriptionId == Some(s.id);
      }
      assert FindBySubscription(once, Some(s.id)).None?;
  }

  /** `handle_event`: only the two subscription tags are acted on. */
  function HandleEvent(rows: seq<Account>, e: Event): (r: Result<seq<Account>, Error>)
    ensures e.eventType !in {"customer.subscription.updated", "customer.subscription.deleted"} ==> r == Ok(rows)
    ensures e.eventType == "customer.subscription.updated" && e.data.SubscriptionObject? ==>
              r == Ok(HandleSubscriptionUpdated(rows, e.data.subscription))
    ensures e.eventType == "customer.subscription.deleted" && e.data.SubscriptionObject? ==>
              r == Ok(HandleSubscriptionDeleted(rows, e.data.subscription))
    ensures e.eventType in {"customer.subscription.updated", "customer.subscription.deleted"} && !e.data.SubscriptionObject? ==>
              r == Err(NoMethodError)
    ensures r.Ok? && Valid(rows) ==> Valid(r.value)
  {
    match (e.eventType, e.data)
    case ("customer.subscription.updated", SubscriptionObject(s)) => Ok(HandleSubscriptionUpdated(rows, s))
    case ("customer.subscription.deleted", SubscriptionObject(s)) => Ok(HandleSubscriptionDeleted(rows, s))
    case _ =>
      if e.eventType in {"customer.subscription.updated", "customer.subscription.deleted"} then Err(NoMethodError)
      else Ok(rows)
  }

  /** `create`: the secret is the credentials value; a parse or signature
      failure answers 400 before any handling, otherwise 200. */
  method Create(db: AccountTable, req: WebhookRequest, verify: Verifier, credentials: Option<string>)
    returns (r: Result<Response, Error>)
    modifies db
    ensures verify(req.payload, req.signature, credentials).None? ==> r == Ok(Head(400)) && db.rows == old(db.rows)
    ensures verify(req.payload, req.signature, credentials).Some? ==>
      var h := HandleEvent(old(db.rows), verify(req.payload, req.signature, credentials).value);
      && (h.Ok? ==> r == Ok(Head(200)) && db.rows == h.value)
      && (h.Err? ==> r == Err(h.error) && db.rows == old(db.rows))
  {
    var event := verify(req.payload, req.signature, credentials);
    if event.None? {
      return Ok(Head(400));
    }
    var h := HandleEvent(db.rows, event.value);
    if h.Err? {
      return Err(h.error);
    }
    db.rows := h.value;
    r := Ok(Head(200));
  }
}

=== FILE: subscriber.dfy ===
/** app/models/subscriber.rb: newsletter subscribers, stored lower-cased
    and unique regardless of case. */
module Subscribers {
  import opened Wrappers
  import opened Text
  import opened Web

  /** An unsaved subscriber; `downcase_email` rewrites its field in place. */
  class Subscriber {
    var email: Option<string>

    constructor (email: Option<string>)
      ensures this.email == email
    {
      this.email := email;
    }

    /** `downcase_email` (only reached once presence has been validated). */
    method DowncaseEmail()
      requires email.Some?
      modifies this
      ensures email == Some(Downcase(old(email).value))
    {
      email := Some(Downcase(email.value));
    }
  }

  /** A stored email equals the candidate once both are lower-cased. */
  predicate AlreadySubscribed(rows: seq<string>, email: string) {
    exists j :: 0 <= j < |rows| && Downcase(rows[j]) == Downcase(email)
  }

  /** The full error messages in declaration order: presence, the
      case-insensitive uniqueness, format (nil checked as ""). */
  function Errors(rows: seq<string>, email: Option<string>, isEmail: string -> bool): (r: seq<string>)
    ensures r == [] <==> Present(email) && !AlreadySubscribed(rows, email.value) && isEmail(email.value)
    ensures ("Email can't be blank" in r) <==> Blank(email)
    ensures email.Some? && AlreadySubscribed(rows, email.value) ==> "Email is already subscribed" in r
    ensures ("Email is invalid" in r) <==> !isEmail(email.GetOr(""))
  {
    (if Blank(email) then ["Email can't be blank"] else [])
    + (if email.Some? && AlreadySubscribed(rows, email.value) then ["Email is already subscribed"] else [])
    + (if !isEmail(email.GetOr("")) then ["Email is invalid"] else [])
  }

  /** Every stored email is lower-case, and no two are equal. */
  predicate Valid(rows: seq<string>) {
    && (forall j :: 0 <= j < |rows| ==> Downcase(rows[j]) == rows[j])
    && (forall i, j :: 0 <= i < j < |rows| ==> rows[i] != rows[j])
  }

  /** The subscribers table. */
  class SubscriberTable {
    var rows: seq<string>

    constructor ()
      ensures rows == []
    {
      rows := [];
    }

    /** `save`: validations first, then the `before_save` callback, then
        the insert of the lower-cased email. */
    method Save(s: Subscriber, isEmail: string -> bool) returns (r: Result<string, seq<string>>)
      modifies this, s
      ensures Errors(old(rows), old(s.email), isEmail) != [] ==>
                r == Err(Errors(old(rows), old(s.email), isEmail)) && rows == old(rows) && s.email == old(s.email)
      ensures Errors(old(rows), old(s.email), isEmail) == [] ==>
                && r == Ok(Downcase(old(s.email).value))
                && s.email == Some(r.value)
                && rows == old(rows) + [r.value]
      ensures Valid(old(rows)) ==> Valid(rows)
    {
      var errors := Errors(rows, s.email, isEmail);
      if errors != [] {
        return Err(errors);
      }
      s.DowncaseEmail();
      var stored := s.email.value;
      DowncaseIdempotent(old(s.email).value);
      assert forall j :: 0 <= j < |rows| ==> rows[j] != stored by {
        forall j | 0 <= j < |rows|
          ensures rows[j] != stored
        {
          DowncaseIdempotent(old(s.email).value);
        }
      }
      rows := rows + [stored];
      r := Ok(stored);
    }
  }

  /** An email that differs from a stored one only in letter case is
      refused as already subscribed. */
  lemma CaseVariantRefused(rows: seq<string>, email: string, j: nat, isEmail: string -> bool)
    requires j < |rows| && Downcase(rows[j]) == Downcase(email)
    ensures "Email is already subscribed" in Errors(rows, Some(email), isEmail)
  {
  }
}

=== FILE: subscription_created_handler.dfy ===
/** app/services/stripe/subscription_created_handler.rb: copies a new
    subscription onto the account that owns its customer id. */
module SubscriptionCreatedHandler {
  import opened Wrappers
  import opened Accounts
  import opened AccountStore
  import opened Plans
  import opened StripeObjects
  import opened StripeMapping

  /** `find_account`: by `stripe_customer_id`. */
  function FindAccount(rows: seq<Account>, s: Subscription): (r: Option<nat>)
    ensures r.Some? ==> r.value < |rows| && rows[r.value].stripeCustomerId == Some(s.customer)
    ensures r.None? <==> forall j :: 0 <= j < |rows| ==> rows[j].stripeCustomerId != Some(s.customer)
  {
    FindByCustomer(rows, Some(s.customer))
  }

  /** The six columns of the `update!`. */
  function Synced(a: Account, s: Subscription, plans: seq<Plan>, m: PlanMethods): Account {
    a.(stripeSubscriptionId := Some(s.id),
       subscriptionStatus := Some(MapStatus(s.status)),
       subscriptionStartedAt := Some(s.currentPeriodStart),
       subscriptionEndsAt := Some(s.currentPeriodEnd),
       stripePriceId := PriceId(s),
       plan := PlanSlug(plans, PriceId(s), m))
  }

  /** `call` on the table. The customer id is not among the written
      columns, so the unique index never fires and the call cannot fail. */
  function Reconcile(rows: seq<Account>, s: Subscription, plans: seq<Plan>, m: PlanMethods): (r: Effect)
    ensures |r.rows| == |rows|
    ensures FindAccount(rows, s).None? ==> r == Effect(rows, None)
    ensures FindAccount(rows, s).Some? ==>
      var i := FindAccount(rows, s).value;
      var b := r.rows[i];
      && OnlyRowChanged(rows, r.rows, i)
      && b.stripeSubscriptionId == Some(s.id)
      && b.subscriptionStatus == Some(MapStatus(s.status))
      && b.subscriptionStartedAt == Some(s.currentPeriodStart)
      && b.subscriptionEndsAt == Some(s.currentPeriodEnd)
      && b.stripePriceId == PriceId(s)
      && b.plan == PlanSlug(plans, PriceId(s), m)
      && b.id == rows[i].id && b.name == rows[i].name
      && b.stripeCustomerId == rows[i].stripeCustomerId
      && b.currentPeriodEndsAt == rows[i].currentPeriodEndsAt
      && r.returned == Some(b)
    ensures forall j :: 0 <= j < |rows| ==> r.rows[j].stripeCustomerId == rows[j].stripeCustomerId
    ensures Valid(rows) ==> Valid(r.rows)
  {
    match FindAccount(rows, s)
    case None => Effect(rows, None)
    case Some(i) =>
      var b := Synced(rows[i], s, plans, m);
      Effect(Assign(rows, i, b), Some(b))
  }

  /** A second delivery of the same event leaves the table as the first did. */
  lemma {:induction false} ReconcileIdempotent(rows: seq<Account>, s: Subscription, plans: seq<Plan>, m: PlanMethods)
    ensures Reconcile(Reconcile(rows, s, plans, m).rows, s, plans, m).rows == Reconcile(rows, s, plans, m).rows
  {
    match FindAccount(rows, s)
    case None =>
    case Some(i) =>
      var b := Synced(rows[i], s, plans, m);
      FindByCustomerAfterWrite(rows, i, b, Some(s.customer));
      assert FindAccount(rows[i := b], s) == Some(i);
      assert Synced(b, s, plans, m) == b;
      assert rows[i := b][i := b] == rows[i := b];
  }

  /** `call` performed on the table in place; returns the updated account
      or nil. */
  method Call(db: AccountTable, s: Subscription, plans: seq<Plan>, m: PlanMethods) returns (r: Option<Account>)
    modifies db
    ensures db.rows == Reconcile(old(db.rows), s, plans, m).rows
    ensures r == Reconcile(old(db.rows), s, plans, m).returned
  {
    var found := FindAccount(db.rows, s);
    if found.None? {
      return None;
    }
    var updated := Synced(db.rows[found.value], s, plans, m);
    var w := db.Update(found.value, updated);
    r := Some(updated);
  }
}

=== FILE: subscription_deleted_handler.dfy ===
/** app/services/stripe/subscription_deleted_handler.rb: marks the account
    holding a deleted subscription as cancelled. */
module SubscriptionDeletedHandler {
  import opened Wrappers
  import opened Accounts
  import opened AccountStore
  import opened StripeObjects

  /** `find_account`: by `stripe_subscription_id`. */
  function FindAccount(rows: seq<Account>, s: Subscription): (r: Option<nat>)
    ensures r.Some? ==> r.value < |rows| && rows[r.value].stripeSubscriptionId == Some(s.id)
    ensures r.None? <==> forall j :: 0 <= j < |rows| ==> rows[j].stripeSubscriptionId != Some(s.id)
  {
    FindBySubscription(rows, Some(s.id))
  }

  /** The two columns of the `update!`. */
  function Cancelled(a: Account, s: Subscription): Account {
    a.(subscriptionStatus := Some("cancelled"), subscriptionEndsAt := Some(s.currentPeriodEnd))
  }

  /** `call` on the table: status "cancelled" and the end date are written;
      plan and both ids are left as they were. */
  function Reconcile(rows: seq<Account>, s: Subscription): (r: Effect)
    ensures FindAccount(rows, s).None? ==> r == Effect(rows, None)
    ensures FindAccount(rows, s).Some? ==>
      var i := FindAccount(rows, s).value;
      && OnlyRowChanged(rows, r.rows, i)
      && r.rows[i] == rows[i].(subscriptionStatus := Some("cancelled"), subscriptionEndsAt := Some(s.currentPeriodEnd))
      && r.rows[i].plan == rows[i].plan
      && r.rows[i].stripeSubscriptionId == rows[i].stripeSubscriptionId
      && r.rows[i].stripeCustomerId == rows[i].stripeCustomerId
      && r.returned == Some(r.rows[i])
    ensures Valid(rows) ==> Valid(r.rows)
  {
    match FindAccount(rows, s)
    case None => Effect(rows, None)
    case Some(i) =>
      var b := Cancelled(rows[i], s);
      Effect(Assign(rows, i, b), Some(b))
  }

  /** The status written is the British "cancelled", which neither
      `subscription_canceled?` nor `subscribed?` recognises. */
  lemma CancelledIsNotCanceled(rows: seq<Account>, s: Subscription)
    requires FindAccount(rows, s).Some?
    ensures !SubscriptionCanceled(Reconcile(rows, s).rows[FindAccount(rows, s).value])
    ensures !Subscribed(Reconcile(rows, s).rows[FindAccount(rows, s).value])
  {
  }

  /** Re-delivery leaves the table as the first delivery did. */
  lemma {:induction false} ReconcileIdempotent(rows: seq<Account>, s: Subscription)
    ensures Reconcile(Reconcile(rows, s).rows, s).rows == Reconcile(rows, s).rows
  {
    match FindAccount(rows, s)
    case None =>
    case Some(i) =>
      var b := Cancelled(rows[i], s);
      FindBySubscriptionAfterWrite(rows, i, b, Some(s.id));
      assert FindAccount(rows[i := b], s) == Some(i);
      assert Cancelled(b, s) == b;
      assert rows[i := b][i := b] == rows[i := b];
  }

  /** `call` performed on the table in place. */
  method Call(db: AccountTable, s: Subscription) returns (r: Option<Account>)
    modifies db
    ensures db.rows == Reconcile(old(db.rows), s).rows
    ensures r == Reconcile(old(db.rows), s).returned
  {
    var found := FindAccount(db.rows, s);
    if found.None? {
      return None;
    }
    var updated := Cancelled(db.rows[found.value], s);
    var w := db.Update(found.value, updated);
    r := Some(updated);
  }
}

=== FILE: subscription_updated_handler.dfy ===
/** app/services/stripe/subscription_updated_handler.rb: refreshes status,
    period end, price and plan of the account holding the subscription. */
module SubscriptionUpdatedHandler {
  import opened Wrappers
  import opened Accounts
  import opened AccountStore
  import opened Plans
  import opened StripeObjects
  import opened StripeMapping

  /** `find_account`: by `stripe_subscription_id`. */
  function FindAccount(rows: seq<Account>, s: Subscription): (r: Option<nat>)
    ensures r.Some? ==> r.value < |rows| && rows[r.value].stripeSubscriptionId == Some(s.id)
    ensures r.None? <==> forall j :: 0 <= j < |rows| ==> rows[j].stripeSubscriptionId != Some(s.id)
  {
    FindBySubscription(rows, Some(s.id))
  }

  /** The four columns of the `update!`. */
  function Refreshed(a: Account, s: Subscription, plans: seq<Plan>, m: PlanMethods): Account {
    a.(subscriptionStatus := Some(MapStatus(s.status)),
       subscriptionEndsAt := Some(s.currentPeriodEnd),
       stripePriceId := PriceId(s),
       plan := PlanSlug(plans, PriceId(s), m))
  }

  /** `call` on the table: only status, end date, price id and plan of the
      matching row change; ids and the start date stay. */
  function Reconcile(rows: seq<Account>, s: Subscription, plans: seq<Plan>, m: PlanMethods): (r: Effect)
    ensures FindAccount(rows, s).None? ==> r == Effect(rows, None)
    ensures FindAccount(rows, s).Some? ==>
      var i := FindAccount(rows, s).value;
      && OnlyRowChanged(rows, r.rows, i)
      && r.rows[i] == rows[i].(subscriptionStatus := Some(MapStatus(s.status)),
                               subscriptionEndsAt := Some(s.currentPeriodEnd),
                               stripePriceId := PriceId(s),
                               plan := PlanSlug(plans, PriceId(s), m))
      && r.rows[i].stripeSubscriptionId == rows[i].stripeSubscriptionId
      && r.rows[i].stripeCustomerId == rows[i].stripeCustomerId
      && r.rows[i].subscriptionStartedAt == rows[i].subscriptionStartedAt
      && r.returned == Some(r.rows[i])
    ensures Valid(rows) ==> Valid(r.rows)
  {
    match FindAccount(rows, s)
    case None => Effect(rows, None)
    case Some(i) =>
      var b := Refreshed(rows[i], s, plans, m);
      Effect(Assign(rows, i, b), Some(b))
  }

  /** A price id no catalog plan offers resets the plan to "free", whatever
      the account's plan was. */
  lemma UnknownPriceResetsToFree(rows: seq<Account>, s: Subscription, plans: seq<Plan>, m: PlanMethods)
    requires FindAccount(rows, s).Some?
    requires forall k :: 0 <= k < |plans| ==> !OffersPrice(m, plans[k], PriceId(s))
    ensures Reconcile(rows, s, plans, m).rows[FindAccount(rows, s).value].plan == "free"
  {
  }

  /** A raw "past_due" stays "past_due", so the account stays subscribed. */
  lemma PastDueStays(rows: seq<Account>, s: Subscription, plans: seq<Plan>, m: PlanMethods)
    requires FindAccount(rows, s).Some? && s.status == "past_due"
    ensures Reconcile(rows, s, plans, m).rows[FindAccount(rows, s).value].subscriptionStatus == Some("past_due")
    ensures Subscribed(Reconcile(rows, s, plans, m).rows[FindAccount(rows, s).value])
  {
  }

  /** A second delivery of the same event leaves the table as the first did. */
  lemma {:induction false} ReconcileIdempotent(rows: seq<Account>, s: Subscription, plans: seq<Plan>, m: PlanMethods)
    ensures Reconcile(Reconcile(rows, s, plans, m).rows, s, plans, m).rows == Reconcile(rows, s, plans, m).rows
  {
    match FindAccount(rows, s)
    case None =>
    case Some(i) =>
      var b := Refreshed(rows[i], s, plans, m);
      FindBySubscriptionAfterWrite(rows, i, b, Some(s.id));
      assert FindAccount(rows[i := b], s) == Some(i);
      assert Refreshed(b, s, plans, m) == b;
      assert rows[i := b][i := b] == rows[i := b];
  }

  /** `call` performed on the table in place. */
  method Call(db: AccountTable, s: Subscription, plans: seq<Plan>, m: PlanMethods) returns (r: Option<Account>)
    modifies db
    ensures db.rows == Reconcile(old(db.rows), s, plans, m).rows
    ensures r == Reconcile(old(db.rows), s, plans, m).returned
  {
    var found := FindAccount(db.rows, s);
    if found.None? {
      return None;
    }
    var updated := Refreshed(db.rows[found.value], s, plans, m);
    var w := db.Update(found.value, updated);
    r := Some(updated);
  }
}

=== FILE: task.dfy ===
/** app/models/task.rb: a project task with a status from a fixed list and
    `restart!`, which puts it back to "pending". */
module Tasks {
  import opened Wrappers
  import opened Text
  import opened Web

  /** `STATUSES` */
  const Statuses: seq<string> := ["pending", "in_progress", "completed"]

  /** The full error messages in declaration order: the required
      `belongs_to :project`, name presence, then status inclusion. */
  function Errors(projectId: Option<int>, name: Option<string>, status: Option<string>): (r: seq<string>)
    ensures r == [] <==> projectId.Some? && Present(name) && status.Some? && status.value in Statuses
    ensures ("Project must exist" in r) <==> projectId.None?
    ensures ("Name can't be blank" in r) <==> Blank(name)
    ensures ("Status is not included in the list" in r) <==> !(status.Some? && status.value in Statuses)
  {
    (if projectId.None? then ["Project must exist"] else [])
    + (if Blank(name) then ["Name can't be blank"] else [])
    + (if status.Some? && status.value in Statuses then [] else ["Status is not included in the list"])
  }

  class Task {
    var projectId: Option<int>
    var name: Option<string>
    var status: Option<string>

    constructor (projectId: Option<int>, name: Option<string>, status: Option<string>)
      ensures this.projectId == projectId && this.name == name && this.status == status
    {
      this.projectId := projectId;
      this.name := name;
      this.status := status;
    }

    predicate Valid()
      reads this
    {
      Errors(projectId, name, status) == []
    }

    /** `restart!`: `update!(status: "pending")` assigns the status and
        saves, running the validations; a failing save raises
        RecordInvalid, though the attribute stays assigned in memory. */
    method Restart() returns (r: Result<(), Error>)
      modifies this
      ensures status == Some("pending") && name == old(name) && projectId == old(projectId)
      ensures r.Ok? <==> projectId.Some? && Present(name)
      ensures r.Ok? ==> r == Ok(()) && Valid()
      ensures r.Err? ==> r.error == RecordInvalid(Errors(projectId, name, Some("pending")))
      ensures r.Err? ==> "Status is not included in the list" !in r.error.messages
      ensures r.Err? ==> (("Name can't be blank" in r.error.messages) <==> Blank(name))
      ensures r.Err? ==> (("Project must exist" in r.error.messages) <==> projectId.None?)
    {
      status := Some("pending");
      assert "pending" in Statuses by { assert Statuses[0] == "pending"; }
      var errors := Errors(projectId, name, status);
      if errors != [] {
        return Err(RecordInvalid(errors));
      }
      r := Ok(());
    }
  }

  /** Restarting twice gives the same state and result as restarting once,
      whatever the status was before. */
  method RestartIdempotent(t: Task) returns (first: Result<(), Error>, second: Result<(), Error>)
    modifies t
    ensures first == second
    ensures t.status == Some("pending") && t.name == old(t.name) && t.projectId == old(t.projectId)
  {
    first := t.Restart();
    second := t.Restart();
  }
}

=== FILE: text.dfy ===
/** String helpers the Ruby code gets from its standard library:
    `blank?`/`present?`, `downcase`, `Integer#to_s`, `Array#to_sentence`. */
module Text {
  import opened Wrappers

  /** ASCII whitespace, the characters `blank?` ignores in this model. */
  predicate IsSpace(c: char) {
    c == ' ' || c == '\t' || c == '\n' || c == '\r' || c as int == 11 || c as int == 12
  }

  /** `String#blank?`: empty or whitespace only. */
  predicate BlankString(s: string)
    ensures |s| > 0 && !IsSpace(s[0]) ==> !BlankString(s)
  {
    forall k :: 0 <= k < |s| ==> IsSpace(s[k])
  }

  /** `Object#blank?` on a nullable string: nil is blank too. */
  predicate Blank(s: Option<string>) {
    s.None? || BlankString(s.value)
  }

  predicate Present(s: Option<string>) {
    !Blank(s)
  }

  lemma PresentHasVisibleChar(s: Option<string>)
    requires Present(s)
    ensures s.Some? && exists k :: 0 <= k < |s.value| && !IsSpace(s.value[k])
  {
  }

  function LowerChar(c: char): (d: char)
    ensures 'A' <= c <= 'Z' ==> d as int == c as int + 32
    ensures !('A' <= c <= 'Z') ==> d == c
    ensures !('A' <= d <= 'Z')
  {
    if 'A' <= c <= 'Z' then (c as int + 32) as char else c
  }

  /** `String#downcase`, restricted to ASCII letters. */
  function Downcase(s: string): (r: string)
    ensures |r| == |s|
    ensures forall k :: 0 <= k < |s| ==> r[k] == LowerChar(s[k])
  {
    seq(|s|, k requires 0 <= k < |s| => LowerChar(s[k]))
  }

  lemma DowncaseIdempotent(s: string)
    ensures Downcase(Downcase(s)) == Downcase(s)
  {
  }

  function DigitChar(d: nat): (c: char)
    requires d < 10
    ensures '0' <= c <= '9'
  {
    ('0' as int + d) as char
  }

  function DigitValue(c: char): (d: nat)
    requires '0' <= c <= '9'
    ensures d < 10 && DigitChar(d) == c
  {
    c as int - '0' as int
  }

  predicate AllDigits(s: string) {
    forall k :: 0 <= k < |s| ==> '0' <= s[k] <= '9'
  }

  /** `Integer#to_s` for a non-negative integer: shortest decimal form. */
  function NatToDecimal(n: nat): (r: string)
    ensures |r| > 0 && AllDigits(r)
    ensures |r| > 1 ==> r[0] != '0'
    decreases n
  {
    if n < 10 then [DigitChar(n)] else NatToDecimal(n / 10) + [DigitChar(n % 10)]
  }

  /** The value a string of decimal digits denotes. */
  function DecimalValue(s: string): (v: nat)
    requires AllDigits(s)
    decreases |s|
  {
    if s == [] then 0 else DecimalValue(s[..|s| - 1]) * 10 + DigitValue(s[|s| - 1])
  }

  /** Reading back what `NatToDecimal` wrote gives the number again. */
  lemma {:induction false} DecimalRoundTrip(n: nat)
    ensures DecimalValue(NatToDecimal(n)) == n
    decreases n
  {
    var r := NatToDecimal(n);
    if n >= 10 {
      var w := NatToDecimal(n / 10);
      assert r == w + [DigitChar(n % 10)];
      assert r[..|r| - 1] == w;
      DecimalRoundTrip(n / 10);
    }
  }

  /** Two distinct numbers never print the same. */
  lemma DecimalInjective(m: nat, n: nat)
    requires NatToDecimal(m) == NatToDecimal(n)
    ensures m == n
  {
    DecimalRoundTrip(m);
    DecimalRoundTrip(n);
  }

  /** `Integer#to_s` for any integer. */
  function IntToDecimal(i: int): (r: string)
    ensures i >= 0 ==> r == NatToDecimal(i)
    ensures i < 0 ==> r == "-" + NatToDecimal(-i)
  {
    if i < 0 then "-" + NatToDecimal(-i) else NatToDecimal(i)
  }

  /** `Array#to_sentence` with the default connectors: "", the one word,
      "a and b", and from three words on the comma-separated list of all
      but the last, then ", and " and the last word. */
  function ToSentence(words: seq<string>): (r: string)
    ensures words == [] ==> r == ""
    ensures |words| == 1 ==> r == words[0]
    ensures |words| == 2 ==> r == words[0] + " and " + words[1]
    ensures |words| >= 3 ==> r == JoinComma(words[..|words| - 1]) + ", and " + words[|words| - 1]
    ensures |words| >= 3 ==> |r| == TotalLength(words) + 2 * (|words| - 1) + 4
    decreases |words|
  {
    if |words| == 0 then ""
    else if |words| == 1 then words[0]
    else if |words| == 2 then words[0] + " and " + words[1]
    else
      var init := words[..|words| - 1];
      assert words == init + [words[|words| - 1]];
      TotalLengthSnoc(init, words[|words| - 1]);
      JoinComma(init) + ", and " + words[|words| - 1]
  }

  /** The number of characters in all the words together. */
  function TotalLength(words: seq<string>): nat
  {
    if words == [] then 0 else |words[0]| + TotalLength(words[1..])
  }

  lemma {:induction false} TotalLengthSnoc(words: seq<string>, w: string)
    ensures TotalLength(words + [w]) == TotalLength(words) + |w|
    decreases |words|
  {
    if words != [] {
      assert (words + [w])[1..] == words[1..] + [w];
      TotalLengthSnoc(words[1..], w);
    }
  }

  /** The words separated by ", ": a non-empty list starts with its first
      word, and the result holds every character of every word plus two
      for each separator. */
  function JoinComma(words: seq<string>): (r: string)
    ensures |words| >= 1 ==> |r| == TotalLength(words) + 2 * (|words| - 1)
    ensures |words| >= 1 ==> |words[0]| <= |r| && r[..|words[0]|] == words[0]
    decreases |words|
  {
    if |words| == 0 then ""
    else if |words| == 1 then
      assert TotalLength(words) == |words[0]| + TotalLength(words[1..]);
      words[0]
    else
      var init := words[..|words| - 1];
      assert words == init + [words[|words| - 1]];
      TotalLengthSnoc(init, words[|words| - 1]);
      assert init[0] == words[0];
      JoinComma(init) + ", " + words[|words| - 1]
  }

  /** Read from the front: the first word, ", ", then the rest joined. */
  lemma {:induction false} JoinCommaCons(w: string, rest: seq<string>)
    requires |rest| >= 1
    ensures JoinComma([w] + rest) == w + ", " + JoinComma(rest)
    decreases |rest|
  {
    var words := [w] + rest;
    assert words[..|words| - 1] == [w] + rest[..|rest| - 1];
    if |rest| > 1 {
      JoinCommaCons(w, rest[..|rest| - 1]);
    } else {
      assert words[..|words| - 1] == [w];
    }
  }
}

=== FILE: web.dfy ===
/** The request/response vocabulary shared by the controllers: route
    helpers, flash messages, HTTP answers, raised exceptions, the signed-in
    user, the session hash and the parameter hashes sent to the payment
    provider. */
module Web {
  import opened Wrappers

  /** The named routes the controllers redirect to. */
  datatype Path =
    | RootPath
    | PricingPath
    | PlanPath
    | TeamPath
    | NewUserRegistrationPath
    | NewUserSessionPath
    | NewPlanChangePath(plan: string)
    | ExternalUrl(url: string)

  datatype Flash = NoFlash | Alert(message: string) | Notice(message: string)

  datatype Response =
    | Head(status: int)
    | Redirect(location: Path, flash: Flash)
    | Render(template: string)

  /** Exceptions that escape an action (Rails answers them with 500). */
  datatype Error =
    | RecordNotUnique
    | RecordInvalid(messages: seq<string>)
    | NoMethodError
    | ArgumentError(message: string)
    | PlanNotFound(message: string)
    | RuntimeError(message: string)

  datatype User = User(id: int, email: string)

  /** `session` restricted to the one key the controllers use. */
  type Session = map<string, string>
  const InvitationTokenKey := "invitation_token"

  /** A value in a parameter hash handed to the payment provider's API. */
  datatype Param =
    | PNil
    | PStr(s: string)
    | PInt(i: int)
    | PBool(b: bool)
    | PList(items: seq<Param>)
    | PHash(fields: map<string, Param>)

  /** `{ price: price_id, quantity: 1 }` */
  function LineItem(priceId: string): Param {
    PHash(map["price" := PStr(priceId), "quantity" := PInt(1)])
  }
}

=== FILE: webhook_handler.dfy ===
/** app/services/stripe/webhook_handler.rb: the frozen table from event
    type to handler class, and the dispatch that runs the handler. */
module WebhookHandler {
  import opened Wrappers
  import opened Accounts
  import opened AccountStore
  import opened Plans
  import opened Web
  import opened StripeObjects
  import CheckoutCompletedHandler
  import SubscriptionCreatedHandler
  import SubscriptionUpdatedHandler
  import SubscriptionDeletedHandler
  import InvoicePaidHandler
  import InvoicePaymentFailedHandler

  /** The six handler classes under app/services/stripe/. */
  datatype HandlerClass =
    | CheckoutCompleted
    | SubscriptionCreated
    | SubscriptionUpdated
    | SubscriptionDeleted
    | InvoicePaid
    | InvoicePaymentFailed

  /** What the handlers read besides the event: the plan catalog, the plan
      methods the catalog lacks, and the current time. */
  datatype Context = Context(plans: seq<Plan>, methods: PlanMethods, now: int)

  /** `HANDLERS` */
  const Handlers: map<string, HandlerClass> := map[
    "checkout.session.completed" := CheckoutCompleted,
    "customer.subscription.created" := SubscriptionCreated,
    "customer.subscription.updated" := SubscriptionUpdated,
    "customer.subscription.deleted" := SubscriptionDeleted,
    "invoice.paid" := InvoicePaid,
    "invoice.payment_failed" := InvoicePaymentFailed]

  /** Exactly six tags are mapped, no two to the same class, and every
      class has a tag. */
  lemma HandlersTable()
    ensures |Handlers.Keys| == 6
    ensures forall t1, t2 :: t1 in Handlers && t2 in Handlers && t1 != t2 ==> Handlers[t1] != Handlers[t2]
    ensures forall c: HandlerClass :: c in Handlers.Values
  {
    var ks := Handlers.Keys;
    assert ks == {"checkout.session.completed", "customer.subscription.created",
                  "customer.subscription.updated", "customer.subscription.deleted",
                  "invoice.paid", "invoice.payment_failed"};
    forall c: HandlerClass ensures c in Handlers.Values {
      match c
      case CheckoutCompleted => assert Handlers["checkout.session.completed"] == c;
      case SubscriptionCreated => assert Handlers["customer.subscription.created"] == c;
      case SubscriptionUpdated => assert Handlers["customer.subscription.updated"] == c;
      case SubscriptionDeleted => assert Handlers["customer.subscription.deleted"] == c;
      case InvoicePaid => assert Handlers["invoice.paid"] == c;
      case InvoicePaymentFailed => assert Handlers["invoice.payment_failed"] == c;
    }
  }

  /** Created and updated go to different handlers; the invoice tag routed
      is "invoice.paid", not "invoice.payment_succeeded". */
  lemma RoutingFacts()
    ensures Handlers["customer.subscription.created"] != Handlers["customer.subscription.updated"]
    ensures "invoice.paid" in Handlers && Handlers["invoice.paid"] == InvoicePaid
    ensures "invoice.payment_succeeded" !in Handlers
  {
  }

  /** `handler_class.new(event).call`. A payload of another kind than the
      class reads lacks the attributes it calls, so Ruby raises
      NoMethodError. */
  function Run(rows: seq<Account>, c: HandlerClass, obj: EventObject, ctx: Context): (r: Result<Effect, Error>)
    ensures r.Err? ==> r.error in {NoMethodError, RecordNotUnique}
    ensures r.Ok? && Valid(rows) ==> Valid(r.value.rows)
  {
    match (c, obj)
    case (CheckoutCompleted, SessionObject(s)) => CheckoutCompletedHandler.Reconcile(rows, s)
    case (SubscriptionCreated, SubscriptionObject(s)) =>
      Ok(SubscriptionCreatedHandler.Reconcile(rows, s, ctx.plans, ctx.methods))
    case (SubscriptionUpdated, SubscriptionObject(s)) =>
      Ok(SubscriptionUpdatedHandler.Reconcile(rows, s, ctx.plans, ctx.methods))
    case (SubscriptionDeleted, SubscriptionObject(s)) => Ok(SubscriptionDeletedHandler.Reconcile(rows, s))
    case (InvoicePaid, InvoiceObject(inv)) => Ok(InvoicePaidHandler.Reconcile(rows, inv, ctx.now))
    case (InvoicePaymentFailed, InvoiceObject(inv)) => Ok(InvoicePaymentFailedHandler.Reconcile(rows, inv))
    case _ => Err(NoMethodError)
  }

  /** `call`: an unmapped tag answers false and runs nothing; a mapped tag
      runs its handler once on the same event and answers true whatever
      the handler returned. A handler's exception propagates. */
  function Call(rows: seq<Account>, e: Event, ctx: Context): (r: Result<(seq<Account>, bool), Error>)
    ensures e.eventType !in Handlers ==> r == Ok((rows, false))
    ensures e.eventType in Handlers ==>
      var run := Run(rows, Handlers[e.eventType], e.data, ctx);
      && (run.Ok? ==> r == Ok((run.value.rows, true)))
      && (run.Err? ==> r == Err(run.error))
  {
    if e.eventType !in Handlers then Ok((rows, false))
    else
      match Run(rows, Handlers[e.eventType], e.data, ctx)
      case Ok(eff) => Ok((eff.rows, true))
      case Err(err) => Err(err)
  }

  /** Answer true exactly for mapped tags, even when the handler's lookup
      missed; the table keeps its unique keys. */
  lemma {:induction false} CallAnswersMapped(rows: seq<Account>, e: Event, ctx: Context)
    requires Call(rows, e, ctx).Ok?
    ensures Call(rows, e, ctx).value.1 <==> e.eventType in Handlers
    ensures Valid(rows) ==> Valid(Call(rows, e, ctx).value.0)
  {
    if e.eventType in Handlers {
      var run := Run(rows, Handlers[e.eventType], e.data, ctx);
      assert run.Ok?;
    }
  }

  /** An invoice.paid event for a customer nobody has still answers true
      and writes nothing. */
  lemma MissStillTrue(rows: seq<Account>, e: Event, ctx: Context)
    requires e.eventType == "invoice.paid" && e.data.InvoiceObject?
    requires forall j :: 0 <= j < |rows| ==> rows[j].stripeCustomerId != e.data.invoice.customer
    ensures Call(rows, e, ctx) == Ok((rows, true))
  {
  }
}

=== FILE: webhook_processor.dfy ===
/** app/services/stripe/webhook_processor.rb: a three-way dispatch with a
    default. The class-level `.call` of the handler classes it delegates to
    is not defined in the handler files, so the delegate is a parameter. */
module WebhookProcessor {
  import opened Wrappers
  import opened StripeObjects
  import opened WebhookHandler

  /** What `call` returns: the delegate's own result, or `true`. */
  datatype Outcome<T> = Delegated(value: T) | Acknowledged

  /** An instance of the processor, holding its event. */
  datatype Processor = Processor(event: Event)

  /** The handler class a tag is delegated to, if any. */
  function Target(eventType: string): (r: Option<HandlerClass>)
    ensures r.Some? <==> eventType in {"invoice.payment_failed", "customer.subscription.updated",
                                       "customer.subscription.deleted"}
    ensures r == Some(InvoicePaymentFailed) <==> eventType == "invoice.payment_failed"
    ensures r == Some(SubscriptionUpdated) <==> eventType == "customer.subscription.updated"
    ensures r == Some(SubscriptionDeleted) <==> eventType == "customer.subscription.deleted"
  {
    match eventType
    case "invoice.payment_failed" => Some(InvoicePaymentFailed)
    case "customer.subscription.updated" => Some(SubscriptionUpdated)
    case "customer.subscription.deleted" => Some(SubscriptionDeleted)
    case _ => None
  }

  /** `#call`: the delegate's result for a dispatched tag, `true` for every
      other one, without calling anything. */
  function Call<T>(p: Processor, delegate: (HandlerClass, Event) -> T): (r: Outcome<T>)
    ensures Target(p.event.eventType).None? ==> r == Acknowledged
    ensures Target(p.event.eventType).Some? ==> r == Delegated(delegate(Target(p.event.eventType).value, p.event))
  {
    match Target(p.event.eventType)
    case Some(c) => Delegated(delegate(c, p.event))
    case None => Acknowledged
  }

  /** `.call(event)` is `new(event).call`. */
  function ClassCall<T>(e: Event, delegate: (HandlerClass, Event) -> T): (r: Outcome<T>)
    ensures r == Call(Processor(e), delegate)
  {
    Call(Processor(e), delegate)
  }

  /** Checkout completion and paid invoices, which the handler table does
      route, are only acknowledged here. */
  lemma NotDispatchedHere<T>(e: Event, delegate: (HandlerClass, Event) -> T)
    requires e.eventType in {"checkout.session.completed", "invoice.paid", "customer.subscription.created"}
    ensures ClassCall(e, delegate) == Acknowledged
    ensures e.eventType in Handlers
  {
  }

  /** Every tag the processor dispatches goes to the class the handler
      table maps it to. */
  lemma AgreesWithHandlerTable(t: string)
    requires Target(t).Some?
    ensures t in Handlers && Handlers[t] == Target(t).value
  {
  }
}

=== FILE: webhooks_stripe_controller.dfy ===
/** app/controllers/webhooks/stripe_controller.rb: a webhook endpoint that
    correlates every event by customer id and delegates most updates to
    Account methods that app/models/account.rb does not define. */
module WebhooksStripeController {
  import opened Wrappers
  import opened Accounts
  import opened AccountStore
  import opened Web
  import opened StripeObjects

  /** The calls this controller makes into code that is not part of this
      model: `Stripe::Subscription.retrieve`, and the Account methods
      `sync_subscription`, `cancel_subscription` and
      `update_billing_period`, each given as the record it leaves behind. */
  datatype Collaborators = Collaborators(
    retrieve: Option<string> -> Result<Subscription, Error>,
    syncSubscription: (Account, Subscription) -> Account,
    cancelSubscription: (Account, Subscription) -> Account,
    updateBillingPeriod: (Account, Subscription) -> Account)

  /** The secret `construct_event` is given: the credentials value unless
      it is nil, else STRIPE_WEBHOOK_SECRET (nil when unset). */
  function SigningSecret(credentials: Option<string>, env: Option<string>): (r: Option<string>)
    ensures credentials.Some? ==> r == credentials
    ensures credentials.None? ==> r == env
    ensures r.None? <==> credentials.None? && env.None?
  {
    if credentials.Some? then credentials else env
  }

  /** `construct_event`: the verifier's outcome under the chosen secret. */
  function ConstructEvent(req: WebhookRequest, verify: Verifier, credentials: Option<string>, env: Option<string>): (r: Option<Event>)
    ensures r == verify(req.payload, req.signature, SigningSecret(credentials, env))
  {
    verify(req.payload, req.signature, SigningSecret(credentials, env))
  }

  /** `handle_checkout_session_completed`: correlates by the session's
      customer id (never by `client_reference_id`), then retrieves the
      subscription and syncs the account from it. */
  function HandleCheckoutSessionCompleted(rows: seq<Account>, s: CheckoutSession, c: Collaborators): (r: Result<seq<Account>, Error>)
    ensures FindByCustomer(rows, s.customer).None? ==> r == Ok(rows)
    ensures FindByCustomer(rows, s.customer).Some? ==>
      var i := FindByCustomer(rows, s.customer).value;
      && (c.retrieve(s.subscription).Err? ==> r == Err(c.retrieve(s.subscription).error))
      && (c.retrieve(s.subscription).Ok? ==>
            r == Write(rows, i, c.syncSubscription(rows[i], c.retrieve(s.subscription).value)))
    ensures r.Ok? ==> |r.value| == |rows|
    ensures r.Ok? ==> (forall j :: 0 <= j < |rows| && rows[j].stripeCustomerId != s.customer ==> r.value[j] == rows[j])
  {
    match FindByCustomer(rows, s.customer)
    case None => Ok(rows)
    case Some(i) =>
      match c.retrieve(s.subscription)
      case Err(e) => Err(e)
      case Ok(sub) => Write(rows, i, c.syncSubscription(rows[i], sub))
  }

  /** `handle_subscription_updated`: by the subscription's customer id. */
  function HandleSubscriptionUpdated(rows: seq<Account>, s: Subscription, c: Collaborators): (r: Result<seq<Account>, Error>)
    ensures FindByCustomer(rows, Some(s.customer)).None? ==> r == Ok(rows)
    ensures FindByCustomer(rows, Some(s.customer)).Some? ==>
      var i := FindByCustomer(rows, Some(s.customer)).value;
      && r == Write(rows, i, c.syncSubscription(rows[i], s))
      && (r.Ok? ==> OnlyRowChanged(rows, r.value, i))
    ensures r.Ok? ==> |r.value| == |rows|
    ensures r.Ok? ==>
      forall j :: 0 <= j < |rows| && rows[j].stripeCustomerId != Some(s.customer) ==> r.value[j] == rows[j]
  {
    match FindByCustomer(rows, Some(s.customer))
    case None => Ok(rows)
    case Some(i) => Write(rows, i, c.syncSubscription(rows[i], s))
  }

  /** `handle_subscription_deleted`: by the subscription's customer id. */
  function HandleSubscriptionDeleted(rows: seq<Account>, s: Subscription, c: Collaborators): (r: Result<seq<Account>, Error>)
    ensures FindByCustomer(rows, Some(s.customer)).None? ==> r == Ok(rows)
    ensures FindByCustomer(rows, Some(s.customer)).Some? ==>
      var i := FindByCustomer(rows, Some(s.customer)).value;
      && r == Write(rows, i, c.cancelSubscription(rows[i], s))
      && (r.Ok? ==> OnlyRowChanged(rows, r.value, i))
    ensures r.Ok? ==> |r.value| == |rows|
    ensures r.Ok? ==>
      forall j :: 0 <= j < |rows| && rows[j].stripeCustomerId != Some(s.customer) ==> r.value[j] == rows[j]
  {
    match FindByCustomer(rows, Some(s.customer))
    case None => Ok(rows)
    case Some(i) => Write(rows, i, c.cancelSubscription(rows[i], s))
  }

  /** `handle_invoice_payment_succeeded`: an invoice without a subscription
      returns before the account lookup and the retrieval. */
  function HandleInvoicePaymentSucceeded(rows: seq<Account>, inv: Invoice, c: Collaborators): (r: Result<seq<Account>, Error>)
    ensures inv.subscription.None? ==> r == Ok(rows)
    ensures inv.subscription.Some? && FindByCustomer(rows, inv.customer).None? ==> r == Ok(rows)
    ensures inv.subscription.Some? && FindByCustomer(rows, inv.customer).Some? ==>
      var i := FindByCustomer(rows, inv.customer).value;
      && (c.retrieve(inv.subscription).Err? ==> r == Err(c.retrieve(inv.subscription).error))
      && (c.retrieve(inv.subscription).Ok? ==>
            r == Write(rows, i, c.updateBillingPeriod(rows[i], c.retrieve(inv.subscription).value)))
  {
    if inv.subscription.None? then Ok(rows)
    else match FindByCustomer(rows, inv.customer)
      case None => Ok(rows)
      case Some(i) =>
        match c.retrieve(inv.subscription)
        case Err(e) => Err(e)
        case Ok(sub) => Write(rows, i, c.updateBillingPeriod(rows[i], sub))
  }

  /** `handle_invoice_payment_failed`: the customer's account becomes
      "past_due" and nothing else changes; an unknown customer changes
      nothing. The write keeps the customer id, so it cannot collide. */
  function HandleInvoicePaymentFailed(rows: seq<Account>, inv: Invoice): (r: seq<Account>)
    ensures FindByCustomer(rows, inv.customer).None? ==> r == rows
    ensures FindByCustomer(rows, inv.customer).Some? ==>
      var i := FindByCustomer(rows, inv.customer).value;
      OnlyRowChanged(rows, r, i) && r[i] == rows[i].(subscriptionStatus := Some("past_due"))
    ensures Valid(rows) ==> Valid(r)
  {
    match FindByCustomer(rows, inv.customer)
    case None => rows
    case Some(i) => Assign(rows, i, rows[i].(subscriptionStatus := Some("past_due")))
  }

  /** A repeated payment failure leaves the table as the first one did. */
  lemma {:induction false} PaymentFailedIdempotent(rows: seq<Account>, inv: Invoice)
    ensures HandleInvoicePaymentFailed(HandleInvoicePaymentFailed(rows, inv), inv) == HandleInvoicePaymentFailed(rows, inv)
  {
    match FindByCustomer(rows, inv.customer)
    case None =>
    case Some(i) =>
      var b := rows[i].(subscriptionStatus := Some("past_due"));
      FindByCustomerAfterWrite(rows, i, b, inv.customer);
      assert rows[i := b][i := b.(subscriptionStatus := Some("past_due"))] == rows[i := b];
  }

  /** The five tags `handle_event` acts on. */
  const HandledTags: set<string> := {"checkout.session.completed", "customer.subscription.updated",
    "customer.subscription.deleted", "invoice.payment_succeeded", "invoice.payment_failed"}

  /** `handle_event`: every other tag is only logged. A payload of the
      wrong kind for its tag raises NoMethodError. */
  function HandleEvent(rows: seq<Account>, e: Event, c: Collaborators): (r: Result<seq<Account>, Error>)
    ensures e.eventType !in HandledTags ==> r == Ok(rows)
    ensures e.eventType == "invoice.payment_failed" && e.data.InvoiceObject? ==>
              r == Ok(HandleInvoicePaymentFailed(rows, e.data.invoice))
    ensures e.eventType == "checkout.session.completed" && e.data.SessionObject? ==>
              r == HandleCheckoutSessionCompleted(rows, e.data.session, c)
    ensures e.eventType == "customer.subscription.updated" && e.data.SubscriptionObject? ==>
              r == HandleSubscriptionUpdated(rows, e.data.subscription, c)
    ensures e.eventType == "customer.subscription.deleted" && e.data.SubscriptionObject? ==>
              r == HandleSubscriptionDeleted(rows, e.data.subscription, c)
    ensures e.eventType == "invoice.payment_succeeded" && e.data.InvoiceObject? ==>
              r == HandleInvoicePaymentSucceeded(rows, e.data.invoice, c)
  {
    match (e.eventType, e.data)
    case ("checkout.session.completed", SessionObject(s)) => HandleCheckoutSessionCompleted(rows, s, c)
    case ("customer.subscription.updated", SubscriptionObject(s)) => HandleSubscriptionUpdated(rows, s, c)
    case ("customer.subscription.deleted", SubscriptionObject(s)) => HandleSubscriptionDeleted(rows, s, c)
    case ("invoice.payment_succeeded", InvoiceObject(inv)) => HandleInvoicePaymentSucceeded(rows, inv, c)
    case ("invoice.payment_failed", InvoiceObject(inv)) => Ok(HandleInvoicePaymentFailed(rows, inv))
    case _ => if e.eventType in HandledTags then Err(NoMethodError) else Ok(rows)
  }

  /** "customer.subscription.created" is not one of the five tags: it is
      answered without touching the table, and so is "invoice.paid". */
  lemma CreatedIsIgnored(rows: seq<Account>, e: Event, c: Collaborators)
    requires e.eventType in {"customer.subscription.created", "invoice.paid"}
    ensures HandleEvent(rows, e, c) == Ok(rows)
  {
  }

  /** `create`: no event means 400 and no handling; otherwise the event is
      handled and answered 200 (a handler's exception propagates). */
  method Create(db: AccountTable, req: WebhookRequest, verify: Verifier, credentials: Option<string>, env: Option<string>, c: Collaborators)
    returns (r: Result<Response, Error>)
    modifies db
    ensures ConstructEvent(req, verify, credentials, env).None? ==> r == Ok(Head(400)) && db.rows == old(db.rows)
    ensures ConstructEvent(req, verify, credentials, env).Some? ==>
      var h := HandleEvent(old(db.rows), ConstructEvent(req, verify, credentials, env).value, c);
      && (h.Ok? ==> r == Ok(Head(200)) && db.rows == h.value)
      && (h.Err? ==> r == Err(h.error) && db.rows == old(db.rows))
  {
    var event := ConstructEvent(req, verify, credentials, env);
    if event.None? {
      return Ok(Head(400));
    }
    var h := HandleEvent(db.rows, event.value, c);
    if h.Err? {
      return Err(h.error);
    }
    db.rows := h.value;
    r := Ok(Head(200));
  }
}

=== FILE: wrappers.dfy ===
/** Option and Result, the two failure-carrying datatypes the model uses
    for Ruby's nil and for raised exceptions. */
module Wrappers {

  datatype Option<+T> = None | Some(value: T) {
    function GetOr(default: T): T {
      match this
      case Some(v) => v
      case None => default
    }
  }

  datatype Result<+T, +E> = Ok(value: T) | Err(error: E)
}

/** `Enumerable#find` over a sequence: the index of the first element
    satisfying a predicate, or none. ActiveRecord's `find_by` returns the
    first matching row, so every lookup in the model is built on this. */
module Search {
  import opened Wrappers

  function FirstIndexFrom<T>(s: seq<T>, p: T -> bool, k: nat): (r: Option<nat>)
    requires k <= |s|
    ensures r.Some? ==> k <= r.value < |s| && p(s[r.value])
    ensures r.Some? ==> forall j :: k <= j < r.value ==> !p(s[j])
    ensures r.None? ==> forall j :: k <= j < |s| ==> !p(s[j])
    decreases |s| - k
  {
    if k == |s| then None
    else if p(s[k]) then Some(k)
    else FirstIndexFrom(s, p, k + 1)
  }

  function FirstIndex<T>(s: seq<T>, p: T -> bool): (r: Option<nat>)
    ensures r.Some? ==> r.value < |s| && p(s[r.value])
    ensures r.Some? ==> forall j :: 0 <= j < r.value ==> !p(s[j])
    ensures r.None? <==> forall j :: 0 <= j < |s| ==> !p(s[j])
  {
    FirstIndexFrom(s, p, 0)
  }

  /** The first match is determined by the elements alone: two sequences
      that agree on `p` everywhere have the same first match. */
  lemma FirstIndexRespectsPredicate<T>(s: seq<T>, t: seq<T>, p: T -> bool)
    requires |s| == |t|
    requires forall j :: 0 <= j < |s| ==> p(s[j]) == p(t[j])
    ensures FirstIndex(s, p) == FirstIndex(t, p)
  {
  }
}
